=== FILE: README.md ===
# Commission ledger — a Dafny model

The system records sales commissions. Each record holds an invoice ("NF") number, two order numbers (Nectar and Embrascol), the invoice value, a commission factor (2.5 % by default), the commission, a paid flag and two timestamps.

There are two front ends:

- A web application. Its Express server keeps the records in a PostgreSQL table, where a trigger recomputes the commission on every write. It serves them to a React dashboard behind a one-account session login.
- A stand-alone desktop application in Python. It keeps its own list in memory.

This project models the core of both in Dafny 4 and proves properties of the model. Each module follows one part of the program:

| module | models |
|---|---|
| `Store` | the `commissions` table, its `BEFORE INSERT OR UPDATE` trigger, and `INSERT`, `UPDATE` and `DELETE` on it |
| `Api` | the login, logout and auth-check routes, the `requireAuth` gate, and the list, create, update, delete and export handlers |
| `Listing` | the status filter and the `ORDER BY created_at DESC` of the list and export queries |
| `CsvExport` | the export's row transform, header and document |
| `Dashboard` | the React dashboard's filter, its list updates after create, edit and delete, and the summary cards |
| `RowEditing` | the inline edit, the save and toggle request bodies, and the delete confirmation of the list component |
| `CommissionForm` | the new-commission form: preview, submit rule, request body, reset |
| `DesktopApp` | the Python application's save, status changes, edit, delete, reports, totals and CSV export |
| `Money`, `Decimal`, `Text`, `Clock`, `Wrappers` | exact amounts, the `toFixed` rendering and its parser, Python-style string helpers, dates, `Option`/`Result` |

Units:

- Amounts are exact integers. `value_nf` and `commission_value` are in cents, and `factor` is in ten-thousandths (0.025 is 250).
- `DECIMAL(10,2)` columns hold magnitudes below 10^10 cents, and `DECIMAL(5,4)` magnitudes below 10^5 units. A value outside these ranges fails the write with a numeric overflow, as PostgreSQL does.
- Assigning the product value × factor to the two-decimal commission column rounds half away from zero (`Money.RoundToCents`).
- The desktop application does not round. Its commission is kept exactly, in millionths.
- The table is a sequence of rows in insertion order, with strictly ascending ids and the `SERIAL` counter beside it.
- The current time and "today" are parameters.

Where the code and its documentation differ, the model follows the code.

## Model

| member | source | states |
|---|---|---|
| `Money.RoundToCents` | server/database.js:20-22 | a product in millionths is stored within half a cent of its value, a tie goes away from zero, and the sign is kept |
| `Money.CommissionExact` | server/database.js:34 | when value × factor is a whole number of cents, that is exactly the commission stored |
| `Store.WriteHook` | server/database.js:31-38 | the trigger makes `commission_value` the rounded value × factor and `updated_at` the write time, and changes no other column |
| `Store.Insert` | server/database.js:15-26 | an insert takes the next serial id even when it fails, defaults the factor to 0.025 and the paid flag to false, and fails with an overflow exactly when the value, factor or commission leaves its column's range; a failed insert leaves the rows unchanged |
| `Store.Update` | server/index.js:169-182 | an update is NotFound exactly when no row has the id, is refused when it nulls `value_nf` or `factor`, and otherwise replaces that one row in place with the `SET` columns applied, the id and `created_at` kept and the trigger applied |
| `Store.Delete` | server/index.js:196-200 | a delete is NotFound exactly when no row has the id, and otherwise removes that row and keeps the others in order |
| `Store.InsertKeepsValid` | server/database.js:15-26 | an insert keeps the table invariant: ids ascending and below the counter, commissions derived, values within their columns |
| `Store.UpdateKeepsValid` | server/database.js:43-46 | an update keeps the table invariant |
| `Store.DeleteKeepsValid` | server/index.js:196 | a delete keeps the table invariant |
| `Store.DeleteRemovesExactly` | server/index.js:196-200 | after a delete the id is gone, a second delete of it is NotFound, and every other row is still there |
| `Store.PaidOnlyUpdateKeepsAmounts` | server/database.js:31-38 | setting only `is_paid` succeeds on an existing row and changes nothing else except `updated_at` |
| `Store.SuppliedDerivedColumnsIgnored` | server/database.js:34-35 | a commission or update time supplied in an update makes no difference to the outcome |
| `Store.Run` | server/database.js:16 | over any run of writes, the ids handed to new rows are strictly increasing and lie between the old and the new counter |
| `Store.DeletedIdNeverReissued` | server/database.js:16 | once a row is deleted, no later insert gets its id again |
| `Api.EnvOr` | server/index.js:60-61 | an unset or empty environment variable gives the fallback |
| `Api.Login` | server/index.js:56-73 | login answers 200 and opens the session exactly when both the username and the password match; otherwise it answers 401 and leaves the session as it was |
| `Api.Logout` | server/index.js:76-83 | logout ends the session with 200 |
| `Api.AuthCheck` | server/index.js:86-92 | the auth check always answers 200 and reports authenticated exactly when the session has a user |
| `Api.NullIfFalsy` | server/index.js:132-134 | a falsy field (absent, null, "", the number 0 or false) is stored as NULL, and any other as the text the driver sends for it |
| `Api.CreateStoresScalarText` | server/index.js:132-134 | a non-zero number or `true` in a text field of the create body is stored exactly as if its text had been sent, while 0 and `false` are stored as NULL, as if the field were absent |
| `Api.FactorOf` | server/index.js:136 | an absent, null or empty factor or the number 0 gives 0.025; a non-empty text is parsed and a non-zero number is kept |
| `Api.Create` | server/index.js:121-145 | create answers 200 or 500, and 200 exactly when the factor reads as a number and the value, the factor and the rounded commission all fit their columns; on 200 the new row is appended with the next id, the cleaned texts, the given value and factor, unpaid and with a derived commission; on 500 the rows are unchanged |
| `Api.CreateThenDelete` | server/index.js:121-145 | deleting the id a successful create answered with succeeds and gives back exactly the rows from before the create |
| `Api.UpdateRoute` | server/index.js:148-189 | on the columns the body's keys name, update answers 400 exactly when the body has no key besides `id` and `created_at`, and 404 exactly when the body is writable but the id is missing; only 200 changes the table, and then only the one row, keeping its id and `created_at` |
| `Api.UpdateRouteWrites` | server/index.js:148-189 | a well-typed body with a writable key, for an existing id, that nulls neither `value_nf` nor `factor` and fits the columns answers 200 with the row as the `SET` list and the trigger leave it, written back in place |
| `Api.FlagDigits` | server/database.js:23 | the `boolean` column reads "1" as true and "0" as false, and refuses "2" and the empty text |
| `Api.FlagWordsIgnoreCase` | server/database.js:23 | the `boolean` column ignores case and takes unambiguous prefixes of its words: "TRUE" reads as true and "Off" as false, while "o", which could begin "on" or "off", is refused |
| `Api.FlagNumbers` | server/index.js:160 | the JSON numbers 1 and 0, sent as their text, are accepted as true and false, while 2 and null are refused |
| `Api.JsonBooleanReads` | server/index.js:160 | a JSON boolean's parameter text reads back as the boolean |
| `Api.IsoTextReads` | server/database.js:25 | the `toJSON` text of a timestamp is accepted by `updated_at` as that timestamp to the millisecond |
| `Api.SameReadingSameAnswer` | server/index.js:157-184 | two bodies with the same kept keys whose values the columns read alike get the same answer and leave the same table |
| `Api.TextColumnStoresParamText` | server/index.js:160 | a number or boolean sent for a `VARCHAR` column acts exactly as its text: "123", "true" or "false" |
| `Api.FlagSpellingActsAsBoolean` | server/index.js:160 | any spelling `is_paid` accepts, "1", "off" or the number 0 among them, acts exactly as the JSON boolean it reads as |
| `Api.IsoUpdatedAtIgnored` | server/database.js:35 | the `toJSON` text of any timestamp sent as `updated_at` with another writable key changes neither the answer nor the table |
| `Api.PaidWithIsoTextAnswers200` | src/components/CommissionList.tsx:44 | a body setting `is_paid` to true and `updated_at` to "2024-01-15T10:30:00.000Z" answers 200 for any existing id |
| `Api.NumberInTextColumnStored` | server/database.js:17 | the JSON number n sent as `nf_number` for an existing id answers 200 and stores the decimal text of n |
| `Api.IgnoredKeysDropped` | server/index.js:157-163 | whatever the body says for `id` or `created_at` makes no difference to the answer or the table |
| `Api.UnknownColumnRefused` | server/index.js:159 | a body naming a column the table does not have answers 500 and leaves the table unchanged |
| `Api.ColumnNamesReadBack` | server/index.js:159 | every column's own name, spliced into the `SET` list, is read by PostgreSQL as that column |
| `Api.KeySpellings` | server/index.js:159 | PostgreSQL folds an unquoted name to lower case, so the key "ID" names the `id` column |
| `Api.SpacedKey` | server/index.js:159 | the blanks around a spliced key are skipped, so the key "id " names the `id` column |
| `Api.SetList` | server/index.js:157-163 | the `SET` list exists exactly when no two kept keys name one column, and then holds exactly the columns the kept keys name, each with its key's value |
| `Api.UpdateBody` | server/index.js:148-189 | update on the JSON body, with every key PostgreSQL reads as `id` or `created_at` dropped: 400 exactly when no other key remains, 500 when two keys name one column, 404 only for a missing id; only 200 changes the table, and then only the one row, keeping its id and `created_at` |
| `Api.OneKeyBody` | server/index.js:157-171 | a body of one key acts exactly as the column PostgreSQL reads the key as |
| `Api.IgnoredSpellingDropped` | server/index.js:157-163 | whatever the body says under any spelling of `id` or `created_at` makes no difference to the answer or the table |
| `Api.UnknownKeyRefused` | server/index.js:159 | a body key PostgreSQL reads as no column makes the update answer 500 with the table unchanged |
| `Api.ExactNamesRead` | src/components/CommissionList.tsx:38-44 | a body keyed by the columns' own names, as the list component sends it, acts exactly as the columns it names |
| `Api.UpdateBodyKeepsValid` | server/index.js:148-189 | an update through the JSON body keeps the table invariant |
| `Api.KeyColumn` | server/index.js:159 | a key names the column whose name it is once the blanks around it are skipped and its letters folded to lower case, and names no column exactly when neither the key nor that folded form is a column's name |
| `Api.SetListAsWritten` | server/index.js:157-163 | as written, every key other than exactly "id" and "created_at" enters the `SET` list as the column PostgreSQL reads it as, with its value, unless two keys name one column |
| `Api.AsWrittenKeepsOtherSpellings` | server/index.js:158 | the handler as written keeps a key that names `id` or `created_at` in another case or with blanks around it, and its `SET` list then assigns that column |
| `Api.CasedIdKeyAssignsId` | server/index.js:158-159 | for the body {"ID": 7} the handler as written assigns 7 to the row's id, while the corrected handler answers 400 with the table unchanged |
| `Api.FabricatedDerivedIgnored` | server/database.js:31-46 | a fabricated `commission_value` or `updated_at` sent with some other writable key changes neither the answer nor the table |
| `Api.DeleteRoute` | server/index.js:192-207 | delete answers 200 exactly when the id exists, and otherwise 404 with the table unchanged |
| `Api.ListRoute` | server/index.js:97-118 | the list is newest first and holds exactly the rows the status filter selects |
| `Api.ExportRoute` | server/index.js:210-252 | export answers 200, leaves the table alone, and its text starts with the byte-order mark |
| `Api.ExportHoldsEveryRow` | server/index.js:212-247 | the exported rows are a newest-first permutation of the whole table, and after the byte-order mark the text splits into the header line and one line per row, in that order, when no text holds ';' or a line break |
| `Api.Handle` | server/index.js:46-51 | without a session user every commission route answers 401 and leaves the table untouched; with one it never answers 401 |
| `Api.Dispatch` | server/index.js:97-252 | none of the commission handlers answers 401, and none breaks the table invariant |
| `Api.HandleKeepsValid` | server/index.js:46-51 | no request, signed in or not, breaks the table invariant |
| `Api.LoginOpensGate` | server/index.js:56-73 | after a successful login no commission route answers 401 and the auth check reports a user |
| `Api.LogoutClosesGate` | server/index.js:76-83 | after a logout every commission route answers 401 with the table untouched, and the auth check reports no user |
| `Listing.Select` | server/index.js:104-108 | the status filter keeps exactly the rows it selects |
| `Listing.SelectEverything` | server/index.js:101 | with no status filter every row is kept, in order |
| `Listing.SelectAppend` | server/index.js:104-108 | filtering keeps the rows' order |
| `Listing.FilterOf` | server/index.js:99-108 | only `status=paid` selects paid rows and only `status=pending` unpaid ones; anything else selects all |
| `Listing.InsertByAge` | server/index.js:110 | inserting a row into a newest-first list keeps it newest first and adds exactly that row |
| `Listing.SortNewestFirst` | server/index.js:110 | the sort gives a newest-first permutation of its input |
| `Listing.List` | server/index.js:101-113 | the listing is a newest-first permutation of the selected rows |
| `CsvExport.Values` | server/index.js:214-239 | a row becomes nine values in the header's column order, and the status value is "Pago" exactly for paid rows and "Pendente" exactly for unpaid ones |
| `CsvExport.Cells` | server/index.js:226-229 | each written cell is the rendering of the value in its column |
| `CsvExport.UnquoteQuoted` | server/index.js:226-229 | a string written between quotes, with inner quotes doubled, reads back as the string |
| `CsvExport.RenderReadsBack` | server/index.js:226-229 | a string cell reads back as its string once unquoted, a number cell is its digits, and NULL is an empty cell |
| `CsvExport.CellsReadBack` | server/index.js:230-239 | a non-negative id, the texts (NULL as an empty cell), the two-decimal amounts, the four-decimal factor, the status label and the dd/mm/yyyy date read back as the row's own values |
| `CsvExport.HeaderReadsBack` | server/index.js:214-224 | the header line splits on ';' into quoted cells that read back as the nine labels |
| `CsvExport.IdCellReadsBack` | server/index.js:215 | the id cell reads back as the id |
| `CsvExport.LineReadsBack` | server/index.js:229 | splitting a line on ';' gives back its cells when no text contains ';' or a line break |
| `CsvExport.DocumentReadsBack` | server/index.js:226-247 | the document is the byte-order mark followed by the header line and one line per row, in order, when no text holds ';' or a line break |
| `Clock.DateBRReadsBack` | server/index.js:234 | the rendered date splits on '/' into day, month and year that read back as the timestamp's own |
| `Clock.ToMillis` | server/index.js:184 | `toJSON` keeps the date and drops what is below a millisecond, so the result is at most the instant and less than a millisecond before it |
| `Clock.IsoReadsBack` | server/database.js:24-25 | the `toJSON` text of a timestamp reads back as that timestamp to the millisecond |
| `Clock.ParsedIsIso` | server/database.js:24-25 | every text the column reads in that layout is the `toJSON` text of what it reads as, so the layout has one spelling per instant |
| `Clock.SampleIsoParses` | server/database.js:25 | "2024-01-15T10:30:00.000Z" reads as 10:30 on 15 January 2024 |
| `Decimal.FixedRoundTrip` | server/index.js:235-237 | `toFixed(n)` text parses back to the amount it rendered, for either sign |
| `Dashboard.FilterCommissions` | src/components/Dashboard.tsx:49-59 | "all" is the whole list, "pending" exactly the unpaid records and "paid" exactly the paid ones |
| `Dashboard.FilterKeepsOrder` | src/components/Dashboard.tsx:52-56 | every filter keeps the list's order |
| `Dashboard.Added` | src/components/Dashboard.tsx:61-63 | a created record goes first and the rest follow unchanged |
| `Dashboard.Updated` | src/components/Dashboard.tsx:65-69 | an edited record replaces every record with its id, and the other records stay where they are |
| `Dashboard.Removed` | src/components/Dashboard.tsx:71-73 | a delete keeps exactly the records with another id |
| `Dashboard.RemovedCount` | src/components/Dashboard.tsx:71-73 | a delete keeps every record with another id as many times as it occurred, and none with the id |
| `Dashboard.RemovedSameRecords` | src/components/Dashboard.tsx:71-73 | two lists holding the same records, in any order, still do after the same delete |
| `Dashboard.RemovedKeepsOrder` | src/components/Dashboard.tsx:71-73 | a delete keeps the order of what remains |
| `Dashboard.RemoveUndoesAdd` | src/components/Dashboard.tsx:61-73 | deleting a record just added under a fresh id restores the list |
| `Dashboard.UpdatedIdempotent` | src/components/Dashboard.tsx:65-69 | applying the same update twice is applying it once |
| `Dashboard.SplitByStatus` | src/components/Dashboard.tsx:99-103 | the pending and paid records partition the list, in count and in commission sum |
| `Dashboard.StatsBalance` | src/components/Dashboard.tsx:97-104 | in the summary cards, pending plus paid equals the total, in count and in value |
| `Dashboard.AverageTicket` | src/components/Dashboard.tsx:197 | the average is shown exactly when there are records, and then times the count gives the total |
| `RowEditing.Snapshot` | src/components/CommissionList.tsx:33 | the edit copy holds all ten columns, with the amounts as the decimal text the database driver sends and the timestamps as their `toJSON` text, and is a body the update route accepts |
| `RowEditing.NumericText` | src/components/CommissionList.tsx:33 | an amount sent as decimal text reads back at its column's scale as the amount |
| `RowEditing.HandleEdit` | src/components/CommissionList.tsx:31-34 | edit mode opens on the row's id with a full copy of the row |
| `RowEditing.EditField` | src/components/CommissionList.tsx:141-201 | an input sets its own column in the copy and keeps the others |
| `RowEditing.NumberInput` | src/components/CommissionList.tsx:185 | value and factor text becomes the number it denotes, and text that is not a number becomes null |
| `RowEditing.HandleCancel` | src/components/CommissionList.tsx:58-61 | cancel leaves edit mode with an empty copy |
| `RowEditing.HandleSave` | src/components/CommissionList.tsx:36-56 | an ok answer leaves edit mode and hands the updated row to the list; a refused or failed request changes nothing |
| `RowEditing.TogglePayload` | src/components/CommissionList.tsx:90 | the toggle sends only `is_paid`, negated |
| `RowEditing.HandleDelete` | src/components/CommissionList.tsx:63-80 | the list hears of a delete exactly when the user confirmed and the answer was ok |
| `RowEditing.DeleteMirrorsServer` | src/components/CommissionList.tsx:63-80 | a confirmed delete reaches the list exactly when the server found the id; removing that id from the table's rows then gives the rows the server keeps, in order, and removing it from the dashboard's newest-first list leaves exactly the same records; otherwise the table is unchanged |
| `RowEditing.ListedSameRecords` | src/components/Dashboard.tsx:71-73 | the dashboard's newest-first list and the table's rows, each less one id, hold the same records |
| `RowEditing.UntouchedSaveKeepsRow` | src/components/CommissionList.tsx:36-52 | saving an untouched edit copy, timestamps sent as `toJSON` text, answers 200 and changes only the row's `updated_at` |
| `RowEditing.ToggleFlipsOnlyPaid` | src/components/CommissionList.tsx:82-95 | a toggle answers 200 and changes only the row's paid flag and `updated_at` |
| `RowEditing.NullValueRefused` | server/database.js:20 | a null `value_nf` in a saved copy answers 500 and leaves the table untouched |
| `RowEditing.ClearedValueRefused` | src/components/CommissionList.tsx:185 | emptying the value input and saving answers 500 and leaves the table untouched |
| `CommissionForm.HandleChange` | src/components/CommissionForm.tsx:69-74 | typing into an input changes that input's text only |
| `CommissionForm.ParsedOrZero` | src/components/CommissionForm.tsx:32-33 | a number text gives its value, and anything else gives 0 |
| `CommissionForm.PreviewAsWritten` | src/components/CommissionForm.tsx:31-35 | as written, a blank factor previews a commission of zero |
| `CommissionForm.FactorUsed` | server/index.js:136 | a blank factor text means 0.025 and any other text its parsed value |
| `CommissionForm.Preview` | src/components/CommissionForm.tsx:31-35 | the corrected preview equals the as-written one whenever the factor is filled in, and uses 0.025 when it is blank |
| `CommissionForm.RequestBody` | src/components/CommissionForm.tsx:37-50 | the posted body carries the form's texts and factor text unchanged and the value it denotes; it exists exactly when the value text is a number |
| `CommissionForm.BeginSubmit` | src/components/CommissionForm.tsx:184 | a submit starts loading only when the button is enabled (not loading and a value typed), and otherwise changes nothing |
| `CommissionForm.FinishSubmit` | src/components/CommissionForm.tsx:52-66 | loading always ends; an ok create resets the form, and anything else keeps the typed text |
| `CommissionForm.DefaultFactorText` | src/components/CommissionForm.tsx:22-28 | the preset factor text "0.025" reads as the server's default factor |
| `CommissionForm.ResetIsInitial` | src/components/CommissionForm.tsx:54-60 | the form after a successful create is the form the page starts with, and its factor is the one the server would fill in |
| `CommissionForm.PreviewMatchesStored` | src/components/CommissionForm.tsx:31-35 | a form whose value and factor read as numbers the columns can hold is stored with 200, with the factor the form implies, and rounded to cents the corrected preview is the commission stored |
| `CommissionForm.BlankFactorPreviewDisagrees` | src/components/CommissionForm.tsx:33 | as written, R$ 100 with a blank factor previews zero, while on any table the create succeeds and stores R$ 2.50 |
| `Text.Strip` | python/commission_app.py:148-150 | stripping leaves no surrounding whitespace, in the sense of Python's `str.isspace()`, and is empty exactly for all-whitespace text |
| `DesktopApp.ParseNumber` | python/commission_app.py:141-142 | a blank field never parses as a number |
| `DesktopApp.CommaReadsAsPoint` | python/commission_app.py:141-142 | a decimal comma reads exactly like a decimal point |
| `DesktopApp.ParseNumberFixed` | python/commission_app.py:251-252 | the number text put into the form by edit reads back as the same number |
| `DesktopApp.Record` | python/commission_app.py:134-167 | a blank value is "required", an unreadable value or factor is "invalid", and otherwise the record holds the stripped texts, the parsed value and factor, their exact product, "Pendente" and today's date |
| `DesktopApp.SaveWith` | python/commission_app.py:146-161 | a save appends exactly the built record and clears the form; a refused save changes nothing |
| `DesktopApp.SaveAsWritten` | python/commission_app.py:147 | as written, the new record's id is the list length plus one |
| `DesktopApp.NextId` | python/commission_app.py:147 | the corrected id is positive and above every id in the list |
| `DesktopApp.Save` | python/commission_app.py:134-167 | the corrected save appends one record after the unchanged list, with an id above every id already there |
| `DesktopApp.SaveKeepsIdsUnique` | python/commission_app.py:147 | the corrected save keeps the ids distinct |
| `DesktopApp.NewStatus` | python/commission_app.py:207 | a toggle makes "Pendente" into "Recebida" and anything else into "Pendente" |
| `DesktopApp.FirstIndex` | python/commission_app.py:205-208 | the lookup finds the first record with the id, or reports that none has it |
| `DesktopApp.UpdateFirst` | python/commission_app.py:205-208 | only the first record with the id gets the new status, and nothing else changes |
| `DesktopApp.ToggleStatus` | python/commission_app.py:199-212 | a toggle acts on the first selected id only, and without a selection nothing happens |
| `DesktopApp.ToggleTwice` | python/commission_app.py:207 | toggling twice restores a list whose statuses are all "Pendente" or "Recebida" |
| `DesktopApp.ChangeStatus` | python/commission_app.py:220-235 | with no selection only a warning is shown; otherwise each selected id's first record gets the status, and no other record or field changes |
| `DesktopApp.EditSelected` | python/commission_app.py:237-259 | edit moves the first record with the first selected id into the form and out of the list; an unknown id changes nothing |
| `DesktopApp.EditForm` | python/commission_app.py:248-252 | the form filled from a record holds its texts, and number fields that read back as its value and factor |
| `DesktopApp.EditThenSave` | python/commission_app.py:237-259 | editing a record and saving it again re-creates it at the end with the same texts and amounts, now pending |
| `DesktopApp.Unselected` | python/commission_app.py:268-270 | exactly the records whose id is not selected remain |
| `DesktopApp.UnselectedAppend` | python/commission_app.py:268-270 | the selection filter keeps order and multiplicity: filtering a concatenation filters each part |
| `DesktopApp.UnselectedOne` | python/commission_app.py:270 | one record stays exactly when its id is not selected |
| `DesktopApp.Without` | python/commission_app.py:270 | one pass of the comprehension removes exactly the records with that id |
| `DesktopApp.DeleteEach` | python/commission_app.py:268-270 | one pass per selected id leaves what the selection filter leaves, so exactly the selected records go and the others keep their order and multiplicity |
| `DesktopApp.DeleteSelected` | python/commission_app.py:261-274 | with no selection only a warning is shown, without confirmation nothing changes, and with it exactly the selected ids go |
| `DesktopApp.SaveAfterDeleteRepeatsId` | python/commission_app.py:147 | as written, with records 1 and 2, deleting 1 and saving gives two records with id 2 |
| `DesktopApp.WithStatus` | python/commission_app.py:289 | the status filter keeps exactly the records with that status |
| `DesktopApp.WithStatusAppend` | python/commission_app.py:289 | the status filter keeps order and multiplicity: filtering a concatenation filters each part, and one record stays exactly when it has the status |
| `DesktopApp.Report` | python/commission_app.py:285-334 | "Todas" reports every record and any other filter the status filter's records, in order; an empty report only shows a message; the count and totals are over the reported records |
| `DesktopApp.ComputeTotals` | python/commission_app.py:375-378 | the pending and received totals are the commission sums of the "Pendente" and of the "Recebida" records, and the grand total is their sum |
| `DesktopApp.StatusTotal` | python/commission_app.py:376-377 | adding up, in one pass, the commissions of the records with a status gives the sum over the status filter's records |
| `DesktopApp.TotalsAppend` | python/commission_app.py:375-378 | the totals of a list are the sums of the totals of its parts |
| `DesktopApp.TotalsOfOne` | python/commission_app.py:375-378 | one record adds its commission to the total of its own status and to the grand total, and a record with another status to none |
| `DesktopApp.ReportMatchesTotals` | python/commission_app.py:285-334 | the commission total of a pending or received report is the running total the main window shows for that status |
| `DesktopApp.TotalsPartition` | python/commission_app.py:376-378 | when every status is "Pendente" or "Recebida", the grand total is the sum of all commissions |
| `DesktopApp.ToggleMovesCommission` | python/commission_app.py:375-378 | toggling a pending record moves its commission from the pending to the received total and keeps the grand total |
| `DesktopApp.Export` | python/commission_app.py:339-369 | with no records only a warning is shown; otherwise the file has the nine field names as its header and one row per record, and each row reads back as its record |
| `DesktopApp.ExportReadsBack` | python/commission_app.py:356-369 | reading the exported rows back gives the whole list, in order |

## Left out

- The Express wiring is not modelled: CORS, static files, the catch-all route, cookie options and session expiry, and `dotenv`. The session is one optional username.
- The 500 answers of login and logout come only from exceptions and session-store failures, which are not modelled.
- The `pg` connection pool and the SQL text are not modelled. The statements are replaced by `Store` functions. The keys of the update body are read as PostgreSQL reads an unquoted name (`Api.KeyColumn`), and a key read as no column answers 500, as the failing statement does.
- Api.KeyColumn: a key in double quotes, such as "\"id\"", and a key carrying further SQL, such as a comment or a second assignment, are not modelled. Here they read as no column and answer 500; in the source "\"id\"" assigns the id and other keys splice SQL into the statement. Letters outside ASCII are not folded, as PostgreSQL does not fold them under UTF-8.
- CsvExport.DocumentReadsBack: requires texts free of ';' and line breaks. json2csv quotes every string cell and every header label (inner quotes doubled) and leaves the numeric id bare; the model writes the same, but it reads the document back by splitting at every ';' and line break, which would cut such a text inside its quotes. json2csv's end-of-line is taken to be '\n'.
- Locale formatting is not modelled: `toLocaleString` amounts in the React components, and f-string amounts in the desktop reports and status bar.
- Floating point is replaced by exact integers. `parseFloat`/`float()`, and PostgreSQL's reading of decimal text sent to a `NUMERIC` column, are modelled by a strict parser of `[-]digits[.digits]` with at most the column's fractional digits. It has no exponents, no numeric-prefix reading, no leading or trailing spaces, and no `inf`/`nan`.
- Api.Create: a factor text the strict parser refuses answers 500. The source's `parseFloat` reads a numeric prefix, so " 0.03", ".5", "1e-2" and "0.03abc" become numbers and are stored with 200, and "0.02555" is stored rounded by `NUMERIC(5,4)` to 0.0256. A text with no numeric prefix becomes `NaN`, which PostgreSQL's numeric type accepts, so the source answers 200 with a `NaN` row there too.
- Api.Create: a number in a text field is an integer; a fractional one, such as 1.5 stored as "1.5", and JSON objects and arrays there, which the driver sends as their JSON text, are not modelled.
- Api.Create: the body's `value_nf` is already a whole number of cents. The server's own `parseFloat(value_nf)` is not modelled: a missing value would be `NaN` rather than refused, and a third decimal would be rounded by the column.
- CommissionForm.RequestBody: a value text that is not a plain decimal with at most two fractional digits gives no body; what the server's `parseFloat` would make of it is not modelled.
- Api.Handle: request ids are integers. `parseInt` of a path that is not a number gives `NaN`, and the update and delete routes then answer 500; that path is not modelled.
- Api.UpdateRoute: the driver sends every non-null value as text, and the model follows it for numbers and booleans in the text columns, the spellings `is_paid` accepts, and `toJSON` text in `updated_at`. What is still not modelled, each answering 500 where PostgreSQL may accept it:
  - a null `is_paid`, which the nullable column would store as NULL;
  - whitespace around a boolean word;
  - JSON objects and arrays, and numbers that are not integers or that JavaScript writes in exponent notation, in the text columns;
  - timestamp texts in any layout other than `toJSON`'s (such as "2024-01-15 10:30", "now" or "epoch"), hour 24 and leap seconds;
  - decimal text with more fractional digits than the column's scale, which PostgreSQL would round;
  - the other decimal texts PostgreSQL's `numeric` input reads: blanks before or after the number, a leading "+", no digit before the point (".5"), an exponent ("1e2"), and "NaN".
- Clock.Timestamp: years run from 1 to 9999; PostgreSQL's wider range and BC dates are not modelled.
- Clock.Iso: timestamps are taken as UTC. The `TIMESTAMP` columns have no time zone and node-postgres reads them in the server's local zone, which is not modelled. What is below a millisecond is dropped, as `toJSON` does.
- Store.FitsColumns: the 255-character limit of the `VARCHAR` columns is not modelled.
- Store.Insert: the 32-bit limit of the `SERIAL` counter is not modelled.
- Listing.SortNewestFirst: rows with equal `created_at` keep insertion order; SQL leaves that order unspecified.
- The dashboard's fetch, loading flag and CSV download are not modelled, and neither are the toggle's client-side error path, the page routing, and vite.config.ts.
- The desktop application's JSON load and save, the tkinter widgets, message boxes and the file dialog are not modelled. The report text and the clock (`datetime.now`) are not modelled either; the date is a parameter.
- DesktopApp.Export: models the header and the cells of each row; how the `csv` module writes them (Python's `repr` of a float, quoting, line ends) is not modelled.
- DesktopApp.EditForm: puts the amounts into the form as fixed-point text rather than Python's `str(float)`; only that the text reads back as the same number is stated.

## Findings

| source | as written | input that shows it | evidently intended | confidence | as-written member | corrected member |
|---|---|---|---|---|---|---|
| python/commission_app.py:147 | a new record's id is `len(self.commissions) + 1` | records 1 and 2; delete record 1; save a new record: it gets id 2 while record 2 is still listed, and toggle, status change and edit then reach only the first of the two, while delete removes both | an id not in use, e.g. one past the largest id | medium, not executed | `DesktopApp.SaveAsWritten`, `DesktopApp.SaveAfterDeleteRepeatsId` | `DesktopApp.Save`, `DesktopApp.SaveKeepsIdsUnique` |
| server/index.js:158-159 | the update handler drops only the exact keys "id" and "created_at" and splices every other key unquoted into `SET ${key} = $n`, where PostgreSQL folds it to lower case and skips the blanks around it | the body {"ID": 7}, or {"Created_At": …} or {"id ": …}: the statement assigns the row's id or `created_at` and the answer is 200; a quoted key "\"id\"" does the same, and any key can carry further SQL | the id and `created_at` are never written, whatever the key's spelling, and keys are not spliced into SQL | high, not executed | `Api.SetListAsWritten`, `Api.CasedIdKeyAssignsId` | `Api.UpdateBody`, `Api.IgnoredSpellingDropped` |
| src/components/CommissionForm.tsx:33 | the preview reads a blank factor as `parseFloat('') \|\| 0`, i.e. zero | value 100 with the factor field emptied: the preview shows R$ 0,00, while the server stores factor 0.025 and a commission of R$ 2,50 | the preview uses the server's default 0.025 for a blank factor, as the field's hint "Padrão: 0.025" says | medium, not executed | `CommissionForm.PreviewAsWritten`, `CommissionForm.BlankFactorPreviewDisagrees` | `CommissionForm.Preview`, `CommissionForm.PreviewMatchesStored` |

=== FILE: api.dfy ===
/** The HTTP routes of server/index.js over the abstract table: the login
    credential check, the `requireAuth` gate, and the list, create, update,
    delete and export handlers with their status codes. */
module Api {
  import opened Wrappers
  import opened Money
  import opened Clock
  import Decimal
  import opened Store
  import Listing
  import CsvExport
  import Text

  const MSG_UNAUTHORIZED: string := "N\U{00E3}o autorizado"
  const MSG_BAD_CREDENTIALS: string := "Credenciais inv\U{00E1}lidas"
  const MSG_NO_FIELDS: string := "Nenhum campo para atualizar"
  const MSG_NOT_FOUND: string := "Comiss\U{00E3}o n\U{00E3}o encontrada"
  const MSG_CREATE_FAILED: string := "Erro ao criar comiss\U{00E3}o"
  const MSG_UPDATE_FAILED: string := "Erro ao atualizar comiss\U{00E3}o"

  /** The JSON a route answers with. */
  datatype Body =
    | RowsBody(rows: seq<Commission>)
    | RowBody(row: Commission)
    | SuccessBody
    | LoginBody(username: string)
    | AuthBody(authenticated: bool, user: Option<string>)
    | CsvBody(text: string)
    | ErrorBody(message: string)

  datatype Response = Response(status: int, body: Body)

  // ---------------------------------------------------------------------
  // Session gate and login.

  /** `req.session.user`: the logged-in username, if any. */
  datatype Session = Session(user: Option<string>)

  datatype Credentials = Credentials(username: string, password: string)

  /** `process.env.X || fallback`: an unset or empty variable gives the fallback. */
  function EnvOr(env: Option<string>, fallback: string): (r: string)
    ensures env.Some? && env.value != "" ==> r == env.value
    ensures env.None? || env.value == "" ==> r == fallback
  {
    if env.Some? && env.value != "" then env.value else fallback
  }

  /** The one operator account: from the environment, else admin/admin123. */
  function AdminCredentials(envUsername: Option<string>, envPassword: Option<string>): Credentials {
    Credentials(EnvOr(envUsername, "admin"), EnvOr(envPassword, "admin123"))
  }

  datatype LoginResult = LoginResult(session: Session, response: Response)

  /** `POST /api/login`: a body field that is absent or not a string is `None`. */
  function Login(session: Session, admin: Credentials, username: Option<string>, password: Option<string>): (r: LoginResult)
    ensures r.response.status == 200 <==> username == Some(admin.username) && password == Some(admin.password)
    ensures r.response.status == 200 ==> r.session.user == Some(admin.username)
    ensures r.response.status != 200 ==> r.response.status == 401 && r.session == session
  {
    if username == Some(admin.username) && password == Some(admin.password) then
      LoginResult(Session(Some(admin.username)), Response(200, LoginBody(admin.username)))
    else
      LoginResult(session, Response(401, ErrorBody(MSG_BAD_CREDENTIALS)))
  }

  /** `POST /api/logout`: the session is destroyed. */
  function Logout(session: Session): (r: LoginResult)
    ensures r.session.user.None? && r.response.status == 200
  {
    LoginResult(Session(None), Response(200, SuccessBody))
  }

  /** `GET /api/auth/check`, which needs no session. */
  function AuthCheck(session: Session): (r: Response)
    ensures r.status == 200
    ensures r.body.AuthBody? && (r.body.authenticated <==> session.user.Some?)
  {
    Response(200, AuthBody(session.user.Some?, session.user))
  }

  // ---------------------------------------------------------------------
  // Create.

  /** A text field of the create body: absent, null, or a JSON string,
      number or boolean. A number is an integer here. */
  datatype TextInput = TextAbsent | TextNull | TextGiven(text: string) | TextNumber(number: int) | TextFlag(flag: bool)

  /** The `factor` of the create body: absent, null, a string (the form
      sends one) or a number already in ten-thousandths. */
  datatype FactorInput = FactorAbsent | FactorNull | FactorText(text: string) | FactorNumber(units: int)

  datatype CreateBody = CreateBody(
    nfNumber: TextInput,
    orderNumberNectar: TextInput,
    orderNumberEmbrascol: TextInput,
    valueNf: int,
    factor: FactorInput)

  /** The field as a JSON value, an absent one read as null. */
  function InputValue(x: TextInput): Value {
    match x
    case TextAbsent => Null
    case TextNull => Null
    case TextGiven(s) => Text(s)
    case TextNumber(n) => Number(n)
    case TextFlag(b) => Boolean(b)
  }

  /** `x || null`: a falsy field (absent, null, "", the number 0 or false)
      is stored as NULL; any other is sent as its parameter text, so a
      number or a boolean is stored as its text. */
  function NullIfFalsy(x: TextInput): (r: Option<string>)
    ensures r.None? <==> x in {TextAbsent, TextNull, TextGiven(""), TextNumber(0), TextFlag(false)}
    ensures r.Some? ==> !InputValue(x).Null? && r.value == ParamText(InputValue(x))
  {
    match x
    case TextGiven(s) => if s == "" then None else Some(s)
    case TextNumber(n) => if n == 0 then None else Some(Decimal.IntToString(n))
    case TextFlag(b) => if b then Some("true") else None
    case _ => None
  }

  /** `parseFloat(factor || 0.025)`: a falsy factor (absent, null, "" or the
      number 0) becomes 0.025; the string "0" is truthy and stays 0. `None`
      when the text is not a decimal. */
  function FactorOf(f: FactorInput): (r: Option<int>)
    ensures f.FactorAbsent? || f.FactorNull? || f == FactorText("") || f == FactorNumber(0) ==> r == Some(DEFAULT_FACTOR)
    ensures f.FactorNumber? && f.units != 0 ==> r == Some(f.units)
    ensures f.FactorText? && f.text != "" ==> r == Decimal.ParseDecimal(f.text, FACTOR_SCALE)
  {
    match f
    case FactorAbsent => Some(DEFAULT_FACTOR)
    case FactorNull => Some(DEFAULT_FACTOR)
    case FactorText(s) => if s == "" then Some(DEFAULT_FACTOR) else Decimal.ParseDecimal(s, FACTOR_SCALE)
    case FactorNumber(u) => if u == 0 then Some(DEFAULT_FACTOR) else Some(u)
  }

  /** The table after a request and the answer. */
  datatype Served = Served(table: Table, response: Response)

  /** `POST /api/commissions` behind the gate. */
  function Create(t: Table, body: CreateBody, now: Timestamp): (s: Served)
    ensures s.response.status == 200 || s.response.status == 500
    ensures s.response.status == 200 <==>
              FactorOf(body.factor).Some? && Storable(body.valueNf, FactorOf(body.factor).value)
    ensures s.response.status == 200 ==>
              && s.response.body.RowBody?
              && var r := s.response.body.row;
                 && s.table.rows == t.rows + [r]
                 && r.id == t.nextId
                 && r.nfNumber == NullIfFalsy(body.nfNumber)
                 && r.orderNumberNectar == NullIfFalsy(body.orderNumberNectar)
                 && r.orderNumberEmbrascol == NullIfFalsy(body.orderNumberEmbrascol)
                 && r.valueNf == body.valueNf
                 && r.factor == FactorOf(body.factor).value
                 && !r.isPaid && Derived(r)
                 && r.createdAt == now && r.updatedAt == now
    ensures s.response.status == 500 ==> s.table.rows == t.rows
  {
    match FactorOf(body.factor)
    case None => Served(t, Response(500, ErrorBody(MSG_CREATE_FAILED)))
    case Some(factor) =>
      var w := Insert(t, NewRow(NullIfFalsy(body.nfNumber), NullIfFalsy(body.orderNumberNectar),
                                NullIfFalsy(body.orderNumberEmbrascol), body.valueNf, Some(factor)), now);
      if w.result.Ok? then Served(w.table, Response(200, RowBody(w.result.value)))
      else Served(w.table, Response(500, ErrorBody(MSG_CREATE_FAILED)))
  }

  /** A number or a boolean in a text field of the create body is stored
      as its text, exactly as if that text had been sent; the number 0 and
      false are falsy and stored as NULL, as if the field were absent. */
  lemma CreateStoresScalarText(t: Table, body: CreateBody, n: int, b: bool, now: Timestamp)
    ensures n != 0 ==> Create(t, body.(nfNumber := TextNumber(n)), now)
                       == Create(t, body.(nfNumber := TextGiven(Decimal.IntToString(n))), now)
    ensures Create(t, body.(nfNumber := TextNumber(0)), now) == Create(t, body.(nfNumber := TextAbsent), now)
    ensures Create(t, body.(orderNumberNectar := TextFlag(b)), now)
            == Create(t, body.(orderNumberNectar := if b then TextGiven("true") else TextAbsent), now)
  {
  }

  /** A created row is the newest: deleting the id the create answered with
      gives back exactly the rows from before. */
  lemma CreateThenDelete(t: Table, body: CreateBody, now: Timestamp)
    requires Valid(t) && Create(t, body, now).response.status == 200
    ensures var created := Create(t, body, now);
            var deleted := DeleteRoute(created.table, created.response.body.row.id);
            && deleted.response.status == 200
            && deleted.table.rows == t.rows
  {
    var created := Create(t, body, now);
    var r := created.response.body.row;
    var rows := created.table.rows;
    assert rows == t.rows + [r];
    assert rows[|t.rows|].id == r.id;
    assert HasId(rows, r.id);
    var i := FindIndex(rows, r.id).value;
    assert forall j | 0 <= j < |t.rows| :: rows[j].id != r.id by {
      assert forall j | 0 <= j < |t.rows| :: rows[j] == t.rows[j];
    }
    assert rows[..i] == t.rows;
  }

  // ---------------------------------------------------------------------
  // Update.

  /** A column the update body names, or a name that is no column. */
  datatype Column =
    | Id | NfNumber | OrderNumberNectar | OrderNumberEmbrascol | ValueNf | Factor
    | CommissionValue | IsPaid | CreatedAt | UpdatedAt | Unknown(name: string)

  /** A JSON value of the update body. A number is already read at its
      column's scale, and is an integer for the other columns. */
  datatype Value = Null | Text(text: string) | Number(number: int) | Boolean(flag: bool)

  /** The keys the handler never writes. */
  const Ignored: set<Column> := {Id, CreatedAt}

  /** The column's name in the table definition; an unknown column's name
      is the one it was read from. */
  function ColumnName(col: Column): string {
    match col
    case Id => "id"
    case NfNumber => "nf_number"
    case OrderNumberNectar => "order_number_nectar"
    case OrderNumberEmbrascol => "order_number_embrascol"
    case ValueNf => "value_nf"
    case Factor => "factor"
    case CommissionValue => "commission_value"
    case IsPaid => "is_paid"
    case CreatedAt => "created_at"
    case UpdatedAt => "updated_at"
    case Unknown(name) => name
  }

  const ColumnNames: set<string> :=
    {"id", "nf_number", "order_number_nectar", "order_number_embrascol", "value_nf", "factor",
     "commission_value", "is_paid", "created_at", "updated_at"}

  /** The column a folded name denotes. */
  function ColumnNamed(w: string): (c: Column)
    ensures ColumnName(c) == w
    ensures c.Unknown? <==> w !in ColumnNames
  {
    if w == "id" then Id
    else if w == "nf_number" then NfNumber
    else if w == "order_number_nectar" then OrderNumberNectar
    else if w == "order_number_embrascol" then OrderNumberEmbrascol
    else if w == "value_nf" then ValueNf
    else if w == "factor" then Factor
    else if w == "commission_value" then CommissionValue
    else if w == "is_paid" then IsPaid
    else if w == "created_at" then CreatedAt
    else if w == "updated_at" then UpdatedAt
    else Unknown(w)
  }

  /** The column PostgreSQL reads from a body key spliced unquoted into
      `SET <key> = $n`: the blanks around the key are skipped and its
      letters folded to lower case. A key spelled as a column's name is
      already in that form. */
  function KeyColumn(key: string): (c: Column)
    ensures key in ColumnNames ==> ColumnName(c) == key && !c.Unknown?
    ensures key !in ColumnNames ==> ColumnName(c) == Text.LowerAscii(Text.SqlTrim(key))
    ensures c.Unknown? <==> key !in ColumnNames && Text.LowerAscii(Text.SqlTrim(key)) !in ColumnNames
  {
    if key in ColumnNames then ColumnNamed(key) else ColumnNamed(Text.LowerAscii(Text.SqlTrim(key)))
  }

  /** A column's own name reads back as the column. */
  lemma ColumnNamesReadBack()
    ensures forall col: Column | !col.Unknown? :: KeyColumn(ColumnName(col)) == col
  {
  }

  /** A key that differs from a column's name in case still names that
      column: "ID" names `id`. */
  lemma KeySpellings()
    ensures KeyColumn("ID") == Id
  {
    assert "ID" !in ColumnNames by {
      assert "ID"[0] != "id"[0];
    }
    assert Text.LowerAscii("ID") == "id";
  }

  /** A key with a blank after a column's name names that column: "id "
      names `id`. */
  lemma SpacedKey()
    ensures KeyColumn("id ") == Id
  {
    assert "id " !in ColumnNames by {
      assert |"id "| == 3 && "id "[0] != "factor"[0];
    }
    assert Text.SqlTrim("id ") == "id" by {
      assert "id "[..2] == "id";
    }
    assert Text.LowerAscii("id") == "id";
  }




  /** The parameter text the database driver sends for a value that is not
      null: the text itself, `String(n)` of a number, "true" or "false". */
  function ParamText(v: Value): string
    requires !v.Null?
  {
    match v
    case Text(s) => s
    case Number(n) => Decimal.IntToString(n)
    case Boolean(b) => if b then "true" else "false"
  }

  /** PostgreSQL's `boolean` input, ignoring case: a non-empty prefix of
      "true" or "yes", "on" and "1" read as true; a non-empty prefix of
      "false" or "no", "of", "off" and "0" as false; anything else is
      refused. */
  function BoolInput(s: string): Option<bool> {
    var w := Text.LowerAscii(s);
    if w == [] then None
    else if w <= "true" || w <= "yes" || w == "on" || w == "1" then Some(true)
    else if w <= "false" || w <= "no" || w == "of" || w == "off" || w == "0" then Some(false)
    else None
  }

  /** Spellings the `boolean` column takes and refuses. */
  lemma FlagDigits()
    ensures BoolInput("1") == Some(true) && BoolInput("0") == Some(false)
    ensures BoolInput("2") == None && BoolInput("") == None
  {
    Text.LowerAsciiKeepsLower("1");
    Text.LowerAsciiKeepsLower("0");
    Text.LowerAsciiKeepsLower("2");
  }

  lemma FlagWordsIgnoreCase()
    ensures BoolInput("TRUE") == Some(true) && BoolInput("Off") == Some(false) && BoolInput("o") == None
  {
    assert Text.LowerAscii("TRUE") == "true";
    assert Text.LowerAscii("Off") == "off";
    Text.LowerAsciiKeepsLower("o");
  }

  lemma FlagNumbers()
    ensures PaidValue(Number(1)) && PaidChange(Number(1)) && PaidValue(Number(0)) && !PaidChange(Number(0))
    ensures !PaidValue(Number(2)) && !PaidValue(Null)
  {
    assert ParamText(Number(1)) == "1" && ParamText(Number(0)) == "0" && ParamText(Number(2)) == "2";
    FlagDigits();
  }

  /** A value the `boolean` column accepts. A JSON boolean is taken as
      itself, which is what its parameter text reads as (`JsonBooleanReads`). */
  predicate PaidValue(v: Value) {
    v.Boolean? || (!v.Null? && BoolInput(ParamText(v)).Some?)
  }

  /** A value the `updated_at` column accepts. */
  predicate TimeValue(v: Value) {
    v.Null? || ParseIso(ParamText(v)).Some?
  }

  function PaidChange(v: Value): bool
    requires PaidValue(v)
  {
    if v.Boolean? then v.flag else BoolInput(ParamText(v)).value
  }

  function TimeChange(v: Value): Option<Timestamp>
    requires TimeValue(v)
  {
    if v.Null? then None else Some(ParseIso(ParamText(v)).value)
  }

  /** A JSON boolean's parameter text, "true" or "false", reads back as
      the boolean. */
  lemma JsonBooleanReads(b: bool)
    ensures BoolInput(ParamText(Boolean(b))) == Some(b)
  {
    var w := if b then "true" else "false";
    assert Text.LowerAscii(w) == w by {
      Text.LowerAsciiKeepsLower(w);
    }
  }

  /** The `toJSON` text of a timestamp reaches `updated_at` as the
      timestamp to the millisecond. */
  lemma IsoTextReads(t: Timestamp)
    ensures TimeValue(Text(Iso(t))) && TimeChange(Text(Iso(t))) == Some(ToMillis(t))
  {
    IsoReadsBack(t);
  }

  /** A value a `NUMERIC` column of the given scale accepts: null, a number,
      or text that reads as a decimal at that scale. */
  predicate NumericValue(v: Value, scale: nat) {
    v.Null? || v.Number? || (v.Text? && Decimal.ParseDecimal(v.text, scale).Some?)
  }

  /** The value is one the column's type accepts once the driver has sent
      it as text; an unknown column never is. A `VARCHAR` takes any text,
      `is_paid` a boolean spelling, `updated_at` the `toJSON` layout. */
  predicate WellTyped(col: Column, v: Value) {
    match col
    case NfNumber => true
    case OrderNumberNectar => true
    case OrderNumberEmbrascol => true
    case ValueNf => NumericValue(v, CENTS_SCALE)
    case Factor => NumericValue(v, FACTOR_SCALE)
    case CommissionValue => NumericValue(v, CENTS_SCALE)
    case IsPaid => PaidValue(v)
    case UpdatedAt => TimeValue(v)
    case Id => true
    case CreatedAt => true
    case Unknown(_) => false
  }

  predicate AllWellTyped(m: map<Column, Value>) {
    forall col | col in m :: WellTyped(col, m[col])
  }

  /** The assignment of a `VARCHAR` column: null, or the parameter text. */
  function TextChange(m: map<Column, Value>, col: Column): Option<Option<string>> {
    if col !in m then None else if m[col].Null? then Some(None) else Some(Some(ParamText(m[col])))
  }

  /** The assignment of a numeric column: its number, or its text read at
      the column's scale. */
  function NumberChange(m: map<Column, Value>, col: Column, scale: nat): Option<Option<int>>
    requires col in m ==> NumericValue(m[col], scale)
  {
    if col !in m then None
    else if m[col].Null? then Some(None)
    else if m[col].Number? then Some(Some(m[col].number))
    else Some(Some(Decimal.ParseDecimal(m[col].text, scale).value))
  }

  /** The `SET` list for the kept keys. */
  function ChangesOf(m: map<Column, Value>): Changes
    requires AllWellTyped(m)
  {
    assert forall col | col in m :: WellTyped(col, m[col]);
    Changes(
      TextChange(m, NfNumber),
      TextChange(m, OrderNumberNectar),
      TextChange(m, OrderNumberEmbrascol),
      NumberChange(m, ValueNf, CENTS_SCALE),
      NumberChange(m, Factor, FACTOR_SCALE),
      NumberChange(m, CommissionValue, CENTS_SCALE),
      if IsPaid in m then Some(PaidChange(m[IsPaid])) else None,
      if UpdatedAt in m then Some(TimeChange(m[UpdatedAt])) else None)
  }

  /** `PUT /api/commissions/:id` on the columns the body's keys name
      (`UpdateBody` reads the keys): drop `id` and `created_at`, refuse an
      empty remainder with 400 before touching the table, 500 for a value
      the columns refuse, 404 for a missing id. */
  function UpdateRoute(t: Table, id: int, patch: map<Column, Value>, now: Timestamp): (s: Served)
    ensures s.response.status in {200, 400, 404, 500}
    ensures s.response.status != 200 ==> s.table == t
    ensures s.response.status == 400 <==> patch.Keys <= Ignored
    ensures s.response.status == 404 <==>
              !(patch.Keys <= Ignored) && AllWellTyped(patch - Ignored) && !HasId(t.rows, id)
    ensures s.response.status == 200 ==>
              && AllWellTyped(patch - Ignored)
              && FindIndex(t.rows, id).Some?
              && s.response.body.RowBody?
              && var i := FindIndex(t.rows, id).value;
                 var r := s.response.body.row;
                 && s.table == Table(t.rows[i := r], t.nextId)
                 && r.id == id
                 && r.createdAt == t.rows[i].createdAt
                 && Derived(r)
                 && r.updatedAt == now
  {
    var kept := patch - Ignored;
    if kept == map[] then
      assert patch.Keys <= Ignored by {
        forall k | k in patch.Keys ensures k in Ignored { assert k !in kept; }
      }
      Served(t, Response(400, ErrorBody(MSG_NO_FIELDS)))
    else
      assert !(patch.Keys <= Ignored) by {
        var k :| k in kept;
        assert k in patch.Keys && k !in Ignored;
      }
      if !AllWellTyped(kept) then Served(t, Response(500, ErrorBody(MSG_UPDATE_FAILED)))
      else
        var w := Update(t, id, ChangesOf(kept), now);
        match w.result
        case Ok(r) => Served(w.table, Response(200, RowBody(r)))
        case Err(NotFound) => Served(t, Response(404, ErrorBody(MSG_NOT_FOUND)))
        case Err(_) => Served(t, Response(500, ErrorBody(MSG_UPDATE_FAILED)))
  }

  /** A body with a writable key, all well typed, for an existing row
      answers 200 with the row as the `SET` list and the trigger leave it,
      provided it fits the columns. */
  lemma UpdateRouteWrites(t: Table, id: int, patch: map<Column, Value>, now: Timestamp, i: nat)
    requires patch - Ignored != map[] && AllWellTyped(patch - Ignored)
    requires FindIndex(t.rows, id) == Some(i) && !WritesNull(ChangesOf(patch - Ignored))
    requires FitsColumns(WriteHook(Apply(t.rows[i], ChangesOf(patch - Ignored)), now))
    ensures var r := WriteHook(Apply(t.rows[i], ChangesOf(patch - Ignored)), now);
            UpdateRoute(t, id, patch, now) == Served(Table(t.rows[i := r], t.nextId), Response(200, RowBody(r)))
  {
  }

  /** Whatever the body says for `id` or `created_at` makes no difference. */
  lemma IgnoredKeysDropped(t: Table, id: int, patch: map<Column, Value>, key: Column, v: Value, now: Timestamp)
    requires key in Ignored
    ensures UpdateRoute(t, id, patch[key := v], now) == UpdateRoute(t, id, patch, now)
  {
    assert patch[key := v] - Ignored == patch - Ignored;
  }

  /** A fabricated `commission_value` or `updated_at` in the body is
      overwritten: the answer and the table are as if it had not been sent,
      as long as the body had some other writable key. */
  lemma FabricatedDerivedIgnored(t: Table, id: int, patch: map<Column, Value>, key: Column, v: Value, now: Timestamp)
    requires key == CommissionValue || key == UpdatedAt
    requires WellTyped(key, v)
    requires !((patch - {key}).Keys <= Ignored)
    ensures UpdateRoute(t, id, patch[key := v], now) == UpdateRoute(t, id, patch - {key}, now)
  {
    var with := patch[key := v] - Ignored;
    var without := (patch - {key}) - Ignored;
    assert with == without[key := v];
    assert without != map[] by {
      var k :| k in (patch - {key}) && k !in Ignored;
      assert k in without;
    }
    assert with != map[] by { assert key in with; }
    if AllWellTyped(without) {
      assert AllWellTyped(with);
      var ch := ChangesOf(without);
      var ch' := ChangesOf(with);
      assert ch' == ch.(commissionValue := ch'.commissionValue, updatedAt := ch'.updatedAt);
      SuppliedDerivedColumnsIgnored(t, id, ch, ch'.commissionValue, ch'.updatedAt, now);
    } else {
      var k :| k in without && !WellTyped(k, without[k]);
      assert k in with && with[k] == without[k];
    }
  }

  /** Two bodies whose kept keys agree and that the columns read alike get
      the same answer. */
  lemma SameReadingSameAnswer(t: Table, id: int, p: map<Column, Value>, q: map<Column, Value>, now: Timestamp)
    requires (p - Ignored).Keys == (q - Ignored).Keys
    requires AllWellTyped(p - Ignored) <==> AllWellTyped(q - Ignored)
    requires AllWellTyped(p - Ignored) ==> ChangesOf(p - Ignored) == ChangesOf(q - Ignored)
    ensures UpdateRoute(t, id, p, now) == UpdateRoute(t, id, q, now)
  {
    assert p - Ignored == map[] <==> q - Ignored == map[] by {
      assert (p - Ignored).Keys == {} <==> p - Ignored == map[];
      assert (q - Ignored).Keys == {} <==> q - Ignored == map[];
    }
    assert patchKeys: p.Keys <= Ignored <==> q.Keys <= Ignored by {
      assert p.Keys <= Ignored <==> (p - Ignored).Keys == {};
      assert q.Keys <= Ignored <==> (q - Ignored).Keys == {};
    }
  }

  /** Replacing one value of a body by another the column reads alike
      keeps the body's well-typedness. */
  lemma SwapKeepsTyping(m: map<Column, Value>, col: Column, v: Value, w: Value)
    requires WellTyped(col, v) <==> WellTyped(col, w)
    ensures AllWellTyped(m[col := v]) <==> AllWellTyped(m[col := w])
  {
    var p, q := m[col := v], m[col := w];
    forall k | k in p ensures WellTyped(k, p[k]) <==> WellTyped(k, q[k]) {
      if k != col {
        assert p[k] == q[k];
      }
    }
  }

  /** The driver sends a number or a boolean for a `VARCHAR` column as its
      text, so the column stores `String(n)`, "true" or "false". */
  lemma TextColumnStoresParamText(t: Table, id: int, patch: map<Column, Value>, col: Column, v: Value, now: Timestamp)
    requires col == NfNumber || col == OrderNumberNectar || col == OrderNumberEmbrascol
    requires !v.Null?
    ensures UpdateRoute(t, id, patch[col := v], now) == UpdateRoute(t, id, patch[col := Text(ParamText(v))], now)
  {
    var w := Text(ParamText(v));
    var p, q := patch[col := v] - Ignored, patch[col := w] - Ignored;
    assert p == (patch - Ignored)[col := v] && q == (patch - Ignored)[col := w];
    SwapKeepsTyping(patch - Ignored, col, v, w);
    if AllWellTyped(p) {
      TextSwapChanges(patch - Ignored, col, v);
    }
    SameReadingSameAnswer(t, id, patch[col := v], patch[col := w], now);
  }

  /** The `SET` list is the same whether a text column gets a value or its
      parameter text. */
  lemma TextSwapChanges(m: map<Column, Value>, col: Column, v: Value)
    requires col == NfNumber || col == OrderNumberNectar || col == OrderNumberEmbrascol
    requires !v.Null?
    requires AllWellTyped(m[col := v]) && AllWellTyped(m[col := Text(ParamText(v))])
    ensures ChangesOf(m[col := v]) == ChangesOf(m[col := Text(ParamText(v))])
  {
    var p, q := m[col := v], m[col := Text(ParamText(v))];
    assert TextChange(p, col) == TextChange(q, col);
    assert forall k | k != col :: (k in p <==> k in q) && (k in p ==> p[k] == q[k]);
  }

  /** Any spelling the `boolean` column accepts, "1" or "off" or a number 0
      or 1 among them, acts as the JSON boolean it reads as. */
  lemma FlagSpellingActsAsBoolean(t: Table, id: int, patch: map<Column, Value>, v: Value, now: Timestamp)
    requires PaidValue(v)
    ensures UpdateRoute(t, id, patch[IsPaid := v], now) == UpdateRoute(t, id, patch[IsPaid := Boolean(PaidChange(v))], now)
  {
    var w := Boolean(PaidChange(v));
    var p, q := patch[IsPaid := v] - Ignored, patch[IsPaid := w] - Ignored;
    assert p == (patch - Ignored)[IsPaid := v] && q == (patch - Ignored)[IsPaid := w];
    SwapKeepsTyping(patch - Ignored, IsPaid, v, w);
    if AllWellTyped(p) {
      PaidSwapChanges(patch - Ignored, v);
    }
    SameReadingSameAnswer(t, id, patch[IsPaid := v], patch[IsPaid := w], now);
  }

  /** The `SET` list is the same whether `is_paid` gets a spelling or the
      boolean it reads as. */
  lemma PaidSwapChanges(m: map<Column, Value>, v: Value)
    requires PaidValue(v)
    requires AllWellTyped(m[IsPaid := v]) && AllWellTyped(m[IsPaid := Boolean(PaidChange(v))])
    ensures ChangesOf(m[IsPaid := v]) == ChangesOf(m[IsPaid := Boolean(PaidChange(v))])
  {
    var p, q := m[IsPaid := v], m[IsPaid := Boolean(PaidChange(v))];
    assert PaidChange(p[IsPaid]) == PaidChange(q[IsPaid]);
    assert forall k | k != IsPaid :: (k in p <==> k in q) && (k in p ==> p[k] == q[k]);
  }

  /** The `toJSON` text of any timestamp is a well-typed `updated_at`, which
      the trigger then overwrites: sending it changes nothing. */
  lemma IsoUpdatedAtIgnored(t: Table, id: int, patch: map<Column, Value>, ts: Timestamp, now: Timestamp)
    requires !((patch - {UpdatedAt}).Keys <= Ignored)
    ensures UpdateRoute(t, id, patch[UpdatedAt := Text(Iso(ts))], now) == UpdateRoute(t, id, patch - {UpdatedAt}, now)
  {
    IsoTextReads(ts);
    FabricatedDerivedIgnored(t, id, patch, UpdatedAt, Text(Iso(ts)), now);
  }

  /** Marking a row paid with a `toJSON` text in `updated_at`, as the
      list's save sends it, answers 200. */
  lemma PaidWithIsoTextAnswers200(t: Table, id: int, now: Timestamp)
    requires Valid(t) && HasId(t.rows, id)
    ensures UpdateRoute(t, id, map[IsPaid := Boolean(true), UpdatedAt := Text(SAMPLE_ISO)], now).response.status == 200
  {
    var patch := map[IsPaid := Boolean(true)];
    assert map[IsPaid := Boolean(true), UpdatedAt := Text(SAMPLE_ISO)] == patch[UpdatedAt := Text(SAMPLE_ISO)];
    assert patch - {UpdatedAt} == patch;
    assert IsPaid in patch - {UpdatedAt} && IsPaid !in Ignored;
    assert WellTyped(UpdatedAt, Text(SAMPLE_ISO)) by {
      SampleIsoParses();
    }
    FabricatedDerivedIgnored(t, id, patch, UpdatedAt, Text(SAMPLE_ISO), now);
    PaidAloneAnswers200(t, id, now);
  }

  lemma PaidAloneAnswers200(t: Table, id: int, now: Timestamp)
    requires Valid(t) && HasId(t.rows, id)
    ensures UpdateRoute(t, id, map[IsPaid := Boolean(true)], now).response.status == 200
  {
    var patch := map[IsPaid := Boolean(true)];
    assert patch - Ignored == patch;
    assert ChangesOf(patch) == NoChanges.(isPaid := Some(true));
    PaidOnlyUpdateKeepsAmounts(t, id, true, now);
  }

  /** A JSON number in `nf_number` is stored as its decimal text. */
  lemma NumberInTextColumnStored(t: Table, id: int, n: int, now: Timestamp)
    requires Valid(t) && HasId(t.rows, id)
    ensures var s := UpdateRoute(t, id, map[NfNumber := Number(n)], now);
            s.response.status == 200 && s.response.body.RowBody?
            && s.response.body.row.nfNumber == Some(Decimal.IntToString(n))
  {
    var patch := map[NfNumber := Text(Decimal.IntToString(n))];
    assert map[NfNumber := Number(n)] == map[][NfNumber := Number(n)];
    assert patch == map[][NfNumber := Text(ParamText(Number(n)))];
    TextColumnStoresParamText(t, id, map[], NfNumber, Number(n), now);
    assert patch - Ignored == patch && AllWellTyped(patch);
    var ch := ChangesOf(patch);
    assert ch == NoChanges.(nfNumber := Some(Some(Decimal.IntToString(n))));
    var i := FindIndex(t.rows, id).value;
    var c := t.rows[i];
    assert Derived(c) && FitsColumns(c);
    assert WriteHook(Apply(c, ch), now) == c.(nfNumber := Some(Decimal.IntToString(n)), updatedAt := now);
    UpdateRouteWrites(t, id, patch, now, i);
  }

  // ---------------------------------------------------------------------
  // The body's keys.

  /** The keys the handler as written keeps: every key but exactly "id"
      and "created_at". */
  function KeptKeysAsWritten(body: map<string, Value>): set<string> {
    set k | k in body && k != "id" && k != "created_at"
  }

  /** The keys the corrected handler keeps: every key PostgreSQL reads as
      a column other than `id` and `created_at`. */
  function KeptKeys(body: map<string, Value>): set<string> {
    set k | k in body && KeyColumn(k) !in Ignored
  }

  /** No two of the keys name the same column. */
  predicate OneKeyPerColumn(keys: set<string>) {
    forall j, k | j in keys && k in keys && KeyColumn(j) == KeyColumn(k) :: j == k
  }

  /** The `SET` list the keys make, by the column each names. `None` when
      two keys name one column, which PostgreSQL refuses as a multiple
      assignment to the same column. */
  function SetList(body: map<string, Value>, keys: set<string>): (r: Option<map<Column, Value>>)
    requires keys <= body.Keys
    ensures r.Some? <==> OneKeyPerColumn(keys)
    ensures r.Some? ==> forall col :: col in r.value <==> exists k | k in keys :: KeyColumn(k) == col
    ensures r.Some? ==> forall k | k in keys :: KeyColumn(k) in r.value && r.value[KeyColumn(k)] == body[k]
  {
    if OneKeyPerColumn(keys) then Some(map k | k in keys :: KeyColumn(k) := body[k]) else None
  }

  /** The `SET` list the handler as written sends. */
  function SetListAsWritten(body: map<string, Value>): (r: Option<map<Column, Value>>)
    ensures r.Some? <==> OneKeyPerColumn(KeptKeysAsWritten(body))
    ensures r.Some? ==> forall k | k in body && k != "id" && k != "created_at" ::
                          KeyColumn(k) in r.value && r.value[KeyColumn(k)] == body[k]
  {
    SetList(body, KeptKeysAsWritten(body))
  }

  /** `PUT /api/commissions/:id` behind the gate, on the JSON body, with
      the key filter corrected: a key is dropped when PostgreSQL would
      read it as `id` or `created_at`, whatever its case or the blanks
      around it. Two keys naming one column answer 500, as the statement
      fails; otherwise the route goes on with the columns the keys name. */
  function UpdateBody(t: Table, id: int, body: map<string, Value>, now: Timestamp): (s: Served)
    ensures s.response.status in {200, 400, 404, 500}
    ensures s.response.status != 200 ==> s.table == t
    ensures s.response.status == 400 <==> KeptKeys(body) == {}
    ensures !OneKeyPerColumn(KeptKeys(body)) ==> s.response.status == 500
    ensures s.response.status == 404 ==> !HasId(t.rows, id)
    ensures s.response.status == 200 ==>
              && FindIndex(t.rows, id).Some?
              && s.response.body.RowBody?
              && var i := FindIndex(t.rows, id).value;
                 var r := s.response.body.row;
                 && s.table == Table(t.rows[i := r], t.nextId)
                 && r.id == id
                 && r.createdAt == t.rows[i].createdAt
                 && Derived(r)
                 && r.updatedAt == now
  {
    var keys := KeptKeys(body);
    match SetList(body, keys)
    case None => Served(t, Response(500, ErrorBody(MSG_UPDATE_FAILED)))
    case Some(m) =>
      assert m.Keys <= Ignored <==> keys == {} by {
        if k :| k in keys {
          assert KeyColumn(k) in m && KeyColumn(k) !in Ignored;
        } else {
          assert m.Keys == {};
        }
      }
      UpdateRoute(t, id, m, now)
  }

  /** The handler as written keeps a key that names `id` or `created_at`
      in another case or with blanks around it, and its `SET` list then
      assigns that column. */
  lemma AsWrittenKeepsOtherSpellings(body: map<string, Value>, key: string)
    requires key in body && KeyColumn(key) in Ignored && key != "id" && key != "created_at"
    ensures key in KeptKeysAsWritten(body) && key !in KeptKeys(body)
    ensures SetListAsWritten(body).Some? ==> KeyColumn(key) in SetListAsWritten(body).value
  {
  }

  /** The body {"ID": 7}: the handler as written sends `SET ID = $1`,
      which assigns 7 to the row's id, while the corrected handler finds
      nothing to write and answers 400 with the table unchanged. */
  lemma CasedIdKeyAssignsId(t: Table, id: int, now: Timestamp)
    ensures SetListAsWritten(map["ID" := Number(7)]) == Some(map[Id := Number(7)])
    ensures UpdateBody(t, id, map["ID" := Number(7)], now) == Served(t, Response(400, ErrorBody(MSG_NO_FIELDS)))
  {
    var body := map["ID" := Number(7)];
    KeySpellings();
    assert KeptKeysAsWritten(body) == {"ID"} by {
      assert "ID"[0] != "id"[0];
    }
    assert SetListAsWritten(body) == SetList(body, {"ID"});
    OneKeySetList(body, "ID");
    OneKeyBody(t, id, "ID", Number(7), now);
  }

  /** A single kept key makes the `SET` list of its one column. */
  lemma OneKeySetList(body: map<string, Value>, key: string)
    requires key in body
    ensures SetList(body, {key}) == Some(map[KeyColumn(key) := body[key]])
  {
    assert OneKeyPerColumn({key});
    var m := SetList(body, {key}).value;
    assert m.Keys == {KeyColumn(key)};
    assert m[KeyColumn(key)] == body[key];
    assert m == map[KeyColumn(key) := body[key]];
  }

  /** Whatever the body says under any spelling of `id` or `created_at`
      makes no difference to the answer or the table. */
  lemma IgnoredSpellingDropped(t: Table, id: int, body: map<string, Value>, key: string, v: Value, now: Timestamp)
    requires KeyColumn(key) in Ignored
    ensures UpdateBody(t, id, body[key := v], now) == UpdateBody(t, id, body - {key}, now)
  {
    var b1, b2 := body[key := v], body - {key};
    assert KeptKeys(b1) == KeptKeys(b2);
    SetListAgrees(b1, b2, KeptKeys(b1));
  }

  /** Two bodies that agree on the kept keys make the same `SET` list. */
  lemma SetListAgrees(b1: map<string, Value>, b2: map<string, Value>, keys: set<string>)
    requires keys <= b1.Keys && keys <= b2.Keys
    requires forall k | k in keys :: b1[k] == b2[k]
    ensures SetList(b1, keys) == SetList(b2, keys)
  {
    if OneKeyPerColumn(keys) {
      var m1, m2 := SetList(b1, keys).value, SetList(b2, keys).value;
      assert m1.Keys == m2.Keys;
      forall col | col in m1 ensures m1[col] == m2[col] {
        var k :| k in keys && KeyColumn(k) == col;
      }
      assert m1 == m2;
    }
  }

  /** A body of one key acts as the column that key names. */
  lemma OneKeyBody(t: Table, id: int, key: string, v: Value, now: Timestamp)
    ensures UpdateBody(t, id, map[key := v], now) == UpdateRoute(t, id, map[KeyColumn(key) := v], now)
  {
    var body := map[key := v];
    var col := KeyColumn(key);
    if col in Ignored {
      assert KeptKeys(body) == {};
      var m := SetList(body, {}).value;
      assert m == map[];
      assert map[col := v] == map[][col := v];
      IgnoredKeysDropped(t, id, map[], col, v, now);
    } else {
      assert KeptKeys(body) == {key};
      OneKeySetList(body, key);
    }
  }

  /** The JSON body whose keys are the columns' own names. */
  function BodyOf(m: map<Column, Value>): (b: map<string, Value>)
    requires forall col | col in m :: !col.Unknown?
    ensures forall col | col in m :: ColumnName(col) in b && b[ColumnName(col)] == m[col]
    ensures forall k | k in b :: KeyColumn(k) in m && ColumnName(KeyColumn(k)) == k
  {
    ColumnNamesReadBack();
    map col | col in m :: ColumnName(col) := m[col]
  }

  /** A body spelled with the columns' own names, as the web client sends
      it, acts exactly as the columns it names. */
  lemma ExactNamesRead(t: Table, id: int, m: map<Column, Value>, now: Timestamp)
    requires forall col | col in m :: !col.Unknown?
    ensures UpdateBody(t, id, BodyOf(m), now) == UpdateRoute(t, id, m, now)
  {
    var body := BodyOf(m);
    assert SetList(body, KeptKeys(body)) == Some(m - Ignored) by {
      ColumnNamesReadBack();
      NamesSetList(body, m);
    }
    UpdateBodyBySetList(t, id, body, m - Ignored, now);
    IgnoredPartDropped(t, id, m, now);
  }

  /** The route on a body is the route on its `SET` list. */
  lemma UpdateBodyBySetList(t: Table, id: int, body: map<string, Value>, m: map<Column, Value>, now: Timestamp)
    requires SetList(body, KeptKeys(body)) == Some(m)
    ensures UpdateBody(t, id, body, now) == UpdateRoute(t, id, m, now)
  {
  }

  /** Leaving out `id` and `created_at` before the route does changes
      nothing. */
  lemma IgnoredPartDropped(t: Table, id: int, m: map<Column, Value>, now: Timestamp)
    ensures UpdateRoute(t, id, m - Ignored, now) == UpdateRoute(t, id, m, now)
  {
    assert (m - Ignored) - Ignored == m - Ignored;
    SameReadingSameAnswer(t, id, m - Ignored, m, now);
  }

  /** The `SET` list of a body whose keys are exactly the names of the
      columns of `m`, each with that column's value, holds exactly the
      columns of `m` other than `id` and `created_at`. */
  lemma NamesSetList(body: map<string, Value>, m: map<Column, Value>)
    requires forall col | col in m :: KeyColumn(ColumnName(col)) == col
    requires forall col | col in m :: ColumnName(col) in body && body[ColumnName(col)] == m[col]
    requires forall k | k in body :: KeyColumn(k) in m && ColumnName(KeyColumn(k)) == k
    ensures SetList(body, KeptKeys(body)) == Some(m - Ignored)
  {
    var keys := KeptKeys(body);
    assert OneKeyPerColumn(keys) by {
      forall j, k | j in keys && k in keys && KeyColumn(j) == KeyColumn(k) ensures j == k {
        assert j == ColumnName(KeyColumn(j)) && k == ColumnName(KeyColumn(k));
      }
    }
    var s := SetList(body, keys).value;
    forall col | col in m - Ignored ensures col in s && s[col] == m[col] {
      var k := ColumnName(col);
      assert k in keys && KeyColumn(k) == col;
    }
    forall col | col in s ensures col in m - Ignored {
      var k :| k in keys && KeyColumn(k) == col;
    }
    assert s == m - Ignored;
  }

  /** A key PostgreSQL reads as no column of the table makes the
      statement fail: the answer is 500 and the table is unchanged. */
  lemma UnknownKeyRefused(t: Table, id: int, body: map<string, Value>, key: string, now: Timestamp)
    requires key in body && KeyColumn(key).Unknown?
    ensures UpdateBody(t, id, body, now) == Served(t, Response(500, ErrorBody(MSG_UPDATE_FAILED)))
  {
    var keys := KeptKeys(body);
    assert key in keys;
    if SetList(body, keys).Some? {
      var m := SetList(body, keys).value;
      assert UpdateBody(t, id, body, now) == UpdateRoute(t, id, m, now);
      UnknownColumnRefused(t, id, m, KeyColumn(key), now);
    }
  }

  /** A body naming a column the table does not have answers 500. */
  lemma UnknownColumnRefused(t: Table, id: int, patch: map<Column, Value>, col: Column, now: Timestamp)
    requires col in patch && col.Unknown?
    ensures UpdateRoute(t, id, patch, now) == Served(t, Response(500, ErrorBody(MSG_UPDATE_FAILED)))
  {
    assert col in patch - Ignored && !WellTyped(col, patch[col]);
  }

  /** Updating a commission through its JSON body keeps the table
      invariant. */
  lemma UpdateBodyKeepsValid(t: Table, id: int, body: map<string, Value>, now: Timestamp)
    requires Valid(t)
    ensures Valid(UpdateBody(t, id, body, now).table)
  {
    var keys := KeptKeys(body);
    if SetList(body, keys).Some? {
      UpdateRouteKeepsValid(t, id, SetList(body, keys).value, now);
    }
  }

  // ---------------------------------------------------------------------
  // Delete, list, export.

  /** `DELETE /api/commissions/:id` behind the gate. */
  function DeleteRoute(t: Table, id: int): (s: Served)
    ensures s.response.status == 200 <==> HasId(t.rows, id)
    ensures s.response.status != 200 ==> s.response.status == 404 && s.table == t
    ensures s.response.status == 200 ==> s.table == Delete(t, id).table && s.response.body == SuccessBody
  {
    var w := Delete(t, id);
    if w.result.Ok? then Served(w.table, Response(200, SuccessBody))
    else Served(t, Response(404, ErrorBody(MSG_NOT_FOUND)))
  }

  /** `GET /api/commissions` behind the gate. */
  function ListRoute(t: Table, status: Option<string>): (s: Served)
    ensures s.table == t && s.response.status == 200
    ensures s.response.body.RowsBody?
    ensures Listing.NewestFirst(s.response.body.rows)
    ensures forall c :: c in s.response.body.rows <==> c in t.rows && Listing.Selects(Listing.FilterOf(status), c)
  {
    Served(t, Response(200, RowsBody(Listing.List(t, status))))
  }

  /** `GET /api/commissions/export` behind the gate: every row, newest first. */
  function ExportRoute(t: Table): (s: Served)
    ensures s.table == t && s.response.status == 200
    ensures s.response.body.CsvBody? && |s.response.body.text| > 0 && s.response.body.text[0] == CsvExport.BOM
  {
    Served(t, Response(200, CsvBody(CsvExport.Document(Listing.List(t, None)))))
  }

  /** The export holds every row of the table, newest first: after the
      byte-order mark come the header line and one line per row. */
  lemma ExportHoldsEveryRow(t: Table)
    requires forall k | 0 <= k < |t.rows| :: CsvExport.PlainText(t.rows[k])
    ensures var text := ExportRoute(t).response.body.text;
            var rows := Listing.List(t, None);
            && Listing.NewestFirst(rows)
            && multiset(rows) == multiset(t.rows)
            && |text| > 0 && text[0] == CsvExport.BOM
            && Text.Split(text[1..], CsvExport.EOL) == [CsvExport.Header()] + CsvExport.Lines(rows)
  {
    var rows := Listing.List(t, None);
    assert multiset(rows) == multiset(t.rows) by {
      Listing.SelectEverything(t.rows);
    }
    assert forall k | 0 <= k < |rows| :: CsvExport.PlainText(rows[k]) by {
      forall k | 0 <= k < |rows| ensures CsvExport.PlainText(rows[k]) {
        assert rows[k] in multiset(t.rows);
      }
    }
    CsvExport.DocumentReadsBack(rows);
  }

  // ---------------------------------------------------------------------
  // The guarded routes.

  datatype Request =
    | ListRequest(status: Option<string>)
    | CreateRequest(body: CreateBody)
    | UpdateRequest(id: int, json: map<string, Value>)
    | DeleteRequest(id: int)
    | ExportRequest

  /** `requireAuth` in front of every commission route: without a session
      user the answer is 401 and the handler never runs. */
  function Handle(t: Table, session: Session, req: Request, now: Timestamp): (s: Served)
    ensures session.user.None? ==> s == Served(t, Response(401, ErrorBody(MSG_UNAUTHORIZED)))
    ensures s.response.status == 401 <==> session.user.None?
  {
    if session.user.None? then Served(t, Response(401, ErrorBody(MSG_UNAUTHORIZED)))
    else Dispatch(t, req, now)
  }

  /** The commission handlers themselves; none of them answers 401 and none
      breaks the table invariant. */
  function Dispatch(t: Table, req: Request, now: Timestamp): (s: Served)
    ensures s.response.status != 401
    ensures Valid(t) ==> Valid(s.table)
  {
    match req
    case ListRequest(status) => ListRoute(t, status)
    case CreateRequest(body) => CreateHandled(t, body, now); Create(t, body, now)
    case UpdateRequest(id, body) => UpdateHandled(t, id, body, now); UpdateBody(t, id, body, now)
    case DeleteRequest(id) => DeleteHandled(t, id); DeleteRoute(t, id)
    case ExportRequest => ExportRoute(t)
  }

  lemma CreateHandled(t: Table, body: CreateBody, now: Timestamp)
    ensures Create(t, body, now).response.status != 401
    ensures Valid(t) ==> Valid(Create(t, body, now).table)
  {
    if Valid(t) {
      CreateKeepsValid(t, body, now);
    }
  }

  lemma UpdateHandled(t: Table, id: int, body: map<string, Value>, now: Timestamp)
    ensures UpdateBody(t, id, body, now).response.status != 401
    ensures Valid(t) ==> Valid(UpdateBody(t, id, body, now).table)
  {
    if Valid(t) {
      UpdateBodyKeepsValid(t, id, body, now);
    }
  }

  lemma DeleteHandled(t: Table, id: int)
    ensures DeleteRoute(t, id).response.status != 401
    ensures Valid(t) ==> Valid(DeleteRoute(t, id).table)
  {
    if Valid(t) {
      DeleteKeepsValid(t, id);
    }
  }

  /** A successful login opens the gate: in the session it returns no
      request is refused with 401 and the session check reports a user. */
  lemma LoginOpensGate(t: Table, session: Session, admin: Credentials, username: Option<string>,
                       password: Option<string>, req: Request, now: Timestamp)
    requires Login(session, admin, username, password).response.status == 200
    ensures var after := Login(session, admin, username, password).session;
            && Handle(t, after, req, now).response.status != 401
            && AuthCheck(after).body.authenticated
  {
  }

  /** Logging out closes the gate again: every request is refused with 401
      and the table is untouched. */
  lemma LogoutClosesGate(t: Table, session: Session, req: Request, now: Timestamp)
    ensures var after := Logout(session).session;
            && Handle(t, after, req, now) == Served(t, Response(401, ErrorBody(MSG_UNAUTHORIZED)))
            && !AuthCheck(after).body.authenticated
  {
  }

  /** Creating a commission keeps the table invariant. */
  lemma CreateKeepsValid(t: Table, body: CreateBody, now: Timestamp)
    requires Valid(t)
    ensures Valid(Create(t, body, now).table)
  {
    if FactorOf(body.factor).Some? {
      InsertKeepsValid(t, NewRow(NullIfFalsy(body.nfNumber), NullIfFalsy(body.orderNumberNectar),
                                 NullIfFalsy(body.orderNumberEmbrascol), body.valueNf,
                                 Some(FactorOf(body.factor).value)), now);
    }
  }

  /** Updating a commission keeps the table invariant. */
  lemma UpdateRouteKeepsValid(t: Table, id: int, patch: map<Column, Value>, now: Timestamp)
    requires Valid(t)
    ensures Valid(UpdateRoute(t, id, patch, now).table)
  {
    var kept := patch - Ignored;
    if kept != map[] && AllWellTyped(kept) {
      UpdateKeepsValid(t, id, ChangesOf(kept), now);
    }
  }

  /** No request, authenticated or not, breaks the table invariant. */
  lemma HandleKeepsValid(t: Table, session: Session, req: Request, now: Timestamp)
    requires Valid(t)
    ensures Valid(Handle(t, session, req, now).table)
  {
  }
}

=== FILE: clock.dfy ===
/** Timestamps as the `TIMESTAMP` columns hold them, the ISO 8601 text
    `Date.prototype.toJSON` sends them as, and the day/month/year rendering
    used by the export. */
module Clock {
  import opened Wrappers
  import Text
  import Decimal

  /** A calendar date and the microsecond within that day. */
  datatype DateTime = DateTime(year: nat, month: nat, day: nat, micros: nat)

  const MICROS_PER_DAY: nat := 86_400_000_000

  /** The Gregorian leap-year rule. */
  predicate Leap(year: nat) {
    year % 4 == 0 && (year % 100 != 0 || year % 400 == 0)
  }

  function DaysIn(year: nat, month: nat): nat {
    if month == 2 then (if Leap(year) then 29 else 28)
    else if month == 4 || month == 6 || month == 9 || month == 11 then 30
    else 31
  }

  /** A real day of a four-digit year and a time within it. */
  predicate OnCalendar(d: DateTime) {
    && 1 <= d.year <= 9999 && 1 <= d.month <= 12 && 1 <= d.day <= DaysIn(d.year, d.month)
    && d.micros < MICROS_PER_DAY
  }

  /** What the clock reads and the `TIMESTAMP` columns hold. */
  type Timestamp = d: DateTime | OnCalendar(d) witness DateTime(1970, 1, 1, 0)

  /** `a` is not later than `b`: lexicographic on (year, month, day, micros). */
  predicate NotAfter(a: Timestamp, b: Timestamp) {
    if a.year != b.year then a.year < b.year
    else if a.month != b.month then a.month < b.month
    else if a.day != b.day then a.day < b.day
    else a.micros <= b.micros
  }

  lemma NotAfterTotal(a: Timestamp, b: Timestamp)
    ensures NotAfter(a, b) || NotAfter(b, a)
  {
  }

  lemma NotAfterTransitive(a: Timestamp, b: Timestamp, c: Timestamp)
    requires NotAfter(a, b) && NotAfter(b, c)
    ensures NotAfter(a, c)
  {
  }

  function Pad2(n: nat): string {
    Decimal.PadLeft(Decimal.NatToString(n), 2)
  }

  /** `toLocaleDateString('pt-BR')`: "dd/mm/yyyy". */
  function DateBR(t: Timestamp): string {
    Text.Join([Pad2(t.day), Pad2(t.month), Decimal.NatToString(t.year)], '/')
  }

  /** The rendered date has three '/'-separated parts that read back as the
      day, the month and the year. */
  lemma DateBRReadsBack(t: Timestamp)
    ensures var parts := Text.Split(DateBR(t), '/');
            |parts| == 3 && Decimal.AllDigits(parts[0]) && Decimal.AllDigits(parts[1]) && Decimal.AllDigits(parts[2])
            && Decimal.DigitsValue(parts[0]) == t.day
            && Decimal.DigitsValue(parts[1]) == t.month
            && Decimal.DigitsValue(parts[2]) == t.year
  {
    var fs := [Pad2(t.day), Pad2(t.month), Decimal.NatToString(t.year)];
    assert forall i | 0 <= i < 3 :: Decimal.AllDigits(fs[i]);
    assert forall i, c | 0 <= i < 3 && c in fs[i] :: Decimal.IsDigit(c);
    Text.SplitJoin(fs, '/');
    Decimal.NatToStringValue(t.day);
    Decimal.PadLeftValue(Decimal.NatToString(t.day), 2);
    Decimal.NatToStringValue(t.month);
    Decimal.PadLeftValue(Decimal.NatToString(t.month), 2);
    Decimal.NatToStringValue(t.year);
  }

  /** The rendered date holds neither a ';' nor a line break. */
  lemma DateBRPlain(t: Timestamp)
    ensures ';' !in DateBR(t) && '\n' !in DateBR(t)
  {
    var fs := [Pad2(t.day), Pad2(t.month), Decimal.NatToString(t.year)];
    assert forall i | 0 <= i < 3 :: Decimal.AllDigits(fs[i]);
    JoinHasOnly(fs, '/');
  }

  /** A '/'-join of digit strings holds only digits and '/'. */
  lemma {:induction false} JoinHasOnly(fs: seq<string>, sep: char)
    requires forall i | 0 <= i < |fs| :: Decimal.AllDigits(fs[i])
    requires sep == '/'
    ensures ';' !in Text.Join(fs, sep) && '\n' !in Text.Join(fs, sep)
  {
    if |fs| > 1 {
      JoinHasOnly(fs[1..], sep);
      assert Decimal.AllDigits(fs[0]);
    } else if |fs| == 1 {
      assert Decimal.AllDigits(fs[0]);
    }
  }

  // ---------------------------------------------------------------------
  // ISO 8601 text.

  /** A time of day as a clock shows it, to the millisecond. */
  datatype TimeOfDay = TimeOfDay(hours: nat, minutes: nat, seconds: nat, millis: nat)

  function MicrosOf(c: TimeOfDay): nat {
    (((c.hours * 60 + c.minutes) * 60 + c.seconds) * 1000 + c.millis) * 1000
  }

  /** The clock fields of a microsecond of the day; what is below a
      millisecond is dropped. */
  function Clockface(micros: nat): (c: TimeOfDay)
    requires micros < MICROS_PER_DAY
    ensures c.hours < 24 && c.minutes < 60 && c.seconds < 60 && c.millis < 1000
    ensures MicrosOf(c) == micros - micros % 1000
  {
    var q := micros / 1000;
    var s := q / 1000;
    var m := s / 60;
    TimeOfDay(m / 60, m % 60, s % 60, q % 1000)
  }

  /** `t` as `toJSON` keeps it: to the millisecond. */
  function ToMillis(t: Timestamp): (r: Timestamp)
    ensures r.year == t.year && r.month == t.month && r.day == t.day
    ensures r.micros <= t.micros < r.micros + 1000 && r.micros % 1000 == 0
  {
    t.(micros := t.micros - t.micros % 1000)
  }

  function IsoDate(year: nat, month: nat, day: nat): (s: string)
    ensures |s| == 10
  {
    Decimal.LastDigits(year, 4) + "-" + Decimal.LastDigits(month, 2) + "-" + Decimal.LastDigits(day, 2)
  }

  function IsoTime(c: TimeOfDay): (s: string)
    ensures |s| == 12
  {
    Decimal.LastDigits(c.hours, 2) + ":" + Decimal.LastDigits(c.minutes, 2) + ":"
      + Decimal.LastDigits(c.seconds, 2) + "." + Decimal.LastDigits(c.millis, 3)
  }

  /** `Date.prototype.toJSON`: "YYYY-MM-DDTHH:MM:SS.sssZ" in UTC. */
  function Iso(t: Timestamp): (s: string)
    ensures |s| == 24
  {
    IsoDate(t.year, t.month, t.day) + "T" + IsoTime(Clockface(t.micros)) + "Z"
  }

  /** The number spelled by the `width` characters of `s` at `i`, if they
      are all digits. */
  function FieldAt(s: string, i: nat, width: nat): Option<nat>
    requires i + width <= |s|
  {
    if Decimal.AllDigits(s[i..i + width]) then Some(Decimal.DigitsValue(s[i..i + width])) else None
  }

  /** A `TIMESTAMP` column's reading of text in the `toJSON` layout: the
      fields at their fixed places, refused when one is not digits or the
      date or time does not exist. */
  function ParseIso(s: string): Option<Timestamp> {
    if |s| != 24 || s[4] != '-' || s[7] != '-' || s[10] != 'T' || s[13] != ':' || s[16] != ':'
       || s[19] != '.' || s[23] != 'Z' then None
    else
      var year, month, day := FieldAt(s, 0, 4), FieldAt(s, 5, 2), FieldAt(s, 8, 2);
      var hours, minutes, seconds, millis := FieldAt(s, 11, 2), FieldAt(s, 14, 2), FieldAt(s, 17, 2), FieldAt(s, 20, 3);
      if year.None? || month.None? || day.None? || hours.None? || minutes.None? || seconds.None? || millis.None? then None
      else if hours.value >= 24 || minutes.value >= 60 || seconds.value >= 60 then None
      else
        var d := DateTime(year.value, month.value, day.value,
                          MicrosOf(TimeOfDay(hours.value, minutes.value, seconds.value, millis.value)));
        if OnCalendar(d) then Some(d) else None
  }

  /** The text `toJSON` writes reads back as the instant to the millisecond. */
  lemma IsoReadsBack(t: Timestamp)
    ensures ParseIso(Iso(t)) == Some(ToMillis(t))
  {
    var c := Clockface(t.micros);
    assert DateTime(t.year, t.month, t.day, MicrosOf(c)) == ToMillis(t);
    IsoParsesAsFields(t);
  }

  lemma IsoParsesAsFields(t: Timestamp)
    ensures var c := Clockface(t.micros);
            MicrosOf(c) < MICROS_PER_DAY && ParseIso(Iso(t)) == Some(DateTime(t.year, t.month, t.day, MicrosOf(c)))
  {
    var c := Clockface(t.micros);
    IsoDateFields(t);
    IsoTimeFields(t);
    IsoSeparators(t);
    ParseLaidOut(Iso(t), t.year, t.month, t.day, c);
  }

  lemma IsoDateFields(t: Timestamp)
    ensures var s := Iso(t);
            FieldAt(s, 0, 4) == Some(t.year) && FieldAt(s, 5, 2) == Some(t.month) && FieldAt(s, 8, 2) == Some(t.day)
  {
    IsoLayout(t);
    assert Decimal.Pow10(2) == 100 && Decimal.Pow10(4) == 10000;
    FieldReadsBack(Iso(t), 0, t.year, 4);
    FieldReadsBack(Iso(t), 5, t.month, 2);
    FieldReadsBack(Iso(t), 8, t.day, 2);
  }

  lemma IsoTimeFields(t: Timestamp)
    ensures var s := Iso(t);
            var c := Clockface(t.micros);
            && FieldAt(s, 11, 2) == Some(c.hours) && FieldAt(s, 14, 2) == Some(c.minutes)
            && FieldAt(s, 17, 2) == Some(c.seconds) && FieldAt(s, 20, 3) == Some(c.millis)
  {
    var c := Clockface(t.micros);
    IsoLayout(t);
    assert Decimal.Pow10(2) == 100 && Decimal.Pow10(3) == 1000;
    FieldReadsBack(Iso(t), 11, c.hours, 2);
    FieldReadsBack(Iso(t), 14, c.minutes, 2);
    FieldReadsBack(Iso(t), 17, c.seconds, 2);
    FieldReadsBack(Iso(t), 20, c.millis, 3);
  }

  /** Where each separator of the `toJSON` text sits. */
  lemma IsoSeparators(t: Timestamp)
    ensures var s := Iso(t);
            s[4] == '-' && s[7] == '-' && s[10] == 'T' && s[13] == ':' && s[16] == ':' && s[19] == '.' && s[23] == 'Z'
  {
    var date, time := IsoDate(t.year, t.month, t.day), IsoTime(Clockface(t.micros));
    DateSlices(t.year, t.month, t.day);
    TimeSlices(Clockface(t.micros));
    assert Iso(t) == date + "T" + time + "Z";
  }

  /** Where each field of the `toJSON` text sits. */
  lemma IsoLayout(t: Timestamp)
    ensures var s := Iso(t);
            var c := Clockface(t.micros);
            && s[0..4] == Decimal.LastDigits(t.year, 4) && s[5..7] == Decimal.LastDigits(t.month, 2)
            && s[8..10] == Decimal.LastDigits(t.day, 2) && s[11..13] == Decimal.LastDigits(c.hours, 2)
            && s[14..16] == Decimal.LastDigits(c.minutes, 2) && s[17..19] == Decimal.LastDigits(c.seconds, 2)
            && s[20..23] == Decimal.LastDigits(c.millis, 3)
  {
    var c := Clockface(t.micros);
    var s := Iso(t);
    var date, time := IsoDate(t.year, t.month, t.day), IsoTime(c);
    assert s[..10] == date && s[11..23] == time;
    DateSlices(t.year, t.month, t.day);
    TimeSlices(c);
    assert s[0..4] == date[0..4] && s[5..7] == date[5..7] && s[8..10] == date[8..10];
    assert s[11..13] == time[0..2] && s[14..16] == time[3..5] && s[17..19] == time[6..8] && s[20..23] == time[9..12];
  }

  /** Text with the separators in place and the fields given reads as the
      instant they spell. */
  lemma ParseLaidOut(s: string, year: nat, month: nat, day: nat, c: TimeOfDay)
    requires |s| == 24 && s[4] == '-' && s[7] == '-' && s[10] == 'T' && s[13] == ':' && s[16] == ':'
             && s[19] == '.' && s[23] == 'Z'
    requires FieldAt(s, 0, 4) == Some(year) && FieldAt(s, 5, 2) == Some(month) && FieldAt(s, 8, 2) == Some(day)
    requires FieldAt(s, 11, 2) == Some(c.hours) && FieldAt(s, 14, 2) == Some(c.minutes)
             && FieldAt(s, 17, 2) == Some(c.seconds) && FieldAt(s, 20, 3) == Some(c.millis)
    requires c.hours < 24 && c.minutes < 60 && c.seconds < 60
    requires OnCalendar(DateTime(year, month, day, MicrosOf(c)))
    ensures ParseIso(s) == Some(DateTime(year, month, day, MicrosOf(c)))
  {
  }

  lemma DateSlices(year: nat, month: nat, day: nat)
    ensures var s := IsoDate(year, month, day);
            && s[0..4] == Decimal.LastDigits(year, 4) && s[4] == '-'
            && s[5..7] == Decimal.LastDigits(month, 2) && s[7] == '-'
            && s[8..10] == Decimal.LastDigits(day, 2)
  {
  }

  lemma TimeSlices(c: TimeOfDay)
    ensures var s := IsoTime(c);
            && s[0..2] == Decimal.LastDigits(c.hours, 2) && s[2] == ':'
            && s[3..5] == Decimal.LastDigits(c.minutes, 2) && s[5] == ':'
            && s[6..8] == Decimal.LastDigits(c.seconds, 2) && s[8] == '.'
            && s[9..12] == Decimal.LastDigits(c.millis, 3)
  {
  }

  lemma FieldReadsBack(s: string, i: nat, n: nat, width: nat)
    requires i + width <= |s| && s[i..i + width] == Decimal.LastDigits(n, width)
    requires n < Decimal.Pow10(width)
    ensures FieldAt(s, i, width) == Some(n)
  {
    Decimal.LastDigitsValue(n, width);
  }

  /** A time of day on the clock is read back from its microseconds. */
  lemma ClockfaceOf(c: TimeOfDay)
    requires c.hours < 24 && c.minutes < 60 && c.seconds < 60 && c.millis < 1000
    ensures MicrosOf(c) < MICROS_PER_DAY && Clockface(MicrosOf(c)) == c
  {
    var m := c.hours * 60 + c.minutes;
    var s := m * 60 + c.seconds;
    var q := s * 1000 + c.millis;
    assert MicrosOf(c) == q * 1000;
    assert q * 1000 / 1000 == q;
    assert q / 1000 == s && q % 1000 == c.millis;
    assert s / 60 == m && s % 60 == c.seconds;
    assert m / 60 == c.hours && m % 60 == c.minutes;
  }

  /** Every text the column accepts is the `toJSON` text of what it reads:
      `ParseIso` takes exactly the rendered texts. */
  lemma ParsedIsIso(s: string)
    requires ParseIso(s).Some?
    ensures Iso(ParseIso(s).value) == s
  {
    var t := ParseIso(s).value;
    var c := TimeOfDay(FieldAt(s, 11, 2).value, FieldAt(s, 14, 2).value, FieldAt(s, 17, 2).value,
                       FieldAt(s, 20, 3).value);
    Decimal.DigitsValueBound(s[20..23]);
    ClockfaceOf(c);
    assert Clockface(t.micros) == c;
    Decimal.DigitsRespell(s[0..4]);
    Decimal.DigitsRespell(s[5..7]);
    Decimal.DigitsRespell(s[8..10]);
    Decimal.DigitsRespell(s[11..13]);
    Decimal.DigitsRespell(s[14..16]);
    Decimal.DigitsRespell(s[17..19]);
    Decimal.DigitsRespell(s[20..23]);
    DateSlices(t.year, t.month, t.day);
    TimeSlices(c);
    var u := Iso(t);
    assert u[..10] == IsoDate(t.year, t.month, t.day) && u[11..23] == IsoTime(c);
    forall k | 0 <= k < 24 ensures u[k] == s[k] {
      if k < 4 { assert u[k] == u[0..4][k] && s[k] == s[0..4][k]; }
      else if 5 <= k < 7 { assert u[k] == u[5..7][k - 5] && s[k] == s[5..7][k - 5]; }
      else if 8 <= k < 10 { assert u[k] == u[8..10][k - 8] && s[k] == s[8..10][k - 8]; }
      else if 11 <= k < 13 { assert u[k] == u[11..13][k - 11] && s[k] == s[11..13][k - 11]; }
      else if 14 <= k < 16 { assert u[k] == u[14..16][k - 14] && s[k] == s[14..16][k - 14]; }
      else if 17 <= k < 19 { assert u[k] == u[17..19][k - 17] && s[k] == s[17..19][k - 17]; }
      else if 20 <= k < 23 { assert u[k] == u[20..23][k - 20] && s[k] == s[20..23][k - 20]; }
    }
  }

  /** A `toJSON` text as the list sends it back. */
  const SAMPLE_ISO: string := "2024-01-15T10:30:00.000Z"

  /** The sample text reads as 10:30 on 15 January 2024. */
  lemma SampleIsoParses()
    ensures ParseIso(SAMPLE_ISO) == Some(DateTime(2024, 1, 15, 37_800_000_000))
  {
    SampleSeparators();
    SampleDate();
    SampleTime();
    ParseLaidOut(SAMPLE_ISO, 2024, 1, 15, TimeOfDay(10, 30, 0, 0));
  }

  lemma SampleSeparators()
    ensures var s := SAMPLE_ISO;
            |s| == 24 && s[4] == '-' && s[7] == '-' && s[10] == 'T' && s[13] == ':' && s[16] == ':'
            && s[19] == '.' && s[23] == 'Z'
  {
  }

  lemma SampleDate()
    ensures FieldAt(SAMPLE_ISO, 0, 4) == Some(2024) && FieldAt(SAMPLE_ISO, 5, 2) == Some(1)
            && FieldAt(SAMPLE_ISO, 8, 2) == Some(15)
  {
    var s := SAMPLE_ISO;
    SampleDateDigits();
    FieldsFrom(s, 0, 4);
    FieldsFrom(s, 5, 2);
    FieldsFrom(s, 8, 2);
  }

  lemma SampleDateDigits()
    ensures var s := SAMPLE_ISO;
            s[0] == '2' && s[1] == '0' && s[2] == '2' && s[3] == '4'
            && s[5] == '0' && s[6] == '1' && s[8] == '1' && s[9] == '5'
  {
  }

  lemma SampleTime()
    ensures FieldAt(SAMPLE_ISO, 11, 2) == Some(10) && FieldAt(SAMPLE_ISO, 14, 2) == Some(30)
            && FieldAt(SAMPLE_ISO, 17, 2) == Some(0) && FieldAt(SAMPLE_ISO, 20, 3) == Some(0)
  {
    var s := SAMPLE_ISO;
    SampleTimeDigits();
    FieldsFrom(s, 11, 2);
    FieldsFrom(s, 14, 2);
    FieldsFrom(s, 17, 2);
    FieldsFrom(s, 20, 3);
  }

  lemma SampleTimeDigits()
    ensures var s := SAMPLE_ISO;
            s[11] == '1' && s[12] == '0' && s[14] == '3' && s[15] == '0'
            && s[17] == '0' && s[18] == '0' && s[20] == '0' && s[21] == '0' && s[22] == '0'
  {
  }

  /** The value of a digit character. */
  function DigitAt(s: string, k: nat): int
    requires k < |s|
  {
    s[k] as int - '0' as int
  }

  /** Reading `width` digits at `i`, for every width up to `n`, one digit
      at a time. */
  lemma {:induction false} FieldsFrom(s: string, i: nat, n: nat)
    requires i + n <= |s| && forall k | i <= k < i + n :: Decimal.IsDigit(s[k])
    ensures n == 2 ==> FieldAt(s, i, 2) == Some(10 * DigitAt(s, i) + DigitAt(s, i + 1))
    ensures n == 3 ==> FieldAt(s, i, 3) == Some(100 * DigitAt(s, i) + 10 * DigitAt(s, i + 1) + DigitAt(s, i + 2))
    ensures n == 4 ==> FieldAt(s, i, 4)
                         == Some(1000 * DigitAt(s, i) + 100 * DigitAt(s, i + 1) + 10 * DigitAt(s, i + 2) + DigitAt(s, i + 3))
  {
    assert s[i..i] == [];
    if n >= 1 { FieldStep(s, i, 0); }
    if n >= 2 { FieldStep(s, i, 1); }
    if n >= 3 { FieldStep(s, i, 2); }
    if n >= 4 { FieldStep(s, i, 3); }
  }

  /** One more digit after a field multiplies its value by ten and adds the digit. */
  lemma FieldStep(s: string, i: nat, w: nat)
    requires i + w < |s| && FieldAt(s, i, w).Some? && Decimal.IsDigit(s[i + w])
    ensures FieldAt(s, i, w + 1) == Some(FieldAt(s, i, w).value * 10 + DigitAt(s, i + w))
  {
    var f := s[i..i + w + 1];
    assert f[..w] == s[i..i + w];
    assert f[w] == s[i + w];
  }
}

=== FILE: commission_form.dfy ===
/** src/components/CommissionForm.tsx: the new-commission form, its live
    commission preview, when it may be submitted, the body it posts and the
    reset after a successful create. */
module CommissionForm {
  import opened Wrappers
  import opened Clock
  import opened Money
  import opened Decimal
  import opened Store
  import opened Api

  /** `formData`: every input holds text. */
  datatype FormData = FormData(
    nfNumber: string,
    orderNumberNectar: string,
    orderNumberEmbrascol: string,
    valueNf: string,
    factor: string)

  /** The blank form with the default factor typed in. */
  const InitialForm: FormData := FormData("", "", "", "", "0.025")

  datatype FormState = FormState(data: FormData, loading: bool)

  const InitialState: FormState := FormState(InitialForm, false)

  datatype Field = NfField | NectarField | EmbrascolField | ValueField | FactorField

  /** The text of one input. */
  function FieldText(d: FormData, field: Field): string {
    match field
    case NfField => d.nfNumber
    case NectarField => d.orderNumberNectar
    case EmbrascolField => d.orderNumberEmbrascol
    case ValueField => d.valueNf
    case FactorField => d.factor
  }

  /** `handleChange`: one input's text replaced, the others kept. */
  function HandleChange(st: FormState, field: Field, text: string): (r: FormState)
    ensures r.loading == st.loading
    ensures FieldText(r.data, field) == text
    ensures forall g: Field | g != field :: FieldText(r.data, g) == FieldText(st.data, g)
  {
    var d := st.data;
    match field
    case NfField => st.(data := d.(nfNumber := text))
    case NectarField => st.(data := d.(orderNumberNectar := text))
    case EmbrascolField => st.(data := d.(orderNumberEmbrascol := text))
    case ValueField => st.(data := d.(valueNf := text))
    case FactorField => st.(data := d.(factor := text))
  }

  /** `parseFloat(x) || 0` on what a number input yields, in `10^-scale` units. */
  function ParsedOrZero(s: string, scale: nat): (r: int)
    ensures ParseDecimal(s, scale).Some? ==> r == ParseDecimal(s, scale).value
    ensures ParseDecimal(s, scale).None? ==> r == 0
  {
    ParseDecimal(s, scale).GetOr(0)
  }

  /** `calculateCommission` as written, in millionths: a blank factor counts
      as zero. */
  function PreviewAsWritten(f: FormData): (r: int)
    ensures f.factor == "" ==> r == 0
  {
    ParsedOrZero(f.valueNf, CENTS_SCALE) * ParsedOrZero(f.factor, FACTOR_SCALE)
  }

  /** The factor the server stores for the form's factor text: a blank text
      falls back to the default. */
  function FactorUsed(f: FormData): (r: int)
    ensures f.factor == "" ==> r == DEFAULT_FACTOR
    ensures f.factor != "" ==> r == ParsedOrZero(f.factor, FACTOR_SCALE)
  {
    if f.factor == "" then DEFAULT_FACTOR else ParsedOrZero(f.factor, FACTOR_SCALE)
  }

  /** The preview with the server's fallback for a blank factor. */
  function Preview(f: FormData): (r: int)
    ensures f.factor != "" ==> r == PreviewAsWritten(f)
    ensures f.factor == "" ==> r == ParsedOrZero(f.valueNf, CENTS_SCALE) * DEFAULT_FACTOR
  {
    ParsedOrZero(f.valueNf, CENTS_SCALE) * FactorUsed(f)
  }

  /** The preview box is rendered once a value has been typed. */
  predicate ShowsPreview(f: FormData) {
    f.valueNf != ""
  }

  /** `disabled={loading || !formData.value_nf}`, negated. */
  predicate SubmitEnabled(st: FormState) {
    !st.loading && st.data.valueNf != ""
  }

  /** `JSON.stringify(formData)` as the create route reads it; `None` when
      the value text is not a number the database accepts for `value_nf`. */
  function RequestBody(f: FormData): (r: Option<CreateBody>)
    ensures r.Some? <==> ParseDecimal(f.valueNf, CENTS_SCALE).Some?
    ensures r.Some? ==>
              && r.value.nfNumber == TextGiven(f.nfNumber)
              && r.value.orderNumberNectar == TextGiven(f.orderNumberNectar)
              && r.value.orderNumberEmbrascol == TextGiven(f.orderNumberEmbrascol)
              && r.value.valueNf == ParseDecimal(f.valueNf, CENTS_SCALE).value
              && r.value.factor == FactorText(f.factor)
  {
    match ParseDecimal(f.valueNf, CENTS_SCALE)
    case Some(v) =>
      Some(CreateBody(TextGiven(f.nfNumber), TextGiven(f.orderNumberNectar),
                      TextGiven(f.orderNumberEmbrascol), v, FactorText(f.factor)))
    case None => None
  }

  /** `handleSubmit` up to the request: a form whose button is disabled is
      not submitted. */
  function BeginSubmit(st: FormState): (r: FormState)
    ensures SubmitEnabled(st) ==> r == st.(loading := true)
    ensures !SubmitEnabled(st) ==> r == st
  {
    if SubmitEnabled(st) then st.(loading := true) else st
  }

  /** `handleSubmit` after the response: an ok create resets the form,
      anything else keeps the typed text; `loading` is cleared either way. */
  function FinishSubmit(st: FormState, ok: bool): (r: FormState)
    ensures !r.loading
    ensures ok ==> r.data == InitialForm
    ensures !ok ==> r.data == st.data
  {
    FormState(if ok then InitialForm else st.data, false)
  }

  /** The default factor text reads as the server's default factor. */
  lemma DefaultFactorText()
    ensures ParseDecimal("0.025", FACTOR_SCALE) == Some(DEFAULT_FACTOR)
  {
    var s := "0.025";
    assert '.' in s by { assert s[1] == '.'; }
    assert Text.IndexOf(s, '.') == 1;
    assert s[..1] == "0" && s[2..] == "025";
    assert DigitsValue("025") == 25 by {
      assert "025"[..2] == "02";
      assert "02"[..1] == "0";
    }
  }

  /** A reset form is the form the page starts with, and its factor is the
      one the server would have filled in. */
  lemma ResetIsInitial(st: FormState)
    ensures FinishSubmit(BeginSubmit(st), true) == InitialState
    ensures FactorUsed(FinishSubmit(st, true).data) == DEFAULT_FACTOR
    ensures FactorOf(FactorText(FinishSubmit(st, true).data.factor)) == Some(DEFAULT_FACTOR)
  {
    DefaultFactorText();
  }

  /** A form whose value and factor read as numbers the columns can hold is
      stored, and rounded to cents its preview is the commission stored. */
  lemma PreviewMatchesStored(t: Table, f: FormData, now: Timestamp)
    requires ParseDecimal(f.valueNf, CENTS_SCALE).Some?
    requires f.factor == "" || ParseDecimal(f.factor, FACTOR_SCALE).Some?
    requires Storable(ParseDecimal(f.valueNf, CENTS_SCALE).value, FactorUsed(f))
    ensures Create(t, RequestBody(f).value, now).response.status == 200
    ensures var r := Create(t, RequestBody(f).value, now).response.body.row;
            r.factor == FactorUsed(f) && r.commissionValue == RoundToCents(Preview(f))
  {
    var body := RequestBody(f).value;
    if f.factor != "" {
      assert FactorOf(body.factor) == ParseDecimal(f.factor, FACTOR_SCALE);
    }
  }

  /** As written, the preview of a blank factor disagrees with what is
      stored: R$ 100,00 previews a commission of zero and is stored with
      R$ 2,50. */
  lemma BlankFactorPreviewDisagrees(t: Table, now: Timestamp)
    ensures var f := FormData("", "", "", "100", "");
            && PreviewAsWritten(f) == 0
            && Create(t, RequestBody(f).value, now).response.status == 200
            && Create(t, RequestBody(f).value, now).response.body.row.commissionValue == 250
  {
    var f := FormData("", "", "", "100", "");
    assert ParseDecimal("100", CENTS_SCALE) == Some(10000) by {
      var s := "100";
      assert '.' !in s by { assert s[0] == '1' && s[1] == '0' && s[2] == '0'; }
      assert AllDigits(s);
      assert s[..2] == "10" && s[..2][..1] == "1";
      assert DigitsValue("1") == 1;
      assert DigitsValue("10") == 10;
      assert DigitsValue(s) == 100;
    }
    CommissionExact(10000, DEFAULT_FACTOR, 250);
    PreviewMatchesStored(t, f, now);
  }
}

=== FILE: csv_export.dfy ===
/** The export transform of `GET /api/commissions/export`
    (server/index.js): one semicolon-delimited line per row, with fixed
    decimals, localized status and date, under a header of labels, the whole
    payload led by a byte-order mark. */
module CsvExport {
  import opened Wrappers
  import Text
  import Decimal
  import opened Money
  import opened Clock
  import opened Store

  const BOM: char := '\U{FEFF}'
  const DELIMITER: char := ';'
  const EOL: char := '\n'

  /** The header labels, in column order. */
  const Labels: seq<string> := [
    "ID", "N\U{00BA} NF", "Pedido Nectar", "Pedido Embrascol", "Valor NF",
    "Fator", "Comiss\U{00E3}o", "Status", "Criado em"]

  const PAID_LABEL: string := "Pago"
  const PENDING_LABEL: string := "Pendente"

  /** json2csv's default quote; a quote inside a cell is written twice. */
  const QUOTE: char := '"'

  function Escape(s: string): string {
    if s == [] then [] else (if s[0] == QUOTE then [QUOTE, QUOTE] else [s[0]]) + Escape(s[1..])
  }

  /** How json2csv writes a string value: between quotes, inner quotes
      doubled. Numbers are written bare. */
  function Quoted(s: string): string {
    [QUOTE] + Escape(s) + [QUOTE]
  }

  /** Undo the doubling of quotes. */
  function Unescape(t: string): string {
    if t == [] then []
    else if |t| >= 2 && t[0] == QUOTE && t[1] == QUOTE then [QUOTE] + Unescape(t[2..])
    else [t[0]] + Unescape(t[1..])
  }

  /** A cell's value as a CSV reader sees it: a quoted cell loses its quotes
      and its doubled inner quotes, any other cell is taken as it stands. */
  function Unquoted(t: string): string {
    if |t| >= 2 && t[0] == QUOTE && t[|t| - 1] == QUOTE then Unescape(t[1..|t| - 1]) else t
  }

  lemma {:induction false} UnescapeEscape(s: string)
    ensures Unescape(Escape(s)) == s
  {
    if s != [] {
      var rest := Escape(s[1..]);
      var e := Escape(s);
      if s[0] == QUOTE {
        assert e == [QUOTE, QUOTE] + rest;
        assert e[2..] == rest;
      } else {
        assert e == [s[0]] + rest;
        assert e[1..] == rest;
      }
      UnescapeEscape(s[1..]);
      assert s == [s[0]] + s[1..];
    }
  }

  /** Quoting is undone by reading the cell: every string value comes back. */
  lemma UnquoteQuoted(s: string)
    ensures Unquoted(Quoted(s)) == s
  {
    var q := Quoted(s);
    assert q[1..|q| - 1] == Escape(s);
    UnescapeEscape(s);
  }

  lemma {:induction false} EscapeHasNo(s: string, ch: char)
    requires ch != QUOTE && ch !in s
    ensures ch !in Escape(s)
  {
    if s != [] {
      EscapeHasNo(s[1..], ch);
    }
  }

  lemma QuotedHasNo(s: string, ch: char)
    requires ch != QUOTE && ch !in s
    ensures ch !in Quoted(s)
  {
    EscapeHasNo(s, ch);
  }

  /** The header: every label is a string, so every label is quoted. */
  function QuoteAll(fs: seq<string>): (r: seq<string>)
    ensures |r| == |fs|
    ensures forall k | 0 <= k < |fs| :: r[k] == Quoted(fs[k])
  {
    if fs == [] then [] else [Quoted(fs[0])] + QuoteAll(fs[1..])
  }

  /** A value as json2csv writes it: a number bare, a string quoted (the
      empty string included), NULL as an empty cell. */
  datatype Cell = Num(text: string) | Str(text: string) | Nil

  function Render(cell: Cell): string {
    match cell
    case Num(t) => t
    case Str(t) => Quoted(t)
    case Nil => ""
  }

  /** A nullable text column. */
  function TextValue(o: Option<string>): (cell: Cell)
    ensures cell.Nil? <==> o.None?
    ensures o.Some? ==> cell == Str(o.value)
  {
    if o.Some? then Str(o.value) else Nil
  }

  /** The values of one row after the transform, in the header's column
      order: the id stays a number; the amounts, the status and the date
      become strings. */
  function Values(c: Commission): (cells: seq<Cell>)
    ensures |cells| == |Labels| == 9
    ensures cells[7] == Str(PAID_LABEL) <==> c.isPaid
    ensures cells[7] == Str(PENDING_LABEL) <==> !c.isPaid
  {
    [ Num(Decimal.IntToString(c.id)),
      TextValue(c.nfNumber),
      TextValue(c.orderNumberNectar),
      TextValue(c.orderNumberEmbrascol),
      Str(Decimal.Fixed(c.valueNf, CENTS_SCALE)),
      Str(Decimal.Fixed(c.factor, FACTOR_SCALE)),
      Str(Decimal.Fixed(c.commissionValue, CENTS_SCALE)),
      Str(if c.isPaid then PAID_LABEL else PENDING_LABEL),
      Str(DateBR(c.createdAt)) ]
  }

  function RenderAll(cells: seq<Cell>): (r: seq<string>)
    ensures |r| == |cells|
    ensures forall k | 0 <= k < |cells| :: r[k] == Render(cells[k])
  {
    if cells == [] then [] else [Render(cells[0])] + RenderAll(cells[1..])
  }

  /** The written cells of one row. */
  function Cells(c: Commission): (cells: seq<string>)
    ensures |cells| == 9
    ensures forall k | 0 <= k < 9 :: cells[k] == Render(Values(c)[k])
  {
    RenderAll(Values(c))
  }

  /** A written cell reads back as its value: a string without its quotes,
      NULL as an empty cell. */
  lemma RenderReadsBack(cell: Cell)
    ensures cell.Str? ==> Unquoted(Render(cell)) == cell.text
    ensures cell.Num? ==> Render(cell) == cell.text
    ensures cell.Nil? ==> Render(cell) == ""
  {
    if cell.Str? {
      UnquoteQuoted(cell.text);
    }
  }

  /** Every cell reads back as the column it renders: the id, the three text
      columns (NULL as an empty cell), the amounts at 2 and the factor at 4
      decimals, the status label, and the day/month/year of `created_at`. */
  lemma CellsReadBack(c: Commission)
    ensures var cells := Cells(c);
            && (c.id >= 0 ==> Decimal.ParseDecimal(cells[0], 0) == Some(c.id))
            && TextReadsBack(cells[1], c.nfNumber)
            && TextReadsBack(cells[2], c.orderNumberNectar)
            && TextReadsBack(cells[3], c.orderNumberEmbrascol)
            && Decimal.ParseDecimal(Unquoted(cells[4]), CENTS_SCALE) == Some(c.valueNf)
            && Decimal.ParseDecimal(Unquoted(cells[5]), FACTOR_SCALE) == Some(c.factor)
            && Decimal.ParseDecimal(Unquoted(cells[6]), CENTS_SCALE) == Some(c.commissionValue)
            && (Unquoted(cells[7]) == PAID_LABEL <==> c.isPaid)
            && var date := Text.Split(Unquoted(cells[8]), '/');
               |date| == 3 && Decimal.AllDigits(date[0]) && Decimal.AllDigits(date[1]) && Decimal.AllDigits(date[2])
               && Decimal.DigitsValue(date[0]) == c.createdAt.day
               && Decimal.DigitsValue(date[1]) == c.createdAt.month
               && Decimal.DigitsValue(date[2]) == c.createdAt.year
  {
    var vs := Values(c);
    IdCellReadsBack(c.id);
    RenderReadsBack(vs[0]);
    TextCellReadsBack(c.nfNumber);
    TextCellReadsBack(c.orderNumberNectar);
    TextCellReadsBack(c.orderNumberEmbrascol);
    AmountCellsReadBack(c);
    RenderReadsBack(vs[7]);
    RenderReadsBack(vs[8]);
    DateBRReadsBack(c.createdAt);
  }

  lemma AmountCellsReadBack(c: Commission)
    ensures Decimal.ParseDecimal(Unquoted(Cells(c)[4]), CENTS_SCALE) == Some(c.valueNf)
    ensures Decimal.ParseDecimal(Unquoted(Cells(c)[5]), FACTOR_SCALE) == Some(c.factor)
    ensures Decimal.ParseDecimal(Unquoted(Cells(c)[6]), CENTS_SCALE) == Some(c.commissionValue)
  {
    var vs := Values(c);
    RenderReadsBack(vs[4]);
    RenderReadsBack(vs[5]);
    RenderReadsBack(vs[6]);
    Decimal.FixedRoundTrip(c.valueNf, CENTS_SCALE);
    Decimal.FixedRoundTrip(c.factor, FACTOR_SCALE);
    Decimal.FixedRoundTrip(c.commissionValue, CENTS_SCALE);
  }

  /** A text cell is empty for NULL and otherwise reads back as the text. */
  predicate TextReadsBack(cell: string, o: Option<string>) {
    (o.None? ==> cell == "") && (o.Some? ==> Unquoted(cell) == o.value)
  }

  lemma TextCellReadsBack(o: Option<string>)
    ensures TextReadsBack(Render(TextValue(o)), o)
  {
    RenderReadsBack(TextValue(o));
  }

  lemma IdCellReadsBack(id: int)
    ensures id >= 0 ==> Decimal.ParseDecimal(Decimal.IntToString(id), 0) == Some(id)
  {
    if id >= 0 {
      var s := Decimal.NatToString(id);
      Decimal.NatToStringValue(id);
      assert Decimal.IsDigit(s[0]);
    }
  }

  function Line(c: Commission): string {
    Text.Join(Cells(c), DELIMITER)
  }

  function Lines(rows: seq<Commission>): (ls: seq<string>)
    ensures |ls| == |rows|
    ensures forall k | 0 <= k < |rows| :: ls[k] == Line(rows[k])
  {
    if rows == [] then [] else [Line(rows[0])] + Lines(rows[1..])
  }

  /** The header line: the quoted labels. */
  function Header(): string {
    Text.Join(QuoteAll(Labels), DELIMITER)
  }

  /** The response payload: BOM, header line, one line per row. */
  function Document(rows: seq<Commission>): string {
    [BOM] + Text.Join([Header()] + Lines(rows), EOL)
  }

  /** No text column of the row holds a delimiter or a line break. json2csv
      keeps such a text inside its quotes, but reading the document back by
      splitting at every ';' and line break would cut it. */
  predicate PlainText(c: Commission) {
    && NoBreak(c.nfNumber)
    && NoBreak(c.orderNumberNectar)
    && NoBreak(c.orderNumberEmbrascol)
  }

  predicate NoBreak(o: Option<string>) {
    o.Some? ==> DELIMITER !in o.value && EOL !in o.value
  }

  lemma IntCellHasNo(n: int, ch: char)
    requires !Decimal.IsDigit(ch) && ch != '-'
    ensures ch !in Decimal.IntToString(n)
  {
    var s := Decimal.NatToString(if n < 0 then -n else n);
    assert ch !in s;
  }

  /** A written cell holds neither delimiter nor line break when its value
      holds none. */
  lemma RenderHasNo(cell: Cell, ch: char)
    requires ch == DELIMITER || ch == EOL
    requires !cell.Nil? ==> ch !in cell.text
    ensures ch !in Render(cell)
  {
    if cell.Str? {
      QuotedHasNo(cell.text, ch);
    }
  }

  lemma ValueHasNo(c: Commission, ch: char, i: nat)
    requires PlainText(c) && (ch == DELIMITER || ch == EOL) && i < 9
    ensures var v := Values(c)[i]; !v.Nil? ==> ch !in v.text
  {
    if i == 0 {
      IntCellHasNo(c.id, ch);
    } else if i == 4 {
      Decimal.FixedHasNo(c.valueNf, CENTS_SCALE, ch);
    } else if i == 5 {
      Decimal.FixedHasNo(c.factor, FACTOR_SCALE, ch);
    } else if i == 6 {
      Decimal.FixedHasNo(c.commissionValue, CENTS_SCALE, ch);
    } else if i == 8 {
      DateBRPlain(c.createdAt);
    } else if i == 7 {
      var status := if c.isPaid then PAID_LABEL else PENDING_LABEL;
      assert forall k | 0 <= k < |status| :: status[k] != ch;
    }
  }

  lemma CellHasNo(c: Commission, ch: char, i: nat)
    requires PlainText(c) && (ch == DELIMITER || ch == EOL) && i < 9
    ensures ch !in Cells(c)[i]
  {
    ValueHasNo(c, ch, i);
    RenderHasNo(Values(c)[i], ch);
  }

  lemma CellsHaveNo(c: Commission, ch: char)
    requires PlainText(c) && (ch == DELIMITER || ch == EOL)
    ensures Text.Clean(Cells(c), ch)
  {
    forall i | 0 <= i < |Cells(c)| ensures ch !in Cells(c)[i] {
      CellHasNo(c, ch, i);
    }
  }

  lemma LabelsPlain(ch: char)
    requires ch == DELIMITER || ch == EOL
    ensures Text.Clean(QuoteAll(Labels), ch)
  {
    forall i | 0 <= i < |Labels| ensures ch !in QuoteAll(Labels)[i] {
      LabelPlain(i, ch);
    }
  }

  lemma LabelPlain(i: nat, ch: char)
    requires i < |Labels| && (ch == DELIMITER || ch == EOL)
    ensures ch !in Quoted(Labels[i])
  {
    var l := Labels[i];
    assert forall k | 0 <= k < |l| :: l[k] != ch;
    QuotedHasNo(l, ch);
  }

  /** The header line splits on ';' into cells that read back as the labels. */
  lemma HeaderReadsBack()
    ensures var cells := Text.Split(Header(), DELIMITER);
            |cells| == |Labels| && forall k | 0 <= k < |Labels| :: Unquoted(cells[k]) == Labels[k]
  {
    LabelsPlain(DELIMITER);
    Text.SplitJoin(QuoteAll(Labels), DELIMITER);
    forall k | 0 <= k < |Labels| ensures Unquoted(QuoteAll(Labels)[k]) == Labels[k] {
      UnquoteQuoted(Labels[k]);
    }
  }

  /** A row's line splits on ';' back into exactly its nine cells. */
  lemma LineReadsBack(c: Commission)
    requires PlainText(c)
    ensures Text.Split(Line(c), DELIMITER) == Cells(c)
  {
    CellsHaveNo(c, DELIMITER);
    Text.SplitJoin(Cells(c), DELIMITER);
  }

  lemma {:induction false} JoinHasNoEol(fs: seq<string>)
    requires Text.Clean(fs, EOL)
    ensures EOL !in Text.Join(fs, DELIMITER)
  {
    if |fs| > 1 {
      assert Text.Clean(fs[1..], EOL) by {
        forall i | 0 <= i < |fs[1..]| ensures EOL !in fs[1..][i] {
          assert fs[1..][i] == fs[i + 1];
        }
      }
      JoinHasNoEol(fs[1..]);
      assert EOL !in fs[0];
    } else if |fs| == 1 {
      assert EOL !in fs[0];
    }
  }

  /** The payload starts with the BOM; after it, the lines are the header and
      then one line per row in the order given. */
  lemma DocumentReadsBack(rows: seq<Commission>)
    requires forall k | 0 <= k < |rows| :: PlainText(rows[k])
    ensures var d := Document(rows);
            && |d| > 0 && d[0] == BOM
            && Text.Split(d[1..], EOL) == [Header()] + Lines(rows)
  {
    var ls := [Header()] + Lines(rows);
    HeaderHasNoEol();
    LinesClean(rows);
    CleanCons(Header(), Lines(rows), EOL);
    Text.SplitJoin(ls, EOL);
    var d := Document(rows);
    assert d[1..] == Text.Join(ls, EOL);
  }

  /** No row's line holds a line break. */
  lemma {:induction false} LinesClean(rows: seq<Commission>)
    requires forall c | c in rows :: PlainText(c)
    ensures Text.Clean(Lines(rows), EOL)
  {
    if rows != [] {
      LineHasNoEol(rows[0]);
      LinesClean(rows[1..]);
      CleanCons(Line(rows[0]), Lines(rows[1..]), EOL);
    }
  }

  lemma CleanCons(h: string, ls: seq<string>, sep: char)
    requires sep !in h && Text.Clean(ls, sep)
    ensures Text.Clean([h] + ls, sep)
  {
    var all := [h] + ls;
    forall i | 0 <= i < |all| ensures sep !in all[i] {
      if i > 0 {
        assert all[i] == ls[i - 1];
      }
    }
  }

  lemma LineHasNoEol(c: Commission)
    requires PlainText(c)
    ensures EOL !in Line(c)
  {
    CellsHaveNo(c, EOL);
    JoinHasNoEol(Cells(c));
  }

  lemma HeaderHasNoEol()
    ensures EOL !in Header()
  {
    LabelsPlain(EOL);
    JoinHasNoEol(QuoteAll(Labels));
  }
}

=== FILE: dashboard.dfy ===
/** The in-memory list of src/components/Dashboard.tsx: the all/pending/paid
    filter, the updates applied after a create, an edit or a delete, and the
    summary cards. */
module Dashboard {
  import opened Wrappers
  import opened Store
  import Listing

  /** The three filter buttons. */
  datatype Filter = All | Pending | Paid

  function StatusFilterOf(f: Filter): Listing.StatusFilter {
    match f
    case All => Listing.Everything
    case Pending => Listing.PendingOnly
    case Paid => Listing.PaidOnly
  }

  /** `filterCommissions`. */
  function FilterCommissions(cs: seq<Commission>, f: Filter): (r: seq<Commission>)
    ensures f == All ==> r == cs
    ensures f == Pending ==> forall c :: c in r <==> c in cs && !c.isPaid
    ensures f == Paid ==> forall c :: c in r <==> c in cs && c.isPaid
  {
    if f == All then cs else Listing.Select(cs, StatusFilterOf(f))
  }

  /** Every filter keeps the list's order: filtering a concatenation is the
      concatenation of the filtered parts. */
  lemma FilterKeepsOrder(a: seq<Commission>, b: seq<Commission>, f: Filter)
    ensures FilterCommissions(a + b, f) == FilterCommissions(a, f) + FilterCommissions(b, f)
  {
    if f != All {
      Listing.SelectAppend(a, b, StatusFilterOf(f));
    }
  }

  /** `handleCommissionAdded`: the new record goes first. */
  function Added(cs: seq<Commission>, c: Commission): (r: seq<Commission>)
    ensures |r| == |cs| + 1 && r[0] == c && r[1..] == cs
  {
    [c] + cs
  }

  /** `handleCommissionUpdated`: every record with the id is replaced. */
  function Updated(cs: seq<Commission>, u: Commission): (r: seq<Commission>)
    ensures |r| == |cs|
    ensures forall i | 0 <= i < |cs| :: r[i] == (if cs[i].id == u.id then u else cs[i])
  {
    if cs == [] then [] else [if cs[0].id == u.id then u else cs[0]] + Updated(cs[1..], u)
  }

  /** `handleCommissionDeleted`: every record with the id goes. */
  function Removed(cs: seq<Commission>, id: int): (r: seq<Commission>)
    ensures |r| <= |cs|
    ensures forall c :: c in r <==> c in cs && c.id != id
  {
    if cs == [] then []
    else (if cs[0].id != id then [cs[0]] else []) + Removed(cs[1..], id)
  }

  /** Removal keeps the order of what remains. */
  lemma {:induction false} RemovedKeepsOrder(a: seq<Commission>, b: seq<Commission>, id: int)
    ensures Removed(a + b, id) == Removed(a, id) + Removed(b, id)
  {
    if a == [] {
      assert a + b == b;
    } else {
      assert (a + b)[1..] == a[1..] + b;
      RemovedKeepsOrder(a[1..], b, id);
    }
  }

  /** Removal drops every copy of a record with the id and keeps every
      copy of the others. */
  lemma {:induction false} RemovedCount(cs: seq<Commission>, id: int, c: Commission)
    ensures multiset(Removed(cs, id))[c] == if c.id == id then 0 else multiset(cs)[c]
  {
    if cs != [] {
      var head := if cs[0].id != id then [cs[0]] else [];
      assert multiset(cs) == multiset([cs[0]]) + multiset(cs[1..]) by {
        assert cs == [cs[0]] + cs[1..];
      }
      assert multiset(Removed(cs, id)) == multiset(head) + multiset(Removed(cs[1..], id));
      RemovedCount(cs[1..], id, c);
    }
  }

  /** Lists holding the same records hold the same records after removal,
      whatever their order. */
  lemma RemovedSameRecords(a: seq<Commission>, b: seq<Commission>, id: int)
    requires multiset(a) == multiset(b)
    ensures multiset(Removed(a, id)) == multiset(Removed(b, id))
  {
    forall c ensures multiset(Removed(a, id))[c] == multiset(Removed(b, id))[c] {
      RemovedCount(a, id, c);
      RemovedCount(b, id, c);
    }
  }

  /** Removing a record that was just added, under a fresh id, restores the list. */
  lemma {:induction false} RemoveUndoesAdd(cs: seq<Commission>, c: Commission)
    requires !HasId(cs, c.id)
    ensures Removed(Added(cs, c), c.id) == cs
  {
    RemovedNothing(cs, c.id);
    assert Added(cs, c)[1..] == cs;
  }

  lemma {:induction false} RemovedNothing(cs: seq<Commission>, id: int)
    requires !HasId(cs, id)
    ensures Removed(cs, id) == cs
  {
    if cs != [] {
      assert !HasId(cs[1..], id) by {
        forall i | 0 <= i < |cs[1..]| ensures cs[1..][i].id != id {
          assert cs[1..][i] == cs[i + 1];
        }
      }
      RemovedNothing(cs[1..], id);
      assert cs == [cs[0]] + cs[1..];
    }
  }

  /** Replacing twice with the same record is replacing once. */
  lemma UpdatedIdempotent(cs: seq<Commission>, u: Commission)
    ensures Updated(Updated(cs, u), u) == Updated(cs, u)
  {
  }

  // ---------------------------------------------------------------------
  // Summary cards.

  /** `reduce((sum, c) => sum + c.commission_value, 0)`, in cents. */
  function SumValue(cs: seq<Commission>): int {
    if cs == [] then 0 else cs[0].commissionValue + SumValue(cs[1..])
  }

  datatype Stats = Stats(total: nat, pending: nat, paid: nat, totalValue: int, pendingValue: int, paidValue: int)

  /** `stats`: each figure computed on its own, as the component does. */
  function ComputeStats(cs: seq<Commission>): Stats {
    Stats(
      |cs|,
      |FilterCommissions(cs, Pending)|,
      |FilterCommissions(cs, Paid)|,
      SumValue(cs),
      SumValue(FilterCommissions(cs, Pending)),
      SumValue(FilterCommissions(cs, Paid)))
  }

  lemma {:induction false} SplitByStatus(cs: seq<Commission>)
    ensures |Listing.Select(cs, Listing.PendingOnly)| + |Listing.Select(cs, Listing.PaidOnly)| == |cs|
    ensures SumValue(Listing.Select(cs, Listing.PendingOnly)) + SumValue(Listing.Select(cs, Listing.PaidOnly)) == SumValue(cs)
  {
    if cs != [] {
      SplitByStatus(cs[1..]);
      var pend := Listing.Select(cs, Listing.PendingOnly);
      var paid := Listing.Select(cs, Listing.PaidOnly);
      if cs[0].isPaid {
        assert paid == [cs[0]] + Listing.Select(cs[1..], Listing.PaidOnly);
        assert paid[1..] == Listing.Select(cs[1..], Listing.PaidOnly);
        assert pend == Listing.Select(cs[1..], Listing.PendingOnly);
      } else {
        assert pend == [cs[0]] + Listing.Select(cs[1..], Listing.PendingOnly);
        assert pend[1..] == Listing.Select(cs[1..], Listing.PendingOnly);
        assert paid == Listing.Select(cs[1..], Listing.PaidOnly);
      }
    }
  }

  /** Pending and paid split the total, both in count and in value. */
  lemma StatsBalance(cs: seq<Commission>)
    ensures var s := ComputeStats(cs);
            s.pending + s.paid == s.total && s.pendingValue + s.paidValue == s.totalValue
  {
    SplitByStatus(cs);
  }

  /** The average ticket card: the mean commission when there is at least one
      record, otherwise nothing (the card shows the "0,00" placeholder). */
  function AverageTicket(s: Stats): (r: Option<real>)
    ensures r.Some? <==> s.total > 0
    ensures r.Some? ==> r.value * s.total as real == s.totalValue as real
  {
    if s.total > 0 then Some(s.totalValue as real / s.total as real) else None
  }

  const AVERAGE_PLACEHOLDER: string := "0,00"
}

=== FILE: decimal.dfy ===
/** Decimal text for integers held at a fixed scale: rendering with a fixed
    number of fractional digits (JavaScript's `toFixed`) and the matching
    parser, proved to be inverses. */
module Decimal {
  import opened Wrappers
  import Text

  function Pow10(k: nat): (p: nat)
    ensures p >= 1
  {
    if k == 0 then 1 else 10 * Pow10(k - 1)
  }

  predicate IsDigit(c: char) {
    '0' <= c <= '9'
  }

  predicate AllDigits(s: string) {
    forall i | 0 <= i < |s| :: IsDigit(s[i])
  }

  function DigitChar(d: nat): (c: char)
    requires d < 10
    ensures IsDigit(c)
  {
    ('0' as int + d) as char
  }

  /** The value of a string of decimal digits, most significant first. */
  function DigitsValue(s: string): nat
    requires AllDigits(s)
  {
    if s == [] then 0
    else DigitsValue(s[..|s| - 1]) * 10 + (s[|s| - 1] as int - '0' as int)
  }

  /** The shortest decimal spelling of `n`. */
  function NatToString(n: nat): (s: string)
    ensures |s| >= 1 && AllDigits(s)
    ensures '.' !in s && '-' !in s
  {
    if n < 10 then [DigitChar(n)] else NatToString(n / 10) + [DigitChar(n % 10)]
  }

  /** A magnitude's text with a leading minus sign. */
  function Minus(u: string): string {
    ['-'] + u
  }

  /** A signed integer in decimal, as JavaScript prints an integral number. */
  function IntToString(n: int): (s: string)
    ensures |s| >= 1
  {
    if n < 0 then Minus(NatToString(-n)) else NatToString(n)
  }

  function Zeros(k: nat): (z: string)
    ensures |z| == k && AllDigits(z)
  {
    if k == 0 then "" else "0" + Zeros(k - 1)
  }

  /** Left-pad a digit string with zeros up to `width` characters. */
  function PadLeft(s: string, width: nat): (r: string)
    requires AllDigits(s)
    ensures AllDigits(r)
    ensures |r| == if |s| < width then width else |s|
  {
    if |s| < width then Zeros(width - |s|) + s else s
  }

  /** `n` at `scale` fractional digits, e.g. `Fixed(250, 4) == "0.0250"`,
      `Fixed(-5, 2) == "-0.05"`: the sign, the whole units, a point and the
      remaining units zero-padded to `scale` digits. */
  function Fixed(n: int, scale: nat): (s: string)
    requires scale >= 1
  {
    if n < 0 then Minus(FixedMagnitude(-n, scale)) else FixedMagnitude(n, scale)
  }

  /** The unsigned part of `Fixed`. */
  function FixedMagnitude(m: nat, scale: nat): string
    requires scale >= 1
  {
    NatToString(DropDigits(m, scale)) + "." + LastDigits(m, scale)
  }

  /** `m` without its last `k` decimal digits: `m / 10^k`. */
  function DropDigits(m: nat, k: nat): nat {
    if k == 0 then m else DropDigits(m / 10, k - 1)
  }

  /** The last `k` decimal digits of `m`, zero-padded: `m % 10^k` in
      exactly `k` characters. */
  function LastDigits(m: nat, k: nat): (s: string)
    ensures |s| == k && AllDigits(s)
    ensures '.' !in s && '-' !in s
  {
    if k == 0 then "" else LastDigits(m / 10, k - 1) + [DigitChar(m % 10)]
  }

  /** Parse `[-]digits[.digits]` with at most `scale` fractional digits into
      the integer count of `10^-scale` units; anything else is `None`. */
  function ParseDecimal(s: string, scale: nat): Option<int> {
    if |s| > 0 && s[0] == '-' then
      match ParseUnsigned(s[1..], scale)
      case Some(v) => Some(-v)
      case None => None
    else ParseUnsigned(s, scale)
  }

  /** The value of `whole.frac` in units of `10^-scale`. */
  function Combine(whole: string, frac: string, scale: nat): int
    requires AllDigits(whole) && AllDigits(frac) && |frac| <= scale
  {
    DigitsValue(whole) * Pow10(scale) + DigitsValue(frac) * Pow10(scale - |frac|)
  }

  function ParseUnsigned(s: string, scale: nat): Option<int> {
    if '.' in s then
      var i := Text.IndexOf(s, '.');
      var whole := s[..i];
      var frac := s[i + 1..];
      if |whole| > 0 && AllDigits(whole) && AllDigits(frac) && |frac| <= scale then
        Some(Combine(whole, frac, scale))
      else None
    else if |s| > 0 && AllDigits(s) then Some(DigitsValue(s) * Pow10(scale))
    else None
  }

  lemma {:induction false} NatToStringValue(n: nat)
    ensures DigitsValue(NatToString(n)) == n
  {
    if n >= 10 {
      var p := NatToString(n / 10);
      var s := p + [DigitChar(n % 10)];
      assert s[..|s| - 1] == p;
      NatToStringValue(n / 10);
    }
  }

  lemma {:induction false} ZerosValue(k: nat)
    ensures DigitsValue(Zeros(k)) == 0
  {
    if k > 0 {
      var z := Zeros(k);
      assert z == Zeros(k - 1) + "0" by { ZerosSnoc(k); }
      assert z[..|z| - 1] == Zeros(k - 1);
      ZerosValue(k - 1);
    }
  }

  lemma {:induction false} ZerosSnoc(k: nat)
    requires k > 0
    ensures Zeros(k) == Zeros(k - 1) + "0"
  {
    if k > 1 {
      ZerosSnoc(k - 1);
    }
  }

  /** Leading zeros do not change a digit string's value. */
  lemma {:induction false} LeadingZerosValue(k: nat, t: string)
    requires AllDigits(t)
    ensures DigitsValue(Zeros(k) + t) == DigitsValue(t)
  {
    if t == [] {
      assert Zeros(k) + t == Zeros(k);
      ZerosValue(k);
    } else {
      var t' := t[..|t| - 1];
      var s := Zeros(k) + t;
      assert s[..|s| - 1] == Zeros(k) + t';
      LeadingZerosValue(k, t');
    }
  }

  lemma PadLeftValue(s: string, width: nat)
    requires AllDigits(s)
    ensures DigitsValue(PadLeft(s, width)) == DigitsValue(s)
  {
    if |s| < width {
      LeadingZerosValue(width - |s|, s);
    }
  }

  /** A whole part, a point and at most `scale` fractional digits parse to
      their combined value. */
  lemma ParseWholeAndFraction(w: string, f: string, scale: nat)
    requires |w| >= 1 && AllDigits(w) && AllDigits(f) && |f| <= scale
    ensures ParseUnsigned(w + "." + f, scale) == Some(Combine(w, f, scale))
  {
    var s := w + "." + f;
    assert '.' !in w by {
      assert forall i | 0 <= i < |w| :: IsDigit(w[i]);
    }
    Text.IndexAfterCleanPrefix(w, '.', f);
    assert s[..|w|] == w;
    assert s[|w| + 1..] == f;
  }

  /** A number below `10^width` reads back from its `width` padded digits. */
  lemma LastDigitsValue(n: nat, width: nat)
    requires n < Pow10(width)
    ensures DigitsValue(LastDigits(n, width)) == n
  {
    DigitsSplit(n, width);
  }

  lemma {:induction false} DigitsValueBound(f: string)
    requires AllDigits(f)
    ensures DigitsValue(f) < Pow10(|f|)
  {
    if f != [] {
      DigitsValueBound(f[..|f| - 1]);
    }
  }

  /** Digits read as a number and written back at their own width are
      themselves, leading zeros included. */
  lemma {:induction false} DigitsRespell(f: string)
    requires AllDigits(f)
    ensures LastDigits(DigitsValue(f), |f|) == f
  {
    if f != [] {
      var k := |f|;
      var init := f[..k - 1];
      var last := f[k - 1] as int - '0' as int;
      assert DigitsValue(f) == DigitsValue(init) * 10 + last;
      assert DigitsValue(f) / 10 == DigitsValue(init) && DigitsValue(f) % 10 == last;
      DigitsRespell(init);
      assert f == init + [f[k - 1]];
    }
  }

  /** Splitting off the last `k` digits loses nothing. */
  lemma {:induction false} DigitsSplit(m: nat, k: nat)
    ensures DropDigits(m, k) * Pow10(k) + DigitsValue(LastDigits(m, k)) == m
  {
    if k > 0 {
      var t := LastDigits(m / 10, k - 1);
      var s := t + [DigitChar(m % 10)];
      assert s[..|s| - 1] == t;
      DigitsSplit(m / 10, k - 1);
      SplitStep(DropDigits(m / 10, k - 1), Pow10(k - 1), DigitsValue(t), m);
    }
  }

  lemma SplitStep(d: int, p: int, v: int, m: nat)
    requires d * p + v == m / 10
    ensures d * (p * 10) + (v * 10 + m % 10) == m
  {
    assert d * (p * 10) == (d * p) * 10;
  }

  /** The two halves of `FixedMagnitude` add up to `m`. */
  lemma MagnitudeParts(m: nat, scale: nat)
    requires scale >= 1
    ensures Combine(NatToString(DropDigits(m, scale)), LastDigits(m, scale), scale) == m
  {
    NatToStringValue(DropDigits(m, scale));
    DigitsSplit(m, scale);
    assert Pow10(scale - |LastDigits(m, scale)|) == 1;
  }

  lemma UnsignedRoundTrip(m: nat, scale: nat)
    requires scale >= 1
    ensures ParseUnsigned(FixedMagnitude(m, scale), scale) == Some(m)
    ensures |FixedMagnitude(m, scale)| > 0 && IsDigit(FixedMagnitude(m, scale)[0])
  {
    var w := NatToString(DropDigits(m, scale));
    MagnitudeParts(m, scale);
    ParseWholeAndFraction(w, LastDigits(m, scale), scale);
    assert FixedMagnitude(m, scale)[0] == w[0];
  }

  lemma ParseSigned(u: string, scale: nat, a: int)
    requires a >= 0 && ParseUnsigned(u, scale) == Some(a)
    ensures ParseDecimal(Minus(u), scale) == Some(-a)
  {
    assert Minus(u)[1..] == u;
  }

  /** Parsing what `Fixed` prints gives the number back. */
  lemma FixedRoundTrip(n: int, scale: nat)
    requires scale >= 1
    ensures ParseDecimal(Fixed(n, scale), scale) == Some(n)
  {
    if n < 0 {
      FixedNegative(n, scale);
    } else {
      FixedNonNegative(n, scale);
    }
  }

  lemma FixedNegative(n: int, scale: nat)
    requires scale >= 1 && n < 0
    ensures ParseDecimal(Fixed(n, scale), scale) == Some(n)
  {
    var u := FixedNegativeShape(n, scale);
    ParseSigned(u, scale, -n);
  }

  /** A negative number prints as a minus sign before a magnitude that
      parses back to `-n`. */
  lemma FixedNegativeShape(n: int, scale: nat) returns (u: string)
    requires scale >= 1 && n < 0
    ensures Fixed(n, scale) == Minus(u) && ParseUnsigned(u, scale) == Some(-n)
  {
    var m: nat := -n;
    u := FixedMagnitude(m, scale);
    assert Fixed(n, scale) == Minus(u);
    UnsignedRoundTrip(m, scale);
  }

  lemma FixedNonNegative(n: int, scale: nat)
    requires scale >= 1 && n >= 0
    ensures ParseDecimal(Fixed(n, scale), scale) == Some(n)
  {
    NonNegativeRoundTrip(n, scale);
  }

  lemma NegativeRoundTrip(m: nat, scale: nat)
    requires scale >= 1
    ensures ParseDecimal(Minus(FixedMagnitude(m, scale)), scale) == Some(-(m as int))
  {
    UnsignedRoundTrip(m, scale);
    ParseSigned(FixedMagnitude(m, scale), scale, m);
  }

  lemma NonNegativeRoundTrip(m: nat, scale: nat)
    requires scale >= 1
    ensures ParseDecimal(FixedMagnitude(m, scale), scale) == Some(m)
  {
    var u := FixedMagnitude(m, scale);
    UnsignedRoundTrip(m, scale);
    assert u[0] != '-';
  }

  /** A rendered number is made of digits, the point and a leading minus
      sign only. */
  lemma FixedChars(n: int, scale: nat)
    requires scale >= 1
    ensures forall i | 0 <= i < |Fixed(n, scale)| ::
              IsDigit(Fixed(n, scale)[i]) || Fixed(n, scale)[i] == '-' || Fixed(n, scale)[i] == '.'
  {
    var m: nat := if n < 0 then -n else n;
    var w := NatToString(DropDigits(m, scale));
    var f := LastDigits(m, scale);
    assert FixedMagnitude(m, scale) == w + "." + f;
  }

  /** A rendered number never contains a delimiter character. */
  lemma FixedHasNo(n: int, scale: nat, c: char)
    requires scale >= 1 && c != '-' && c != '.' && !IsDigit(c)
    ensures c !in Fixed(n, scale)
  {
    var m: nat := if n < 0 then -n else n;
    var w := NatToString(DropDigits(m, scale));
    var f := LastDigits(m, scale);
    assert c !in w && c !in f;
  }
}

=== FILE: desktop_app.dfy ===
/** python/commission_app.py: the desktop variant keeps its commissions in
    an in-memory list (saved to a JSON file after every change). Modelled
    here: saving the form, the status changes, edit and delete of the
    selected rows, the report filter and totals, the running totals and
    the CSV export. Amounts are exact: `valorNf` in cents, `fator` in
    ten-thousandths and `valorComissao`, their product, in millionths. */
module DesktopApp {
  import opened Wrappers
  import opened Text
  import opened Decimal
  import opened Money
  import opened Clock

  const PENDING: string := "Pendente"
  const RECEIVED: string := "Recebida"
  /** The report filter that selects every record. */
  const ALL: string := "Todas"
  const DEFAULT_FACTOR_TEXT: string := "0.025"

  /** One record of `self.commissions`. */
  datatype Entry = Entry(
    id: int,
    nf: string,
    nectar: string,
    embrascol: string,
    valorNf: int,
    fator: int,
    valorComissao: int,
    status: string,
    data: string)

  /** The five entry fields of the form. */
  datatype Form = Form(nf: string, nectar: string, embrascol: string, valorNf: string, fator: string)

  /** `clear_form`. */
  const ClearedForm: Form := Form("", "", "", "", DEFAULT_FACTOR_TEXT)

  datatype App = App(entries: seq<Entry>, form: Form)

  /** The message boxes that end an action without changing anything. */
  datatype Problem = ValueRequired | InvalidNumber | NoSelection | NothingFound | NothingToExport

  // ---------------------------------------------------------------------
  // Numbers typed into the form.

  /** `float(text.replace(",", "."))` on a decimal with at most `scale`
      fractional digits. */
  function ParseNumber(text: string, scale: nat): (r: Option<int>)
    ensures Strip(text) == "" ==> r.None?
  {
    var s := Strip(ReplaceChar(text, ',', '.'));
    assert Strip(text) == "" ==> s == "" by {
      if Strip(text) == "" {
        BlankStaysBlank(text);
      }
    }
    ParseDecimal(s, scale)
  }

  /** Replacing the comma keeps a blank text blank. */
  lemma BlankStaysBlank(text: string)
    requires Strip(text) == ""
    ensures Strip(ReplaceChar(text, ',', '.')) == ""
  {
    assert forall i | 0 <= i < |text| :: IsSpace(ReplaceChar(text, ',', '.')[i]);
  }

  /** A decimal comma is read as a decimal point. */
  lemma CommaReadsAsPoint(text: string, scale: nat)
    ensures ParseNumber(ReplaceChar(text, '.', ','), scale) == ParseNumber(text, scale)
  {
    ReplaceThereAndBack(text, '.', ',');
  }

  lemma StripNoSpace(s: string)
    requires forall i | 0 <= i < |s| :: !IsSpace(s[i])
    ensures Strip(s) == s
  {
  }

  /** What the edit action puts into a number field reads back as the same
      number. */
  lemma ParseNumberFixed(n: int, scale: nat)
    requires scale >= 1
    ensures ParseNumber(Fixed(n, scale), scale) == Some(n)
    ensures Strip(Fixed(n, scale)) != ""
  {
    var s := Fixed(n, scale);
    FixedHasNo(n, scale, ',');
    FixedChars(n, scale);
    assert ReplaceChar(s, ',', '.') == s;
    StripNoSpace(s);
    FixedRoundTrip(n, scale);
  }

  // ---------------------------------------------------------------------
  // Saving the form.

  /** The record `save_commission` builds under the given id, or the
      message it shows instead. */
  function Record(form: Form, id: int, today: Timestamp): (r: Result<Entry, Problem>)
    ensures r == Err(ValueRequired) <==> Strip(form.valorNf) == ""
    ensures r == Err(InvalidNumber) <==>
              Strip(form.valorNf) != "" &&
              (ParseNumber(form.valorNf, CENTS_SCALE).None? || ParseNumber(form.fator, FACTOR_SCALE).None?)
    ensures r.Ok? ==>
              && r.value.id == id
              && r.value.nf == Strip(form.nf)
              && r.value.nectar == Strip(form.nectar)
              && r.value.embrascol == Strip(form.embrascol)
              && Some(r.value.valorNf) == ParseNumber(form.valorNf, CENTS_SCALE)
              && Some(r.value.fator) == ParseNumber(form.fator, FACTOR_SCALE)
              && r.value.valorComissao == r.value.valorNf * r.value.fator
              && r.value.status == PENDING
              && r.value.data == DateBR(today)
  {
    var v := ParseNumber(form.valorNf, CENTS_SCALE);
    var f := ParseNumber(form.fator, FACTOR_SCALE);
    if Strip(form.valorNf) == "" then Err(ValueRequired)
    else if v.None? || f.None? then Err(InvalidNumber)
    else Ok(Entry(id, Strip(form.nf), Strip(form.nectar), Strip(form.embrascol), v.value, f.value,
                  v.value * f.value, PENDING, DateBR(today)))
  }

  /** Append the form's record under `id` and clear the form. */
  function SaveWith(app: App, id: int, today: Timestamp): (r: Result<App, Problem>)
    ensures r.Err? <==> Record(app.form, id, today).Err?
    ensures r.Err? ==> r.error == Record(app.form, id, today).error
    ensures r.Ok? ==>
              && r.value.entries == app.entries + [Record(app.form, id, today).value]
              && r.value.form == ClearedForm
  {
    var e := Record(app.form, id, today);
    if e.Ok? then Ok(App(app.entries + [e.value], ClearedForm)) else Err(e.error)
  }

  /** `save_commission` as written: the new id is `len(self.commissions) + 1`. */
  function SaveAsWritten(app: App, today: Timestamp): (r: Result<App, Problem>)
    ensures r.Ok? ==>
              && |r.value.entries| == |app.entries| + 1
              && r.value.entries[|app.entries|].id == |app.entries| + 1
  {
    SaveWith(app, |app.entries| + 1, today)
  }

  /** One past the largest id in use, 1 for an empty list. */
  function NextId(es: seq<Entry>): (n: int)
    ensures n >= 1
    ensures forall i | 0 <= i < |es| :: es[i].id < n
  {
    if es == [] then 1
    else
      var n := NextId(es[1..]);
      if es[0].id >= n then es[0].id + 1 else n
  }

  predicate UniqueIds(es: seq<Entry>) {
    forall i, j | 0 <= i < j < |es| :: es[i].id != es[j].id
  }

  /** `save_commission` with the new id one past the largest id in use, so
      an id is never handed out twice while its record is in the list. */
  function Save(app: App, today: Timestamp): (r: Result<App, Problem>)
    ensures r.Ok? <==> Record(app.form, NextId(app.entries), today).Ok?
    ensures r.Ok? ==>
              && r.value.entries == app.entries + [Record(app.form, NextId(app.entries), today).value]
              && r.value.form == ClearedForm
              && forall i | 0 <= i < |app.entries| :: app.entries[i].id < r.value.entries[|app.entries|].id
  {
    SaveWith(app, NextId(app.entries), today)
  }

  /** Saving keeps the ids of the list distinct. */
  lemma SaveKeepsIdsUnique(app: App, today: Timestamp)
    requires UniqueIds(app.entries) && Save(app, today).Ok?
    ensures UniqueIds(Save(app, today).value.entries)
  {
    var es := Save(app, today).value.entries;
    var n := |app.entries|;
    assert es == app.entries + [es[n]];
    AppendLargerId(app.entries, es[n]);
  }

  lemma AppendLargerId(es: seq<Entry>, e: Entry)
    requires UniqueIds(es)
    requires forall i | 0 <= i < |es| :: es[i].id < e.id
    ensures UniqueIds(es + [e])
  {
    var r := es + [e];
    forall i, j | 0 <= i < j < |r| ensures r[i].id != r[j].id {
      assert r[i] == es[i];
      if j < |es| {
        assert r[j] == es[j];
      }
    }
  }

  // ---------------------------------------------------------------------
  // Status changes.

  datatype StatusEdit = Flip | SetTo(status: string)

  /** `toggle_status` flips "Pendente" to "Recebida" and anything else to
      "Pendente"; `change_status` sets its argument. */
  function NewStatus(s: string, edit: StatusEdit): (r: string)
    ensures edit.Flip? ==> (r == RECEIVED <==> s == PENDING) && (r == PENDING <==> s != PENDING)
    ensures edit.SetTo? ==> r == edit.status
  {
    match edit
    case Flip => if s == PENDING then RECEIVED else PENDING
    case SetTo(x) => x
  }

  /** Where the `for ... if commission["id"] == id` loop stops. */
  function FirstIndex(es: seq<Entry>, id: int): (r: Option<nat>)
    ensures r.Some? ==> r.value < |es| && es[r.value].id == id
    ensures r.Some? ==> forall j | 0 <= j < r.value :: es[j].id != id
    ensures r.None? ==> forall j | 0 <= j < |es| :: es[j].id != id
  {
    if es == [] then None
    else if es[0].id == id then Some(0)
    else match FirstIndex(es[1..], id)
      case Some(i) => Some(i + 1)
      case None => None
  }

  /** The loop body with its `break`: the first record with the id gets the
      new status. */
  function UpdateFirst(es: seq<Entry>, id: int, edit: StatusEdit): (r: seq<Entry>)
    ensures FirstIndex(es, id).None? ==> r == es
    ensures FirstIndex(es, id).Some? ==>
              var i := FirstIndex(es, id).value;
              r == es[i := es[i].(status := NewStatus(es[i].status, edit))]
  {
    if es == [] then []
    else if es[0].id == id then [es[0].(status := NewStatus(es[0].status, edit))] + es[1..]
    else [es[0]] + UpdateFirst(es[1..], id, edit)
  }

  /** `toggle_status` on the first selected row; without a selection
      nothing happens. */
  function ToggleStatus(app: App, selection: seq<int>): (r: App)
    ensures r.form == app.form
    ensures selection == [] ==> r == app
    ensures selection != [] ==> r.entries == UpdateFirst(app.entries, selection[0], Flip)
  {
    if selection == [] then app else app.(entries := UpdateFirst(app.entries, selection[0], Flip))
  }

  /** Toggling twice restores a record whose status is one of the two the
      application writes. */
  lemma ToggleTwice(app: App, selection: seq<int>)
    requires forall i | 0 <= i < |app.entries| :: app.entries[i].status in {PENDING, RECEIVED}
    ensures ToggleStatus(ToggleStatus(app, selection), selection) == app
  {
    if selection != [] {
      var once := ToggleStatus(app, selection);
      match FirstIndex(app.entries, selection[0])
      case None =>
      case Some(i) =>
        assert app.entries[i].status in {PENDING, RECEIVED};
        assert FirstIndex(once.entries, selection[0]) == Some(i) by { SameIdsSameFirst(app.entries, once.entries, selection[0]); }
    }
  }

  predicate SameIds(a: seq<Entry>, b: seq<Entry>) {
    |a| == |b| && forall k | 0 <= k < |a| :: a[k].id == b[k].id
  }

  lemma {:induction false} SameIdsSameFirst(a: seq<Entry>, b: seq<Entry>, id: int)
    requires SameIds(a, b)
    ensures FirstIndex(a, id) == FirstIndex(b, id)
  {
    if a != [] && a[0].id != id {
      SameIdsSameFirst(a[1..], b[1..], id);
    }
  }

  /** Whether record `k` is the one a lookup of its own id finds. */
  predicate FirstOfItsId(es: seq<Entry>, k: int)
    requires 0 <= k < |es|
  {
    FirstIndex(es, es[k].id) == Some(k)
  }

  /** `change_status`: every selected id gets the status on its first
      record; no other record and no other field changes. */
  method ChangeStatus(app: App, selection: seq<int>, status: string) returns (r: Result<App, Problem>)
    ensures r.Err? <==> selection == []
    ensures r.Err? ==> r.error == NoSelection
    ensures r.Ok? ==>
              && r.value.form == app.form
              && |r.value.entries| == |app.entries|
              && forall k | 0 <= k < |app.entries| ::
                   r.value.entries[k] == app.entries[k].(status :=
                     if app.entries[k].id in selection && FirstOfItsId(app.entries, k) then status
                     else app.entries[k].status)
  {
    if selection == [] {
      return Err(NoSelection);
    }
    var es := app.entries;
    var j := 0;
    while j < |selection|
      invariant 0 <= j <= |selection|
      invariant SameIds(es, app.entries)
      invariant forall k | 0 <= k < |es| ::
                  es[k] == app.entries[k].(status :=
                    if app.entries[k].id in selection[..j] && FirstOfItsId(app.entries, k) then status
                    else app.entries[k].status)
    {
      SameIdsSameFirst(es, app.entries, selection[j]);
      var next := UpdateFirst(es, selection[j], SetTo(status));
      assert selection[..j + 1] == selection[..j] + [selection[j]];
      forall k | 0 <= k < |next|
        ensures next[k] == app.entries[k].(status :=
                  if app.entries[k].id in selection[..j + 1] && FirstOfItsId(app.entries, k) then status
                  else app.entries[k].status)
      {
        if app.entries[k].id == selection[j] && FirstOfItsId(app.entries, k) {
          assert FirstIndex(es, selection[j]) == Some(k);
        }
      }
      es := next;
      j := j + 1;
    }
    assert selection[..j] == selection;
    return Ok(app.(entries := es));
  }

  // ---------------------------------------------------------------------
  // Edit and delete.

  /** `edit_selected`: the first record with the first selected id goes
      back into the form and leaves the list; saving the form again adds
      it as a new record. An unknown id changes nothing. */
  function EditSelected(app: App, selection: seq<int>): (r: Result<App, Problem>)
    ensures r.Err? <==> selection == []
    ensures r.Err? ==> r.error == NoSelection
    ensures r.Ok? && FirstIndex(app.entries, selection[0]).None? ==> r.value == app
    ensures r.Ok? && FirstIndex(app.entries, selection[0]).Some? ==>
              var i := FirstIndex(app.entries, selection[0]).value;
              var e := app.entries[i];
              && r.value.entries == app.entries[..i] + app.entries[i + 1..]
              && r.value.form.nf == e.nf
              && r.value.form.nectar == e.nectar
              && r.value.form.embrascol == e.embrascol
              && ParseNumber(r.value.form.valorNf, CENTS_SCALE) == Some(e.valorNf)
              && ParseNumber(r.value.form.fator, FACTOR_SCALE) == Some(e.fator)
  {
    if selection == [] then Err(NoSelection)
    else match FirstIndex(app.entries, selection[0])
      case None => Ok(app)
      case Some(i) => Ok(App(app.entries[..i] + app.entries[i + 1..], EditForm(app.entries[i])))
  }

  /** The form `edit_selected` fills in from a record. */
  function EditForm(e: Entry): (f: Form)
    ensures f.nf == e.nf && f.nectar == e.nectar && f.embrascol == e.embrascol
    ensures ParseNumber(f.valorNf, CENTS_SCALE) == Some(e.valorNf) && Strip(f.valorNf) != ""
    ensures ParseNumber(f.fator, FACTOR_SCALE) == Some(e.fator)
  {
    ParseNumberFixed(e.valorNf, CENTS_SCALE);
    ParseNumberFixed(e.fator, FACTOR_SCALE);
    Form(e.nf, e.nectar, e.embrascol, Fixed(e.valorNf, CENTS_SCALE), Fixed(e.fator, FACTOR_SCALE))
  }

  /** A form that reads as a record's texts and amounts saves back to
      them, under the next id. */
  lemma SaveFormOf(app: App, e: Entry, today: Timestamp)
    requires app.form.nf == e.nf && app.form.nectar == e.nectar && app.form.embrascol == e.embrascol
    requires ParseNumber(app.form.valorNf, CENTS_SCALE) == Some(e.valorNf) && Strip(app.form.valorNf) != ""
    requires ParseNumber(app.form.fator, FACTOR_SCALE) == Some(e.fator)
    ensures Save(app, today).Ok?
    ensures Save(app, today).value.entries
              == app.entries + [Entry(NextId(app.entries), Strip(e.nf), Strip(e.nectar), Strip(e.embrascol),
                                      e.valorNf, e.fator, e.valorNf * e.fator, PENDING, DateBR(today))]
  {
    var id := NextId(app.entries);
    var rec := Record(app.form, id, today);
    assert rec.Ok?;
    assert rec.value == Entry(id, Strip(e.nf), Strip(e.nectar), Strip(e.embrascol),
                              e.valorNf, e.fator, e.valorNf * e.fator, PENDING, DateBR(today));
  }

  /** Editing a record and saving it again re-creates it at the end of the
      list with the same texts and amounts, as a pending record. */
  lemma EditThenSave(app: App, selection: seq<int>, today: Timestamp)
    requires selection != [] && FirstIndex(app.entries, selection[0]).Some?
    requires var e := app.entries[FirstIndex(app.entries, selection[0]).value];
             Strip(e.nf) == e.nf && Strip(e.nectar) == e.nectar && Strip(e.embrascol) == e.embrascol
    ensures var e := app.entries[FirstIndex(app.entries, selection[0]).value];
            var edited := EditSelected(app, selection).value;
            && Save(edited, today).Ok?
            && var saved := Save(edited, today).value.entries;
               var n := saved[|saved| - 1];
               && saved[..|saved| - 1] == edited.entries
               && n == e.(id := n.id, valorComissao := e.valorNf * e.fator, status := PENDING, data := DateBR(today))
  {
    var e := app.entries[FirstIndex(app.entries, selection[0]).value];
    var edited := EditSelected(app, selection).value;
    assert edited.form == EditForm(e);
    SaveFormOf(edited, e, today);
  }

  /** The records whose id is not selected, in their order. */
  function Unselected(es: seq<Entry>, selection: seq<int>): (r: seq<Entry>)
    ensures |r| <= |es|
    ensures forall c :: c in r <==> c in es && c.id !in selection
  {
    if es == [] then []
    else if es[0].id in selection then Unselected(es[1..], selection)
    else [es[0]] + Unselected(es[1..], selection)
  }

  /** The selection filter keeps order and multiplicity: filtering a
      concatenation is the concatenation of the filtered parts. */
  lemma {:induction false} UnselectedAppend(a: seq<Entry>, b: seq<Entry>, selection: seq<int>)
    ensures Unselected(a + b, selection) == Unselected(a, selection) + Unselected(b, selection)
  {
    if a == [] {
      assert a + b == b;
    } else {
      assert (a + b)[0] == a[0] && (a + b)[1..] == a[1..] + b;
      UnselectedAppend(a[1..], b, selection);
    }
  }

  /** One record stays exactly when its id is not selected. */
  lemma UnselectedOne(e: Entry, selection: seq<int>)
    ensures Unselected([e], selection) == if e.id in selection then [] else [e]
  {
    assert [e][1..] == [];
  }

  /** One pass of the list comprehension in `delete_selected`. */
  function Without(es: seq<Entry>, id: int): (r: seq<Entry>)
    ensures r == Unselected(es, [id])
  {
    if es == [] then []
    else if es[0].id == id then Without(es[1..], id)
    else [es[0]] + Without(es[1..], id)
  }

  lemma {:induction false} UnselectedStep(es: seq<Entry>, id: int, rest: seq<int>)
    ensures Unselected(Unselected(es, [id]), rest) == Unselected(es, [id] + rest)
  {
    if es != [] {
      UnselectedStep(es[1..], id, rest);
      if es[0].id != id {
        assert Unselected(es, [id]) == [es[0]] + Unselected(es[1..], [id]);
        assert Unselected(es, [id])[1..] == Unselected(es[1..], [id]);
      }
    }
  }

  /** The comprehension run once per selected id. */
  function DeleteEach(es: seq<Entry>, selection: seq<int>): (r: seq<Entry>)
    ensures r == Unselected(es, selection)
    decreases |selection|
  {
    if selection == [] then
      assert Unselected(es, []) == es by { UnselectedNone(es); }
      es
    else
      UnselectedStep(es, selection[0], selection[1..]);
      assert [selection[0]] + selection[1..] == selection;
      DeleteEach(Without(es, selection[0]), selection[1..])
  }

  lemma {:induction false} UnselectedNone(es: seq<Entry>)
    ensures Unselected(es, []) == es
  {
    if es != [] {
      UnselectedNone(es[1..]);
    }
  }

  /** `delete_selected`: after the confirmation every record whose id is
      selected is gone and the others keep their order. */
  function DeleteSelected(app: App, selection: seq<int>, confirmed: bool): (r: Result<App, Problem>)
    ensures r.Err? <==> selection == []
    ensures r.Err? ==> r.error == NoSelection
    ensures r.Ok? && !confirmed ==> r.value == app
    ensures r.Ok? && confirmed ==> r.value.form == app.form && r.value.entries == Unselected(app.entries, selection)
  {
    if selection == [] then Err(NoSelection)
    else if !confirmed then Ok(app)
    else Ok(app.(entries := DeleteEach(app.entries, selection)))
  }

  lemma DeleteFirstOfTwo(app: App)
    requires |app.entries| == 2 && app.entries[0].id == 1 && app.entries[1].id == 2
    ensures DeleteSelected(app, [1], true) == Ok(app.(entries := [app.entries[1]]))
  {
    var es := app.entries;
    assert es[1..][1..] == [];
    assert Unselected(es[1..][1..], [1]) == [];
    assert es[1..][0].id !in [1];
    assert Unselected(es[1..], [1]) == [es[1]];
    assert es[0].id in [1];
    assert Unselected(es, [1]) == [es[1]];
  }

  /** As written, saving after a delete can hand out an id that is still in
      the list: with records 1 and 2, deleting 1 and saving gives a second
      record 2. */
  lemma SaveAfterDeleteRepeatsId(app: App, today: Timestamp)
    requires |app.entries| == 2 && app.entries[0].id == 1 && app.entries[1].id == 2
    requires Record(app.form, 2, today).Ok?
    ensures var after := DeleteSelected(app, [1], true).value;
            && after.entries == [app.entries[1]]
            && SaveAsWritten(after, today).Ok?
            && !UniqueIds(SaveAsWritten(after, today).value.entries)
  {
    DeleteFirstOfTwo(app);
    var after := app.(entries := [app.entries[1]]);
    var saved := SaveAsWritten(after, today);
    assert saved == Ok(App(after.entries + [Record(app.form, 2, today).value], ClearedForm));
    var es := saved.value.entries;
    assert es[0].id == 2 && es[1].id == 2;
  }

  // ---------------------------------------------------------------------
  // Reports and totals.

  /** The records with the given status, in order. */
  function WithStatus(es: seq<Entry>, status: string): (r: seq<Entry>)
    ensures |r| <= |es|
    ensures forall c :: c in r <==> c in es && c.status == status
  {
    if es == [] then []
    else if es[0].status == status then [es[0]] + WithStatus(es[1..], status)
    else WithStatus(es[1..], status)
  }

  /** The status filter keeps order and multiplicity, as `Unselected` does. */
  lemma {:induction false} WithStatusAppend(a: seq<Entry>, b: seq<Entry>, status: string)
    ensures WithStatus(a + b, status) == WithStatus(a, status) + WithStatus(b, status)
    ensures |a| == 1 ==> WithStatus(a, status) == (if a[0].status == status then a else [])
  {
    if a == [] {
      assert a + b == b;
    } else {
      assert (a + b)[0] == a[0] && (a + b)[1..] == a[1..] + b;
      WithStatusAppend(a[1..], b, status);
      if |a| == 1 {
        assert a[1..] == [];
      }
    }
  }

  function SumValorNf(es: seq<Entry>): int {
    if es == [] then 0 else es[0].valorNf + SumValorNf(es[1..])
  }

  function SumComissao(es: seq<Entry>): int {
    if es == [] then 0 else es[0].valorComissao + SumComissao(es[1..])
  }

  datatype ReportData = ReportData(rows: seq<Entry>, count: nat, totalValorNf: int, totalComissao: int)

  /** `show_report`: "Todas" lists every record, any other filter the records
      with exactly that status; an empty selection only shows a message. */
  function Report(es: seq<Entry>, filter: string): (r: Result<ReportData, Problem>)
    ensures filter == ALL ==> (r.Err? <==> es == [])
    ensures filter != ALL ==> (r.Err? <==> forall c | c in es :: c.status != filter)
    ensures r.Err? ==> r.error == NothingFound
    ensures r.Ok? ==>
              && (filter == ALL ==> r.value.rows == es)
              && (filter != ALL ==> r.value.rows == WithStatus(es, filter))
              && (filter != ALL ==> forall c :: c in r.value.rows <==> c in es && c.status == filter)
              && r.value.count == |r.value.rows|
              && r.value.totalValorNf == SumValorNf(r.value.rows)
              && r.value.totalComissao == SumComissao(r.value.rows)
  {
    var rows := if filter == ALL then es else WithStatus(es, filter);
    if rows == [] then
      assert filter != ALL ==> forall c | c in es :: c.status != filter;
      Err(NothingFound)
    else
      Ok(ReportData(rows, |rows|, SumValorNf(rows), SumComissao(rows)))
  }

  datatype Totals = Totals(pending: int, received: int, grand: int)

  /** `update_totals`: the commissions of the pending records, of the
      received records, and both together. A record with any other status
      counts in none of them. */
  function ComputeTotals(es: seq<Entry>): (t: Totals)
    ensures t.pending == SumComissao(WithStatus(es, PENDING))
    ensures t.received == SumComissao(WithStatus(es, RECEIVED))
    ensures t.grand == t.pending + t.received
  {
    var p := StatusTotal(es, PENDING);
    var r := StatusTotal(es, RECEIVED);
    Totals(p, r, p + r)
  }

  /** One pass over the records, adding up the commissions of those with
      the status; the same as summing the status filter's records. */
  function StatusTotal(es: seq<Entry>, status: string): (n: int)
    ensures n == SumComissao(WithStatus(es, status))
  {
    if es == [] then 0
    else (if es[0].status == status then es[0].valorComissao else 0) + StatusTotal(es[1..], status)
  }

  lemma {:induction false} SumComissaoAppend(a: seq<Entry>, b: seq<Entry>)
    ensures SumComissao(a + b) == SumComissao(a) + SumComissao(b)
  {
    if a == [] {
      assert a + b == b;
    } else {
      assert (a + b)[0] == a[0] && (a + b)[1..] == a[1..] + b;
      SumComissaoAppend(a[1..], b);
    }
  }

  /** The totals of a list are the sums of the totals of its parts, and a
      single record adds its commission to the total of its own status. */
  lemma TotalsAppend(a: seq<Entry>, b: seq<Entry>)
    ensures var ta := ComputeTotals(a);
            var tb := ComputeTotals(b);
            ComputeTotals(a + b) == Totals(ta.pending + tb.pending, ta.received + tb.received, ta.grand + tb.grand)
  {
    assert StatusTotal(a + b, PENDING) == StatusTotal(a, PENDING) + StatusTotal(b, PENDING) by {
      StatusSumAppend(a, b, PENDING);
    }
    assert StatusTotal(a + b, RECEIVED) == StatusTotal(a, RECEIVED) + StatusTotal(b, RECEIVED) by {
      StatusSumAppend(a, b, RECEIVED);
    }
  }

  lemma StatusSumAppend(a: seq<Entry>, b: seq<Entry>, status: string)
    ensures SumComissao(WithStatus(a + b, status))
              == SumComissao(WithStatus(a, status)) + SumComissao(WithStatus(b, status))
  {
    WithStatusAppend(a, b, status);
    SumComissaoAppend(WithStatus(a, status), WithStatus(b, status));
  }

  lemma TotalsOfOne(e: Entry)
    ensures ComputeTotals([e]) == Totals(if e.status == PENDING then e.valorComissao else 0,
                                         if e.status == RECEIVED then e.valorComissao else 0,
                                         if e.status == PENDING || e.status == RECEIVED then e.valorComissao else 0)
  {
    WithStatusAppend([e], [], PENDING);
    WithStatusAppend([e], [], RECEIVED);
    assert [e] + [] == [e];
  }

  /** The report of one status shows the total the main window shows for
      it: the report's commission total is the running total. */
  lemma ReportMatchesTotals(es: seq<Entry>, status: string)
    requires status == PENDING || status == RECEIVED
    requires Report(es, status).Ok?
    ensures Report(es, status).value.totalComissao
              == if status == PENDING then ComputeTotals(es).pending else ComputeTotals(es).received
  {
  }

  /** When every record is pending or received, the grand total is the sum
      of all commissions. */
  lemma {:induction false} TotalsPartition(es: seq<Entry>)
    requires forall i | 0 <= i < |es| :: es[i].status == PENDING || es[i].status == RECEIVED
    ensures ComputeTotals(es).grand == SumComissao(es)
  {
    if es != [] {
      TotalsPartition(es[1..]);
    }
  }

  /** Giving record `i` a new status moves its commission between the two
      status sums. */
  lemma {:induction false} StatusSum(es: seq<Entry>, i: nat, s: string, status: string)
    requires i < |es|
    ensures var moved := es[i := es[i].(status := s)];
            var c := es[i].valorComissao;
            SumComissao(WithStatus(moved, status))
              == SumComissao(WithStatus(es, status))
                 - (if es[i].status == status then c else 0)
                 + (if s == status then c else 0)
  {
    var moved := es[i := es[i].(status := s)];
    assert moved[1..] == if i == 0 then es[1..] else es[1..][i - 1 := es[i].(status := s)];
    if i > 0 {
      StatusSum(es[1..], i - 1, s, status);
    }
  }

  /** A toggle of a pending record moves its commission from the pending
      total to the received total; the grand total stays. */
  lemma ToggleMovesCommission(app: App, selection: seq<int>)
    requires selection != [] && FirstIndex(app.entries, selection[0]).Some?
    requires app.entries[FirstIndex(app.entries, selection[0]).value].status == PENDING
    ensures var c := app.entries[FirstIndex(app.entries, selection[0]).value].valorComissao;
            var before := ComputeTotals(app.entries);
            var after := ComputeTotals(ToggleStatus(app, selection).entries);
            && after.pending == before.pending - c
            && after.received == before.received + c
            && after.grand == before.grand
  {
    var i := FirstIndex(app.entries, selection[0]).value;
    StatusSum(app.entries, i, RECEIVED, PENDING);
    StatusSum(app.entries, i, RECEIVED, RECEIVED);
  }

  /** The header `export_csv` writes. */
  const EXPORT_FIELDS: seq<string> := ["ID", "N\U{00B0} NF", "Pedido Nectar", "Pedido Embrascol",
                                       "Valor NF", "Fator", "Valor Comiss\U{00E3}o", "Status", "Data"]

  /** A value `csv.DictWriter` writes: an amount at its scale (the id at
      scale 0) or a text. */
  datatype Cell = Amount(units: int, scale: nat) | Plain(text: string)

  /** The row `export_csv` writes for a record, one cell per field of
      `EXPORT_FIELDS`. */
  function ExportRow(e: Entry): (r: seq<Cell>)
    ensures |r| == |EXPORT_FIELDS|
  {
    [Amount(e.id, 0), Plain(e.nf), Plain(e.nectar), Plain(e.embrascol),
     Amount(e.valorNf, CENTS_SCALE), Amount(e.fator, FACTOR_SCALE), Amount(e.valorComissao, CENTS_SCALE + FACTOR_SCALE),
     Plain(e.status), Plain(e.data)]
  }

  predicate AmountAt(c: Cell, scale: nat) {
    c.Amount? && c.scale == scale
  }

  /** Reading a written row back into a record; `None` for a row that does
      not have the shape `ExportRow` writes. */
  function ReadRow(r: seq<Cell>): (e: Option<Entry>)
  {
    if |r| == 9
       && AmountAt(r[0], 0) && r[1].Plain? && r[2].Plain? && r[3].Plain?
       && AmountAt(r[4], CENTS_SCALE) && AmountAt(r[5], FACTOR_SCALE)
       && AmountAt(r[6], CENTS_SCALE + FACTOR_SCALE) && r[7].Plain? && r[8].Plain?
    then Some(Entry(r[0].units, r[1].text, r[2].text, r[3].text, r[4].units, r[5].units, r[6].units,
                    r[7].text, r[8].text))
    else None
  }

  /** The file `export_csv` writes: the header and one row per record. */
  datatype CsvFile = CsvFile(header: seq<string>, rows: seq<seq<Cell>>)

  /** `export_csv`: with no records only a warning is shown; otherwise the
      header and every record, in list order. */
  function Export(es: seq<Entry>): (r: Result<CsvFile, Problem>)
    ensures r.Err? <==> es == []
    ensures r.Err? ==> r.error == NothingToExport
    ensures r.Ok? ==> r.value.header == EXPORT_FIELDS && |r.value.rows| == |es|
    ensures r.Ok? ==> forall k | 0 <= k < |es| :: ReadRow(r.value.rows[k]) == Some(es[k])
  {
    if es == [] then Err(NothingToExport)
    else Ok(CsvFile(EXPORT_FIELDS, seq(|es|, k requires 0 <= k < |es| => ExportRow(es[k]))))
  }

  /** Every row of the file reads back as the record it was written from, so
      the file holds the whole list in order. */
  lemma {:induction false} ExportReadsBack(es: seq<Entry>)
    requires es != []
    ensures ReadAll(Export(es).value.rows) == Some(es)
  {
    ReadAllPointwise(Export(es).value.rows, es);
  }

  /** All rows read back, or `None` if one does not. */
  function ReadAll(rows: seq<seq<Cell>>): Option<seq<Entry>> {
    if rows == [] then Some([])
    else match (ReadRow(rows[0]), ReadAll(rows[1..]))
      case (Some(e), Some(rest)) => Some([e] + rest)
      case _ => None
  }

  lemma {:induction false} ReadAllPointwise(rows: seq<seq<Cell>>, es: seq<Entry>)
    requires |rows| == |es|
    requires forall k | 0 <= k < |rows| :: ReadRow(rows[k]) == Some(es[k])
    ensures ReadAll(rows) == Some(es)
  {
    if rows != [] {
      ReadAllPointwise(rows[1..], es[1..]);
      assert es == [es[0]] + es[1..];
    }
  }
}

=== FILE: listing.dfy ===
/** `GET /api/commissions` (server/index.js): the `status` filter and the
    `ORDER BY created_at DESC` ordering. The paid/pending selection is shared
    with the client's own filter. */
module Listing {
  import opened Wrappers
  import opened Clock
  import opened Store

  /** Which rows a listing keeps. */
  datatype StatusFilter = PaidOnly | PendingOnly | Everything

  predicate Selects(f: StatusFilter, c: Commission) {
    match f
    case PaidOnly => c.isPaid
    case PendingOnly => !c.isPaid
    case Everything => true
  }

  /** The rows `f` keeps, in their original order. */
  function Select(rows: seq<Commission>, f: StatusFilter): (r: seq<Commission>)
    ensures |r| <= |rows|
    ensures forall c :: c in r <==> c in rows && Selects(f, c)
  {
    if rows == [] then []
    else (if Selects(f, rows[0]) then [rows[0]] else []) + Select(rows[1..], f)
  }

  /** Filtering a concatenation filters each part: the filter keeps the
      relative order of the rows it keeps. */
  lemma {:induction false} SelectAppend(a: seq<Commission>, b: seq<Commission>, f: StatusFilter)
    ensures Select(a + b, f) == Select(a, f) + Select(b, f)
  {
    if a == [] {
      assert a + b == b;
    } else {
      assert (a + b)[1..] == a[1..] + b;
      SelectAppend(a[1..], b, f);
    }
  }

  /** Without a status filter every row is kept, in order. */
  lemma {:induction false} SelectEverything(rows: seq<Commission>)
    ensures Select(rows, Everything) == rows
  {
    if rows != [] {
      SelectEverything(rows[1..]);
      assert rows == [rows[0]] + rows[1..];
    }
  }

  /** The query string's `status`: exactly "paid" or "pending" narrow the
      listing; any other value, or none, lists everything. */
  function FilterOf(status: Option<string>): (f: StatusFilter)
    ensures f == PaidOnly <==> status == Some("paid")
    ensures f == PendingOnly <==> status == Some("pending")
  {
    if status == Some("paid") then PaidOnly
    else if status == Some("pending") then PendingOnly
    else Everything
  }

  /** Newest first: no row is older than a row after it. */
  predicate NewestFirst(rs: seq<Commission>) {
    forall i, j | 0 <= i < j < |rs| :: NotAfter(rs[j].createdAt, rs[i].createdAt)
  }

  /** Put `c` before the first row that is not newer than it. */
  function InsertByAge(c: Commission, rs: seq<Commission>): (r: seq<Commission>)
    requires NewestFirst(rs)
    ensures NewestFirst(r)
    ensures multiset(r) == multiset(rs) + multiset{c}
  {
    if rs == [] then [c]
    else if NotAfter(rs[0].createdAt, c.createdAt) then
      PrependNewer(c, rs);
      [c] + rs
    else
      var tail := InsertByAge(c, rs[1..]);
      NotAfterTotal(rs[0].createdAt, c.createdAt);
      PrependOlderTail(rs, c, tail);
      assert rs == [rs[0]] + rs[1..];
      [rs[0]] + tail
  }

  /** A row no older than the head of a newest-first list can go in front. */
  lemma PrependNewer(c: Commission, rs: seq<Commission>)
    requires NewestFirst(rs) && rs != [] && NotAfter(rs[0].createdAt, c.createdAt)
    ensures NewestFirst([c] + rs)
  {
    forall j | 0 <= j < |rs| ensures NotAfter(rs[j].createdAt, c.createdAt) {
      if j > 0 { NotAfterTransitive(rs[j].createdAt, rs[0].createdAt, c.createdAt); }
    }
    var r := [c] + rs;
    forall i, j | 0 <= i < j < |r| ensures NotAfter(r[j].createdAt, r[i].createdAt) {
      assert r[j] == rs[j - 1];
      if i > 0 { assert r[i] == rs[i - 1]; }
    }
  }

  /** The head stays in front of a sorted tail that holds the rest of the
      list and a row older than the head. */
  lemma PrependOlderTail(rs: seq<Commission>, c: Commission, tail: seq<Commission>)
    requires NewestFirst(rs) && rs != [] && NotAfter(c.createdAt, rs[0].createdAt)
    requires NewestFirst(tail) && multiset(tail) == multiset(rs[1..]) + multiset{c}
    ensures NewestFirst([rs[0]] + tail)
  {
    forall x | x in tail ensures NotAfter(x.createdAt, rs[0].createdAt) {
      assert x in multiset(tail);
      assert x == c || x in rs[1..];
    }
    var r := [rs[0]] + tail;
    forall i, j | 0 <= i < j < |r| ensures NotAfter(r[j].createdAt, r[i].createdAt) {
      assert r[j] == tail[j - 1] && r[j] in tail;
      if i > 0 { assert r[i] == tail[i - 1]; }
    }
  }

  /** A stable insertion sort on `created_at`, newest first; rows with the
      same time keep their insertion order. */
  function SortNewestFirst(rs: seq<Commission>): (r: seq<Commission>)
    ensures NewestFirst(r)
    ensures multiset(r) == multiset(rs)
  {
    if rs == [] then []
    else
      assert rs == [rs[0]] + rs[1..];
      InsertByAge(rs[0], SortNewestFirst(rs[1..]))
  }

  /** The rows of a listing: exactly the rows the filter keeps, each once,
      newest first. */
  function List(t: Table, status: Option<string>): (r: seq<Commission>)
    ensures NewestFirst(r)
    ensures multiset(r) == multiset(Select(t.rows, FilterOf(status)))
    ensures forall c :: c in r <==> c in t.rows && Selects(FilterOf(status), c)
  {
    var r := SortNewestFirst(Select(t.rows, FilterOf(status)));
    assert forall c :: c in r <==> c in multiset(r);
    r
  }
}

=== FILE: money.dfy ===
/** Fixed-point money. Amounts are integer cents (the `DECIMAL(10,2)`
    columns), factors integer ten-thousandths (the `DECIMAL(5,4)` column),
    so a product of the two is in millionths of the currency unit. */
module Money {

  /** Fractional digits of `value_nf` and `commission_value`. */
  const CENTS_SCALE: nat := 2
  /** Fractional digits of `factor`. */
  const FACTOR_SCALE: nat := 4
  /** Ten-thousandths in a factor of 1. */
  const FACTOR_ONE: int := 10000
  /** The default factor 0.025, in ten-thousandths. */
  const DEFAULT_FACTOR: int := 250
  /** `DECIMAL(10,2)` holds fewer than 10 digits: |cents| < 10^10. */
  const MONEY_LIMIT: int := 10_000_000_000
  /** `DECIMAL(5,4)` holds fewer than 5 digits: |units| < 10^5. */
  const FACTOR_LIMIT: int := 100_000

  function Abs(x: int): nat {
    if x < 0 then -x else x
  }

  predicate FitsMoney(cents: int) {
    -MONEY_LIMIT < cents < MONEY_LIMIT
  }

  predicate FitsFactor(units: int) {
    -FACTOR_LIMIT < units < FACTOR_LIMIT
  }

  /** Round millionths to cents the way PostgreSQL rounds a numeric value
      assigned to a scale-2 column: to the nearest cent, ties away from zero. */
  function RoundToCents(millionths: int): (cents: int)
    ensures 2 * Abs(millionths - cents * FACTOR_ONE) <= FACTOR_ONE
    ensures 2 * Abs(millionths - cents * FACTOR_ONE) == FACTOR_ONE ==> Abs(cents * FACTOR_ONE) > Abs(millionths)
    ensures millionths >= 0 ==> cents >= 0
    ensures millionths <= 0 ==> cents <= 0
  {
    if millionths >= 0 then (millionths + 5000) / FACTOR_ONE
    else -((-millionths + 5000) / FACTOR_ONE)
  }

  /** The commission on an invoice value for a factor, at the column's scale. */
  function CommissionCents(valueCents: int, factorUnits: int): int {
    RoundToCents(valueCents * factorUnits)
  }

  /** The commission is the exact product whenever that product is a whole
      number of cents. */
  lemma CommissionExact(valueCents: int, factorUnits: int, cents: int)
    requires valueCents * factorUnits == cents * FACTOR_ONE
    ensures CommissionCents(valueCents, factorUnits) == cents
  {
    var r := CommissionCents(valueCents, factorUnits);
    assert 2 * Abs((cents - r) * FACTOR_ONE) <= FACTOR_ONE;
  }
}

=== FILE: row_editing.dfy ===
/** The per-row state of src/components/CommissionList.tsx: inline edit
    mode, the body a save and a paid/pending toggle send, and when the parent
    list hears about a delete. */
module RowEditing {
  import opened Wrappers
  import opened Money
  import Decimal
  import opened Clock
  import opened Store
  import opened Api
  import Dashboard
  import Listing

  /** `editingId` and `editData`. */
  datatype EditState = EditState(editingId: Option<int>, editData: map<Column, Value>)

  /** No row in edit mode. */
  const Idle: EditState := EditState(None, map[])

  function TextValue(o: Option<string>): Value {
    if o.Some? then Text(o.value) else Null
  }

  /** A `NUMERIC` column as the driver returns it: the decimal text of the
      value at the column's scale, which reads back as the value. */
  function NumericText(n: int, scale: nat): (v: Value)
    requires scale >= 1
    ensures v.Text? && Decimal.ParseDecimal(v.text, scale) == Some(n)
  {
    Decimal.FixedRoundTrip(n, scale);
    Text(Decimal.Fixed(n, scale))
  }

  /** `{ ...commission }`: the row as the JSON object the server sent. The
      driver returns `NUMERIC` columns as decimal text at the column's scale
      ("100.00", "0.0250"), and `res.json` writes the timestamps as
      `toJSON` text, so the copy holds all of them as text. */
  function Snapshot(c: Commission): (m: map<Column, Value>)
    ensures m.Keys == {Id, NfNumber, OrderNumberNectar, OrderNumberEmbrascol, ValueNf, Factor,
                       CommissionValue, IsPaid, CreatedAt, UpdatedAt}
    ensures AllWellTyped(m - Ignored)
    ensures m[CreatedAt] == Text(Iso(c.createdAt)) && m[UpdatedAt] == Text(Iso(c.updatedAt))
  {
    IsoTextReads(c.updatedAt);
    RowObject(c, NumericText(c.valueNf, CENTS_SCALE), NumericText(c.factor, FACTOR_SCALE),
              NumericText(c.commissionValue, CENTS_SCALE), Text(Iso(c.createdAt)), Text(Iso(c.updatedAt)))
  }

  /** The row's JSON object with the given values of its numeric and
      timestamp columns. */
  function RowObject(c: Commission, value: Value, factor: Value, commission: Value, created: Value, updated: Value)
    : (m: map<Column, Value>)
    requires WellTyped(ValueNf, value) && WellTyped(Factor, factor) && WellTyped(CommissionValue, commission)
    requires WellTyped(UpdatedAt, updated)
    ensures m.Keys == {Id, NfNumber, OrderNumberNectar, OrderNumberEmbrascol, ValueNf, Factor,
                       CommissionValue, IsPaid, CreatedAt, UpdatedAt}
    ensures AllWellTyped(m - Ignored)
    ensures m[Id] == Number(c.id) && m[CreatedAt] == created
    ensures m[NfNumber] == TextValue(c.nfNumber)
    ensures m[OrderNumberNectar] == TextValue(c.orderNumberNectar)
    ensures m[OrderNumberEmbrascol] == TextValue(c.orderNumberEmbrascol)
    ensures m[ValueNf] == value && m[Factor] == factor && m[CommissionValue] == commission
    ensures m[IsPaid] == Boolean(c.isPaid) && m[UpdatedAt] == updated
  {
    var m := map[Id := Number(c.id),
                 NfNumber := TextValue(c.nfNumber),
                 OrderNumberNectar := TextValue(c.orderNumberNectar),
                 OrderNumberEmbrascol := TextValue(c.orderNumberEmbrascol),
                 ValueNf := value,
                 Factor := factor,
                 CommissionValue := commission,
                 IsPaid := Boolean(c.isPaid),
                 CreatedAt := created,
                 UpdatedAt := updated];
    assert AllWellTyped(m - Ignored) by {
      ObjectWellTyped(m, c);
    }
    m
  }

  /** The writable columns of a row object are well typed once its numbers
      and `updated_at` are: its flag is a JSON boolean and its texts go to
      `VARCHAR` columns. */
  lemma ObjectWellTyped(m: map<Column, Value>, c: Commission)
    requires m.Keys == {Id, NfNumber, OrderNumberNectar, OrderNumberEmbrascol, ValueNf, Factor,
                        CommissionValue, IsPaid, CreatedAt, UpdatedAt}
    requires WellTyped(ValueNf, m[ValueNf]) && WellTyped(Factor, m[Factor]) && WellTyped(CommissionValue, m[CommissionValue])
    requires m[IsPaid] == Boolean(c.isPaid) && WellTyped(UpdatedAt, m[UpdatedAt])
    ensures AllWellTyped(m - Ignored)
  {
    var kept := m - Ignored;
    forall col | col in kept ensures WellTyped(col, kept[col]) {
      assert kept[col] == m[col];
    }
  }

  /** `handleEdit`: the row goes into edit mode with a full copy of itself. */
  function HandleEdit(st: EditState, c: Commission): (r: EditState)
    ensures r.editingId == Some(c.id)
    ensures r.editData.Keys == Snapshot(c).Keys
    ensures forall col | col in r.editData :: r.editData[col] == Snapshot(c)[col]
  {
    EditState(Some(c.id), Snapshot(c))
  }

  /** An input's `onChange`: `{ ...editData, [column]: value }`. */
  function EditField(st: EditState, col: Column, v: Value): (r: EditState)
    ensures r.editingId == st.editingId
    ensures col in r.editData && r.editData[col] == v
    ensures forall k | k in st.editData && k != col :: k in r.editData && r.editData[k] == st.editData[k]
  {
    st.(editData := st.editData[col := v])
  }

  /** `parseFloat(e.target.value)` of the value and factor inputs, at the
      column's scale. Text that is not a number gives `NaN`, which
      `JSON.stringify` sends as null. */
  function NumberInput(text: string, scale: nat): (v: Value)
    ensures Decimal.ParseDecimal(text, scale).Some? ==> v == Number(Decimal.ParseDecimal(text, scale).value)
    ensures Decimal.ParseDecimal(text, scale).None? ==> v == Null
  {
    match Decimal.ParseDecimal(text, scale)
    case Some(n) => Number(n)
    case None => Null
  }

  /** `handleCancel`. */
  function HandleCancel(st: EditState): (r: EditState)
    ensures r.editingId.None? && r.editData == map[]
  {
    Idle
  }

  /** What came back from the `PUT`: an ok response with the updated row, a
      response that is not ok, or a request that threw. */
  datatype SaveOutcome = SaveOk(row: Commission) | SaveNotOk | SaveThrew

  /** The edit state afterwards and the row handed to `onCommissionUpdated`. */
  datatype AfterSave = AfterSave(state: EditState, updated: Option<Commission>)

  /** `handleSave` once the response is in. */
  function HandleSave(st: EditState, outcome: SaveOutcome): (r: AfterSave)
    ensures outcome.SaveOk? ==> r.state == HandleCancel(st) && r.updated == Some(outcome.row)
    ensures !outcome.SaveOk? ==> r.state == st && r.updated.None?
  {
    match outcome
    case SaveOk(row) => AfterSave(Idle, Some(row))
    case _ => AfterSave(st, None)
  }

  /** The body `togglePaidStatus` sends. */
  function TogglePayload(c: Commission): (m: map<Column, Value>)
    ensures m.Keys == {IsPaid}
    ensures m[IsPaid].Boolean? && m[IsPaid].flag == !c.isPaid
  {
    map[IsPaid := Boolean(!c.isPaid)]
  }

  /** `handleDelete`: the id handed to `onCommissionDeleted`, if any. The
      response is only consulted when the user confirmed; `None` is a
      request that threw. */
  function HandleDelete(id: int, confirmed: bool, responseOk: Option<bool>): (r: Option<int>)
    ensures r.Some? <==> confirmed && responseOk == Some(true)
    ensures r.Some? ==> r.value == id
  {
    if confirmed && responseOk == Some(true) then Some(id) else None
  }

  // ---------------------------------------------------------------------
  // What the server does with these bodies.

  /** A delete the user confirmed reaches the list exactly when the server
      found the id. Removing the id from the table's rows then gives exactly
      the rows the server keeps, and the dashboard's newest-first list
      without the id holds exactly those rows. */
  lemma DeleteMirrorsServer(t: Table, id: int)
    requires Valid(t)
    ensures var s := DeleteRoute(t, id);
            var notified := HandleDelete(id, true, Some(s.response.status == 200));
            && (notified.Some? <==> HasId(t.rows, id))
            && (notified.Some? ==> Dashboard.Removed(t.rows, notified.value) == s.table.rows)
            && (notified.Some? ==>
                  multiset(Dashboard.Removed(Listing.List(t, None), notified.value)) == multiset(s.table.rows))
            && (notified.None? ==> s.table.rows == t.rows)
  {
    if HasId(t.rows, id) {
      var i := FindIndex(t.rows, id).value;
      assert Dashboard.Removed(t.rows, id) == DeleteRoute(t, id).table.rows by {
        RemovedAt(t, i);
      }
      assert multiset(Dashboard.Removed(Listing.List(t, None), id)) == multiset(Dashboard.Removed(t.rows, id)) by {
        ListedSameRecords(t, id);
      }
    }
  }

  /** The dashboard's newest-first list, less one id, holds the same rows as
      the table less that id. */
  lemma ListedSameRecords(t: Table, id: int)
    ensures multiset(Dashboard.Removed(Listing.List(t, None), id)) == multiset(Dashboard.Removed(t.rows, id))
  {
    assert multiset(Listing.List(t, None)) == multiset(t.rows) by {
      Listing.SelectEverything(t.rows);
    }
    Dashboard.RemovedSameRecords(Listing.List(t, None), t.rows, id);
  }

  /** Removing the id of row `i` leaves the rows before and after it. */
  lemma RemovedAt(t: Table, i: nat)
    requires Valid(t) && i < |t.rows|
    ensures Dashboard.Removed(t.rows, t.rows[i].id) == t.rows[..i] + t.rows[i + 1..]
  {
    OnlyAt(t, i);
    RemovedSplit(t.rows, i);
  }

  lemma RemovedSplit(rows: seq<Commission>, i: nat)
    requires i < |rows| && !HasId(rows[..i], rows[i].id) && !HasId(rows[i + 1..], rows[i].id)
    ensures Dashboard.Removed(rows, rows[i].id) == rows[..i] + rows[i + 1..]
  {
    var before, c, after := rows[..i], rows[i], rows[i + 1..];
    assert Dashboard.Removed(before + [c] + after, c.id) == before + after by {
      RemovedAround(before, c, after);
    }
    assert rows == before + [c] + after;
  }

  /** Ids are unique, so the row at `i` is the only one with its id. */
  lemma OnlyAt(t: Table, i: nat)
    requires Valid(t) && i < |t.rows|
    ensures !HasId(t.rows[..i], t.rows[i].id) && !HasId(t.rows[i + 1..], t.rows[i].id)
  {
    var id := t.rows[i].id;
    forall j | 0 <= j < i ensures t.rows[..i][j].id != id {
      assert t.rows[..i][j] == t.rows[j];
    }
    var after := t.rows[i + 1..];
    forall j | 0 <= j < |after| ensures after[j].id != id {
      assert after[j] == t.rows[i + 1 + j];
    }
  }

  lemma RemovedAround(before: seq<Commission>, c: Commission, after: seq<Commission>)
    requires !HasId(before, c.id) && !HasId(after, c.id)
    ensures Dashboard.Removed(before + [c] + after, c.id) == before + after
  {
    var id := c.id;
    assert Dashboard.Removed([c], id) == [] by {
      assert [c][1..] == [];
    }
    Dashboard.RemovedNothing(before, id);
    Dashboard.RemovedKeepsOrder(before, [c], id);
    assert Dashboard.Removed(before + [c], id) == before + [];
    Dashboard.RemovedNothing(after, id);
    Dashboard.RemovedKeepsOrder(before + [c], after, id);
    assert before + [] == before;
  }

  lemma IndexOfRow(t: Table, c: Commission) returns (i: nat)
    requires Valid(t) && c in t.rows
    ensures FindIndex(t.rows, c.id) == Some(i) && t.rows[i] == c
  {
    var k :| 0 <= k < |t.rows| && t.rows[k] == c;
    assert HasId(t.rows, c.id);
    i := FindIndex(t.rows, c.id).value;
  }

  /** Saving an untouched edit copy rewrites the row with its own values:
      only `updated_at` moves. */
  lemma UntouchedSaveKeepsRow(t: Table, c: Commission, now: Timestamp)
    requires Valid(t) && c in t.rows
    ensures var i := FindIndex(t.rows, c.id).value;
            UpdateRoute(t, c.id, Snapshot(c), now)
              == Served(Table(t.rows[i := c.(updatedAt := now)], t.nextId), Response(200, RowBody(c.(updatedAt := now))))
  {
    var i := IndexOfRow(t, c);
    var patch := Snapshot(c);
    assert IsPaid in patch - Ignored;
    SnapshotChanges(c);
    SelfPatchKeepsRow(t, i, patch, ToMillis(c.updatedAt), now);
  }

  /** A body whose `SET` list assigns every writable column the row's own
      value, and `updated_at` any time `u`, rewrites the row unchanged but
      for `updated_at`, which the trigger sets to `now`. */
  lemma SelfPatchKeepsRow(t: Table, i: nat, patch: map<Column, Value>, u: Timestamp, now: Timestamp)
    requires Valid(t) && i < |t.rows| && FindIndex(t.rows, t.rows[i].id) == Some(i)
    requires patch - Ignored != map[] && AllWellTyped(patch - Ignored)
    requires var c := t.rows[i];
             ChangesOf(patch - Ignored)
               == Changes(Some(c.nfNumber), Some(c.orderNumberNectar), Some(c.orderNumberEmbrascol),
                          Some(Some(c.valueNf)), Some(Some(c.factor)), Some(Some(c.commissionValue)),
                          Some(c.isPaid), Some(Some(u)))
    ensures var c := t.rows[i];
            UpdateRoute(t, c.id, patch, now)
              == Served(Table(t.rows[i := c.(updatedAt := now)], t.nextId), Response(200, RowBody(c.(updatedAt := now))))
  {
    var c := t.rows[i];
    var applied := c.(updatedAt := u);
    assert Apply(c, ChangesOf(patch - Ignored)) == applied;
    assert WriteHook(applied, now) == c.(updatedAt := now);
    assert FitsColumns(c);
    UpdateRouteWrites(t, c.id, patch, now, i);
  }

  /** The `SET` list of a snapshot names every writable column with the
      row's own value; `updated_at` reads back to the millisecond. */
  lemma SnapshotChanges(c: Commission)
    ensures ChangesOf(Snapshot(c) - Ignored)
              == Changes(Some(c.nfNumber), Some(c.orderNumberNectar), Some(c.orderNumberEmbrascol),
                         Some(Some(c.valueNf)), Some(Some(c.factor)), Some(Some(c.commissionValue)),
                         Some(c.isPaid), Some(Some(ToMillis(c.updatedAt))))
  {
    IsoTextReads(c.updatedAt);
    ObjectChanges(c, NumericText(c.valueNf, CENTS_SCALE), NumericText(c.factor, FACTOR_SCALE),
                  NumericText(c.commissionValue, CENTS_SCALE), Text(Iso(c.createdAt)), Text(Iso(c.updatedAt)),
                  ToMillis(c.updatedAt));
  }

  lemma ObjectChanges(c: Commission, value: Value, factor: Value, commission: Value, created: Value, updated: Value,
                      u: Timestamp)
    requires value.Text? && Decimal.ParseDecimal(value.text, CENTS_SCALE) == Some(c.valueNf)
    requires factor.Text? && Decimal.ParseDecimal(factor.text, FACTOR_SCALE) == Some(c.factor)
    requires commission.Text? && Decimal.ParseDecimal(commission.text, CENTS_SCALE) == Some(c.commissionValue)
    requires TimeValue(updated) && TimeChange(updated) == Some(u)
    ensures ChangesOf(RowObject(c, value, factor, commission, created, updated) - Ignored)
              == Changes(Some(c.nfNumber), Some(c.orderNumberNectar), Some(c.orderNumberEmbrascol),
                         Some(Some(c.valueNf)), Some(Some(c.factor)), Some(Some(c.commissionValue)),
                         Some(c.isPaid), Some(Some(u)))
  {
    RowObjectKeepsTexts(c, value, factor, commission, created, updated);
    RowObjectKeepsAmounts(c, value, factor, commission, created, updated);
    SelfChanges(c, RowObject(c, value, factor, commission, created, updated) - Ignored, u);
  }

  /** Dropping `id` and `created_at` keeps the text columns of the object. */
  lemma RowObjectKeepsTexts(c: Commission, value: Value, factor: Value, commission: Value, created: Value, updated: Value)
    requires WellTyped(ValueNf, value) && WellTyped(Factor, factor) && WellTyped(CommissionValue, commission)
    requires WellTyped(UpdatedAt, updated)
    ensures var kept := RowObject(c, value, factor, commission, created, updated) - Ignored;
            && NfNumber in kept && kept[NfNumber] == TextValue(c.nfNumber)
            && OrderNumberNectar in kept && kept[OrderNumberNectar] == TextValue(c.orderNumberNectar)
            && OrderNumberEmbrascol in kept && kept[OrderNumberEmbrascol] == TextValue(c.orderNumberEmbrascol)
            && UpdatedAt in kept && kept[UpdatedAt] == updated
  {
    var m := RowObject(c, value, factor, commission, created, updated);
    assert NfNumber in m && OrderNumberNectar in m && OrderNumberEmbrascol in m && UpdatedAt in m;
  }

  /** Dropping `id` and `created_at` keeps the amounts and the flag. */
  lemma RowObjectKeepsAmounts(c: Commission, value: Value, factor: Value, commission: Value, created: Value, updated: Value)
    requires WellTyped(ValueNf, value) && WellTyped(Factor, factor) && WellTyped(CommissionValue, commission)
    requires WellTyped(UpdatedAt, updated)
    ensures var kept := RowObject(c, value, factor, commission, created, updated) - Ignored;
            && ValueNf in kept && kept[ValueNf] == value
            && Factor in kept && kept[Factor] == factor
            && CommissionValue in kept && kept[CommissionValue] == commission
            && IsPaid in kept && kept[IsPaid] == Boolean(c.isPaid)
  {
    var m := RowObject(c, value, factor, commission, created, updated);
    assert ValueNf in m && Factor in m && CommissionValue in m && IsPaid in m;
  }

  /** A well-typed body holding every writable column at the row's own
      value (numbers as text, the flag as a JSON boolean) assigns exactly
      the row's values, and `updated_at` what its text reads as. */
  lemma SelfChanges(c: Commission, kept: map<Column, Value>, u: Timestamp)
    requires AllWellTyped(kept)
    requires NfNumber in kept && kept[NfNumber] == TextValue(c.nfNumber)
    requires OrderNumberNectar in kept && kept[OrderNumberNectar] == TextValue(c.orderNumberNectar)
    requires OrderNumberEmbrascol in kept && kept[OrderNumberEmbrascol] == TextValue(c.orderNumberEmbrascol)
    requires ValueNf in kept && kept[ValueNf].Text?
    requires Decimal.ParseDecimal(kept[ValueNf].text, CENTS_SCALE) == Some(c.valueNf)
    requires Factor in kept && kept[Factor].Text?
    requires Decimal.ParseDecimal(kept[Factor].text, FACTOR_SCALE) == Some(c.factor)
    requires CommissionValue in kept && kept[CommissionValue].Text?
    requires Decimal.ParseDecimal(kept[CommissionValue].text, CENTS_SCALE) == Some(c.commissionValue)
    requires IsPaid in kept && kept[IsPaid] == Boolean(c.isPaid)
    requires UpdatedAt in kept && TimeChange(kept[UpdatedAt]) == Some(u)
    ensures ChangesOf(kept)
              == Changes(Some(c.nfNumber), Some(c.orderNumberNectar), Some(c.orderNumberEmbrascol),
                         Some(Some(c.valueNf)), Some(Some(c.factor)), Some(Some(c.commissionValue)),
                         Some(c.isPaid), Some(Some(u)))
  {
  }

  /** The toggle flips `is_paid` and moves `updated_at`; nothing else of the
      row changes. */
  lemma ToggleFlipsOnlyPaid(t: Table, c: Commission, now: Timestamp)
    requires Valid(t) && c in t.rows
    ensures var i := FindIndex(t.rows, c.id).value;
            var r := c.(isPaid := !c.isPaid, updatedAt := now);
            UpdateRoute(t, c.id, TogglePayload(c), now)
              == Served(Table(t.rows[i := r], t.nextId), Response(200, RowBody(r)))
  {
    var i := IndexOfRow(t, c);
    ToggleChanges(c);
    PaidOnlyUpdateKeepsAmounts(t, c.id, !c.isPaid, now);
  }

  /** The toggle's `SET` list names `is_paid` alone, with the flipped flag. */
  lemma ToggleChanges(c: Commission)
    ensures TogglePayload(c) - Ignored == TogglePayload(c)
    ensures AllWellTyped(TogglePayload(c)) && ChangesOf(TogglePayload(c)) == NoChanges.(isPaid := Some(!c.isPaid))
  {
  }

  /** A well-typed body that nulls `value_nf` or `factor` of an existing
      row is refused with 500. */
  lemma NullingBodyRefused(t: Table, id: int, patch: map<Column, Value>, now: Timestamp)
    requires HasId(t.rows, id) && IsPaid in patch && AllWellTyped(patch - Ignored)
    requires WritesNull(ChangesOf(patch - Ignored))
    ensures UpdateRoute(t, id, patch, now) == Served(t, Response(500, ErrorBody(MSG_UPDATE_FAILED)))
  {
    assert IsPaid in patch - Ignored;
  }

  lemma StoreKeepsWellTyped(m: map<Column, Value>, col: Column, v: Value)
    requires AllWellTyped(m) && WellTyped(col, v)
    ensures AllWellTyped(m[col := v])
  {
    var m' := m[col := v];
    forall k | k in m' ensures WellTyped(k, m'[k]) {
      if k != col {
        assert m'[k] == m[k];
      }
    }
  }

  /** A null `value_nf` in the saved copy is refused: the answer is 500
      and the table is untouched. */
  lemma NullValueRefused(t: Table, c: Commission, now: Timestamp)
    requires Valid(t) && c in t.rows
    ensures UpdateRoute(t, c.id, Snapshot(c)[ValueNf := Null], now) == Served(t, Response(500, ErrorBody(MSG_UPDATE_FAILED)))
  {
    var i := IndexOfRow(t, c);
    NullValueOverWellTyped(t, c.id, Snapshot(c), now);
  }

  lemma NullValueOverWellTyped(t: Table, id: int, m: map<Column, Value>, now: Timestamp)
    requires HasId(t.rows, id) && IsPaid in m && AllWellTyped(m - Ignored)
    ensures UpdateRoute(t, id, m[ValueNf := Null], now) == Served(t, Response(500, ErrorBody(MSG_UPDATE_FAILED)))
  {
    var patch := m[ValueNf := Null];
    var kept := patch - Ignored;
    assert kept == (m - Ignored)[ValueNf := Null];
    StoreKeepsWellTyped(m - Ignored, ValueNf, Null);
    assert ValueNf in kept && kept[ValueNf] == Null;
    assert WritesNull(ChangesOf(kept));
    NullingBodyRefused(t, id, patch, now);
  }

  /** Emptying the value input and saving is refused: `parseFloat` of the
      empty text is sent as null, which the `NOT NULL` column rejects. */
  lemma ClearedValueRefused(t: Table, c: Commission, now: Timestamp)
    requires Valid(t) && c in t.rows
    ensures var edited := EditField(HandleEdit(Idle, c), ValueNf, NumberInput("", CENTS_SCALE));
            UpdateRoute(t, c.id, edited.editData, now) == Served(t, Response(500, ErrorBody(MSG_UPDATE_FAILED)))
  {
    assert NumberInput("", CENTS_SCALE) == Null;
    NullValueRefused(t, c, now);
  }
}

=== FILE: store.dfy ===
/** The `commissions` table (server/database.js): its rows, the `SERIAL`
    id counter, the column defaults, and the `update_commission_value`
    trigger that runs before every insert and every update. The SQL engine
    is replaced by pure functions over a sequence of rows kept in insertion
    order. */
module Store {
  import opened Wrappers
  import opened Money
  import opened Clock

  /** One row of `commissions`; money in cents, the factor in ten-thousandths. */
  datatype Commission = Commission(
    id: int,
    nfNumber: Option<string>,
    orderNumberNectar: Option<string>,
    orderNumberEmbrascol: Option<string>,
    valueNf: int,
    factor: int,
    commissionValue: int,
    isPaid: bool,
    createdAt: Timestamp,
    updatedAt: Timestamp)

  /** The table and the next value of its id sequence. */
  datatype Table = Table(rows: seq<Commission>, nextId: int)

  /** A fresh table: no rows, and a sequence that starts at 1. */
  const EmptyTable: Table := Table([], 1)

  datatype StoreError = NotFound | NotNullViolation | NumericOverflow

  /** The outcome of a write: the table afterwards and the row or error. */
  datatype Write = Write(table: Table, result: Result<Commission, StoreError>)

  /** The derived-value invariant: the commission is value times factor at
      the commission column's scale. */
  predicate Derived(c: Commission) {
    c.commissionValue == CommissionCents(c.valueNf, c.factor)
  }

  /** Every numeric column is within its declared precision. */
  predicate FitsColumns(c: Commission) {
    FitsMoney(c.valueNf) && FitsFactor(c.factor) && FitsMoney(c.commissionValue)
  }

  /** A value and factor an insert or update can store: both fit their
      columns, and so does the commission the trigger derives from them. */
  predicate Storable(valueNf: int, factor: int) {
    FitsMoney(valueNf) && FitsFactor(factor) && FitsMoney(CommissionCents(valueNf, factor))
  }

  /** What the table guarantees between statements: ids issued by the
      sequence, unique (ascending in insertion order), every row derived and
      within its columns' precision. */
  predicate Valid(t: Table) {
    && t.nextId >= 1
    && (forall i | 0 <= i < |t.rows| :: 1 <= t.rows[i].id < t.nextId)
    && (forall i | 0 <= i < |t.rows| :: Derived(t.rows[i]) && FitsColumns(t.rows[i]))
    && (forall i, j | 0 <= i < j < |t.rows| :: t.rows[i].id < t.rows[j].id)
  }

  predicate HasId(rows: seq<Commission>, id: int) {
    exists i | 0 <= i < |rows| :: rows[i].id == id
  }

  /** The `BEFORE INSERT OR UPDATE` trigger: recompute the commission from
      the row's own value and factor and stamp the write time. Whatever
      commission or update time the row carried is discarded. */
  function WriteHook(c: Commission, now: Timestamp): (r: Commission)
    ensures Derived(r) && r.updatedAt == now
    ensures r.(commissionValue := c.commissionValue, updatedAt := c.updatedAt) == c
  {
    c.(commissionValue := CommissionCents(c.valueNf, c.factor), updatedAt := now)
  }

  /** The columns an insert supplies; `factor == None` leaves the column to
      its `DEFAULT 0.025`. `is_paid`, the id and the timestamps always come
      from their defaults. */
  datatype NewRow = NewRow(
    nfNumber: Option<string>,
    orderNumberNectar: Option<string>,
    orderNumberEmbrascol: Option<string>,
    valueNf: int,
    factor: Option<int>)

  /** `INSERT ... RETURNING *`. The sequence value is taken before the row is
      checked, so a failed insert still consumes its id. */
  function Insert(t: Table, v: NewRow, now: Timestamp): (w: Write)
    ensures w.table.nextId == t.nextId + 1
    ensures w.result.Ok? <==> Storable(v.valueNf, v.factor.GetOr(DEFAULT_FACTOR))
    ensures w.result.Err? ==> w.result.error == NumericOverflow && w.table.rows == t.rows
    ensures w.result.Ok? ==>
              var r := w.result.value;
              && w.table.rows == t.rows + [r]
              && r.id == t.nextId
              && r.nfNumber == v.nfNumber
              && r.orderNumberNectar == v.orderNumberNectar
              && r.orderNumberEmbrascol == v.orderNumberEmbrascol
              && r.valueNf == v.valueNf
              && r.factor == (if v.factor.Some? then v.factor.value else DEFAULT_FACTOR)
              && !r.isPaid
              && r.commissionValue * FACTOR_ONE - r.valueNf * r.factor <= FACTOR_ONE / 2
              && r.valueNf * r.factor - r.commissionValue * FACTOR_ONE <= FACTOR_ONE / 2
              && Derived(r)
              && r.createdAt == now && r.updatedAt == now
  {
    var row := Commission(t.nextId, v.nfNumber, v.orderNumberNectar, v.orderNumberEmbrascol,
                          v.valueNf, v.factor.GetOr(DEFAULT_FACTOR), 0, false, now, now);
    var r := WriteHook(row, now);
    if FitsColumns(r) then Write(Table(t.rows + [r], t.nextId + 1), Ok(r))
    else Write(Table(t.rows, t.nextId + 1), Err(NumericOverflow))
  }

  /** The `SET` list of an update, already read against the column types:
      `None` leaves the column alone, `Some(None)` writes NULL. */
  datatype Changes = Changes(
    nfNumber: Option<Option<string>>,
    orderNumberNectar: Option<Option<string>>,
    orderNumberEmbrascol: Option<Option<string>>,
    valueNf: Option<Option<int>>,
    factor: Option<Option<int>>,
    commissionValue: Option<Option<int>>,
    isPaid: Option<bool>,
    updatedAt: Option<Option<Timestamp>>)

  const NoChanges: Changes := Changes(None, None, None, None, None, None, None, None)

  /** The value a column gets: the new one if the `SET` list names it. */
  function Assigned<T>(change: Option<T>, current: T): T {
    if change.Some? then change.value else current
  }

  function AssignedNumber(change: Option<Option<int>>, current: int): int {
    if change.Some? && change.value.Some? then change.value.value else current
  }

  /** The changes set `value_nf` or `factor` to NULL; the first violates its
      `NOT NULL`, the second makes the trigger's product NULL, which violates
      `commission_value`'s. */
  predicate WritesNull(ch: Changes) {
    ch.valueNf == Some(None) || ch.factor == Some(None)
  }

  /** The row with the `SET` list applied, before the trigger runs. */
  function Apply(c: Commission, ch: Changes): Commission {
    c.(nfNumber := Assigned(ch.nfNumber, c.nfNumber),
       orderNumberNectar := Assigned(ch.orderNumberNectar, c.orderNumberNectar),
       orderNumberEmbrascol := Assigned(ch.orderNumberEmbrascol, c.orderNumberEmbrascol),
       valueNf := AssignedNumber(ch.valueNf, c.valueNf),
       factor := AssignedNumber(ch.factor, c.factor),
       commissionValue := AssignedNumber(ch.commissionValue, c.commissionValue),
       isPaid := Assigned(ch.isPaid, c.isPaid),
       updatedAt := if ch.updatedAt.Some? && ch.updatedAt.value.Some? then ch.updatedAt.value.value else c.updatedAt)
  }

  /** Position of the first row with `id`. */
  function FindIndex(rows: seq<Commission>, id: int): (r: Option<nat>)
    ensures r.Some? ==> r.value < |rows| && rows[r.value].id == id
    ensures r.Some? ==> forall j | 0 <= j < r.value :: rows[j].id != id
    ensures r.None? <==> !HasId(rows, id)
  {
    if rows == [] then None
    else if rows[0].id == id then Some(0)
    else match FindIndex(rows[1..], id)
      case Some(i) => Some(i + 1)
      case None => None
  }

  /** `UPDATE commissions SET ... WHERE id = $n RETURNING *`. */
  function Update(t: Table, id: int, ch: Changes, now: Timestamp): (w: Write)
    ensures w.table.nextId == t.nextId
    ensures w.result.Err? ==> w.table == t
    ensures w.result == Err(NotFound) <==> !HasId(t.rows, id)
    ensures HasId(t.rows, id) && WritesNull(ch) ==> w.result == Err(NotNullViolation)
    ensures w.result.Ok? ==>
              FindIndex(t.rows, id).Some? &&
              var i := FindIndex(t.rows, id).value;
              var old_ := t.rows[i];
              var r := w.result.value;
              && w.table.rows == t.rows[i := r]
              && r.id == id
              && r.createdAt == old_.createdAt
              && r.nfNumber == Assigned(ch.nfNumber, old_.nfNumber)
              && r.orderNumberNectar == Assigned(ch.orderNumberNectar, old_.orderNumberNectar)
              && r.orderNumberEmbrascol == Assigned(ch.orderNumberEmbrascol, old_.orderNumberEmbrascol)
              && r.valueNf == AssignedNumber(ch.valueNf, old_.valueNf)
              && r.factor == AssignedNumber(ch.factor, old_.factor)
              && r.isPaid == Assigned(ch.isPaid, old_.isPaid)
              && Derived(r) && FitsColumns(r)
              && r.updatedAt == now
  {
    match FindIndex(t.rows, id)
    case None => Write(t, Err(NotFound))
    case Some(i) =>
      if WritesNull(ch) then Write(t, Err(NotNullViolation))
      else
        var r := WriteHook(Apply(t.rows[i], ch), now);
        if FitsColumns(r) then Write(Table(t.rows[i := r], t.nextId), Ok(r))
        else Write(t, Err(NumericOverflow))
  }

  /** `DELETE FROM commissions WHERE id = $1 RETURNING id`. */
  function Delete(t: Table, id: int): (w: Write)
    ensures w.table.nextId == t.nextId
    ensures w.result.Err? <==> !HasId(t.rows, id)
    ensures w.result.Err? ==> w.result.error == NotFound && w.table == t
    ensures w.result.Ok? ==>
              FindIndex(t.rows, id).Some? &&
              var i := FindIndex(t.rows, id).value;
              && w.result.value == t.rows[i]
              && w.table.rows == t.rows[..i] + t.rows[i + 1..]
  {
    match FindIndex(t.rows, id)
    case None => Write(t, Err(NotFound))
    case Some(i) => Write(Table(t.rows[..i] + t.rows[i + 1..], t.nextId), Ok(t.rows[i]))
  }

  // ---------------------------------------------------------------------
  // The table invariant across writes.

  lemma InsertKeepsValid(t: Table, v: NewRow, now: Timestamp)
    requires Valid(t)
    ensures Valid(Insert(t, v, now).table)
  {
  }

  lemma UpdateKeepsValid(t: Table, id: int, ch: Changes, now: Timestamp)
    requires Valid(t)
    ensures Valid(Update(t, id, ch, now).table)
  {
    var w := Update(t, id, ch, now);
    if w.result.Ok? {
      var i := FindIndex(t.rows, id).value;
      assert forall k | 0 <= k < |t.rows| :: w.table.rows[k].id == t.rows[k].id;
    }
  }

  lemma DeleteKeepsValid(t: Table, id: int)
    requires Valid(t)
    ensures Valid(Delete(t, id).table)
  {
    var w := Delete(t, id);
    if w.result.Ok? {
      RemoveAtKeepsValid(t, FindIndex(t.rows, id).value);
    }
  }

  lemma RemoveAtKeepsValid(t: Table, i: nat)
    requires Valid(t) && i < |t.rows|
    ensures Valid(Table(t.rows[..i] + t.rows[i + 1..], t.nextId))
  {
    var rs := t.rows[..i] + t.rows[i + 1..];
    forall k | 0 <= k < |rs| ensures rs[k] == t.rows[if k < i then k else k + 1] {
    }
    forall a, b | 0 <= a < b < |rs| ensures rs[a].id < rs[b].id {
      assert rs[a] == t.rows[if a < i then a else a + 1];
      assert rs[b] == t.rows[if b < i then b else b + 1];
    }
  }

  lemma RemoveAtIdGone(t: Table, i: nat)
    requires Valid(t) && i < |t.rows|
    ensures !HasId(t.rows[..i] + t.rows[i + 1..], t.rows[i].id)
  {
    var rs := t.rows[..i] + t.rows[i + 1..];
    forall k | 0 <= k < |rs| ensures rs[k].id != t.rows[i].id {
      if k < i {
        assert rs[k] == t.rows[k];
      } else {
        assert rs[k] == t.rows[k + 1];
      }
    }
  }

  lemma RemoveAtMembers(rows: seq<Commission>, i: nat, id: int)
    requires i < |rows| && rows[i].id == id && !HasId(rows[..i] + rows[i + 1..], id)
    ensures forall c | c in rows && c.id != id :: c in rows[..i] + rows[i + 1..]
    ensures forall c | c in rows[..i] + rows[i + 1..] :: c in rows && c.id != id
  {
    var rs := rows[..i] + rows[i + 1..];
    forall c | c in rows && c.id != id ensures c in rs {
      var k :| 0 <= k < |rows| && rows[k] == c;
      if k < i { assert rs[k] == c; } else { assert rs[k - 1] == c; }
    }
    forall c | c in rs ensures c in rows {
      var k :| 0 <= k < |rs| && rs[k] == c;
      if k < i { assert rows[k] == c; } else { assert rows[k + 1] == c; }
    }
  }

  /** After a successful delete the id is gone, so deleting it again is
      `NotFound`; every other row is still there. */
  lemma DeleteRemovesExactly(t: Table, id: int)
    requires Valid(t) && HasId(t.rows, id)
    ensures var t' := Delete(t, id).table;
            && !HasId(t'.rows, id)
            && Delete(t', id) == Write(t', Err(NotFound))
            && (forall c | c in t.rows && c.id != id :: c in t'.rows)
            && (forall c | c in t'.rows :: c in t.rows && c.id != id)
  {
    var i := FindIndex(t.rows, id).value;
    var t' := Delete(t, id).table;
    assert t'.rows == t.rows[..i] + t.rows[i + 1..];
    RemoveAtIdGone(t, i);
    RemoveAtMembers(t.rows, i, id);
  }

  /** Updating only `is_paid` keeps the value, the factor and the commission
      of a valid row, and still refreshes `updated_at`. */
  lemma PaidOnlyUpdateKeepsAmounts(t: Table, id: int, paid: bool, now: Timestamp)
    requires Valid(t) && HasId(t.rows, id)
    ensures var w := Update(t, id, NoChanges.(isPaid := Some(paid)), now);
            && w.result.Ok?
            && var i := FindIndex(t.rows, id).value;
               w.result.value == t.rows[i].(isPaid := paid, updatedAt := now)
  {
    var i := FindIndex(t.rows, id).value;
    assert Derived(t.rows[i]) && FitsColumns(t.rows[i]);
  }

  /** Whatever commission or update time an update supplies, the trigger
      overwrites it: the outcome is the same as without them. */
  lemma SuppliedDerivedColumnsIgnored(t: Table, id: int, ch: Changes, cv: Option<Option<int>>,
                                      ua: Option<Option<Timestamp>>, now: Timestamp)
    ensures Update(t, id, ch.(commissionValue := cv, updatedAt := ua), now) == Update(t, id, ch, now)
  {
    var ch' := ch.(commissionValue := cv, updatedAt := ua);
    match FindIndex(t.rows, id)
    case None =>
    case Some(i) =>
      assert WriteHook(Apply(t.rows[i], ch'), now) == WriteHook(Apply(t.rows[i], ch), now);
  }

  // ---------------------------------------------------------------------
  // Histories: the id sequence never hands out an id twice.

  datatype Op = InsertOp(row: NewRow) | UpdateOp(id: int, changes: Changes) | DeleteOp(id: int)

  function Step(t: Table, op: Op, now: Timestamp): Write {
    match op
    case InsertOp(v) => Insert(t, v, now)
    case UpdateOp(id, ch) => Update(t, id, ch, now)
    case DeleteOp(id) => Delete(t, id)
  }

  /** The table after a run of writes, each at its own time, and the ids of
      the rows the run's inserts created, in order. */
  datatype History = History(table: Table, issued: seq<int>)

  function Run(t: Table, ops: seq<(Op, Timestamp)>): (h: History)
    ensures h.table.nextId >= t.nextId
    ensures forall k | 0 <= k < |h.issued| :: t.nextId <= h.issued[k] < h.table.nextId
    ensures forall k, l | 0 <= k < l < |h.issued| :: h.issued[k] < h.issued[l]
    decreases |ops|
  {
    if ops == [] then History(t, [])
    else
      var w := Step(t, ops[0].0, ops[0].1);
      var rest := Run(w.table, ops[1..]);
      var created := if ops[0].0.InsertOp? && w.result.Ok? then [w.result.value.id] else [];
      History(rest.table, created + rest.issued)
  }

  /** Once a row is deleted, no later insert gets its id back. */
  lemma DeletedIdNeverReissued(t: Table, id: int, ops: seq<(Op, Timestamp)>)
    requires Valid(t) && HasId(t.rows, id)
    ensures id !in Run(Delete(t, id).table, ops).issued
  {
    var i := FindIndex(t.rows, id).value;
    assert t.rows[i].id < t.nextId;
  }
}

=== FILE: text.dfy ===
/** Character-level string helpers: whitespace trimming, joining on a
    delimiter and its inverse, single-character replacement. */
module Text {

  /** The characters Python's `str.isspace()` accepts, which `str.strip()`
      with no argument removes: the ASCII blanks and line breaks, the
      separators U+001C to U+001F, and the Unicode spaces and line and
      paragraph separators. */
  predicate IsSpace(c: char) {
    || c == ' ' || c == '\t' || c == '\n' || c == '\r' || c == '\U{000B}' || c == '\U{000C}'
    || '\U{001C}' <= c <= '\U{001F}'
    || c == '\U{0085}' || c == '\U{00A0}' || c == '\U{1680}'
    || '\U{2000}' <= c <= '\U{200A}'
    || c == '\U{2028}' || c == '\U{2029}' || c == '\U{202F}' || c == '\U{205F}' || c == '\U{3000}'
  }

  function TrimStart(s: string): (r: string)
    ensures |r| <= |s| && r == s[|s| - |r|..]
    ensures r != [] ==> !IsSpace(r[0])
    ensures forall i | 0 <= i < |s| - |r| :: IsSpace(s[i])
  {
    if s != [] && IsSpace(s[0]) then TrimStart(s[1..]) else s
  }

  function TrimEnd(s: string): (r: string)
    ensures |r| <= |s| && r == s[..|r|]
    ensures r != [] ==> !IsSpace(r[|r| - 1])
    ensures forall i | |r| <= i < |s| :: IsSpace(s[i])
  {
    if s != [] && IsSpace(s[|s| - 1]) then TrimEnd(s[..|s| - 1]) else s
  }

  /** Python's `str.strip()`: drop leading and trailing whitespace. */
  function Strip(s: string): (r: string)
    ensures |r| <= |s|
    ensures r != [] ==> !IsSpace(r[0]) && !IsSpace(r[|r| - 1])
    ensures r == [] <==> forall i | 0 <= i < |s| :: IsSpace(s[i])
  {
    TrimEnd(TrimStart(s))
  }

  /** The blanks PostgreSQL's lexer skips between tokens: space, tab, line
      feed, carriage return and form feed. */
  predicate SqlSpace(c: char) {
    c == ' ' || c == '\t' || c == '\n' || c == '\r' || c == '\U{000C}'
  }

  /** A name with the blanks around it dropped, as the lexer reads it. */
  function SqlTrim(s: string): (r: string)
    ensures |r| <= |s|
    ensures r != [] ==> !SqlSpace(r[0]) && !SqlSpace(r[|r| - 1])
    ensures r == [] <==> forall i | 0 <= i < |s| :: SqlSpace(s[i])
  {
    if s != [] && SqlSpace(s[0]) then SqlTrim(s[1..])
    else if s != [] && SqlSpace(s[|s| - 1]) then SqlTrim(s[..|s| - 1])
    else s
  }

  /** Python's `s.replace(a, b)` for one-character `a` and `b`. */
  function ReplaceChar(s: string, a: char, b: char): (r: string)
    ensures |r| == |s|
    ensures forall i | 0 <= i < |s| :: r[i] == (if s[i] == a then b else s[i])
  {
    if s == [] then [] else [if s[0] == a then b else s[0]] + ReplaceChar(s[1..], a, b)
  }

  /** Turning `a` into `b` and then `b` back into `a` is the same as
      turning `b` into `a`. */
  lemma ReplaceThereAndBack(s: string, a: char, b: char)
    ensures ReplaceChar(ReplaceChar(s, a, b), b, a) == ReplaceChar(s, b, a)
  {
    var x := ReplaceChar(ReplaceChar(s, a, b), b, a);
    var y := ReplaceChar(s, b, a);
    assert forall i | 0 <= i < |s| :: x[i] == y[i];
  }

  /** ASCII upper-case letters turned to lower case, the folding
      PostgreSQL's `pg_strncasecmp` applies. */
  function LowerAscii(s: string): (r: string)
    ensures |r| == |s|
    ensures forall i | 0 <= i < |s| :: r[i] == (if 'A' <= s[i] <= 'Z' then (s[i] as int + 32) as char else s[i])
  {
    if s == [] then [] else [if 'A' <= s[0] <= 'Z' then (s[0] as int + 32) as char else s[0]] + LowerAscii(s[1..])
  }

  lemma LowerAsciiKeepsLower(s: string)
    requires forall i | 0 <= i < |s| :: !('A' <= s[i] <= 'Z')
    ensures LowerAscii(s) == s
  {
  }

  /** Position of the first occurrence of `c` in `s`. */
  function IndexOf(s: string, c: char): (i: nat)
    requires c in s
    ensures i < |s| && s[i] == c && c !in s[..i]
  {
    if s[0] == c then 0 else 1 + IndexOf(s[1..], c)
  }

  /** The fields separated by `sep`, as JavaScript's `Array.prototype.join`. */
  function Join(fields: seq<string>, sep: char): string {
    if fields == [] then ""
    else if |fields| == 1 then fields[0]
    else fields[0] + [sep] + Join(fields[1..], sep)
  }

  /** Cut `s` at every occurrence of `sep`; the inverse of `Join`. */
  function Split(s: string, sep: char): (r: seq<string>)
    ensures |r| > 0
    decreases |s|
  {
    if sep in s then
      var i := IndexOf(s, sep);
      [s[..i]] + Split(s[i + 1..], sep)
    else [s]
  }

  /** No field contains the separator. */
  predicate Clean(fields: seq<string>, sep: char) {
    forall i | 0 <= i < |fields| :: sep !in fields[i]
  }

  lemma IndexAfterCleanPrefix(f: string, sep: char, rest: string)
    requires sep !in f
    ensures sep in f + [sep] + rest && IndexOf(f + [sep] + rest, sep) == |f|
  {
    var s := f + [sep] + rest;
    assert s[|f|] == sep;
    assert forall k | 0 <= k < |f| :: s[k] == f[k];
    var i := IndexOf(s, sep);
    assert i <= |f| by {
      assert sep !in s[..i];
    }
  }

  /** A separator-free field followed by the separator splits off as the
      first field. */
  lemma SplitAfterField(f: string, sep: char, rest: string)
    requires sep !in f
    ensures Split(f + [sep] + rest, sep) == [f] + Split(rest, sep)
  {
    IndexAfterCleanPrefix(f, sep, rest);
    var s := f + [sep] + rest;
    assert s[..|f|] == f;
    assert s[|f| + 1..] == rest;
  }

  /** Splitting a joined list of separator-free fields gives the fields back. */
  lemma {:induction false} SplitJoin(fields: seq<string>, sep: char)
    requires |fields| > 0 && Clean(fields, sep)
    ensures Split(Join(fields, sep), sep) == fields
  {
    if |fields| == 1 {
      assert Join(fields, sep) == fields[0];
    } else {
      var f := fields[0];
      var rest := Join(fields[1..], sep);
      assert Join(fields, sep) == f + [sep] + rest;
      SplitAfterField(f, sep, rest);
      assert Clean(fields[1..], sep) by {
        forall i | 0 <= i < |fields[1..]| ensures sep !in fields[1..][i] {
          assert fields[1..][i] == fields[i + 1];
        }
      }
      SplitJoin(fields[1..], sep);
      assert fields == [f] + fields[1..];
    }
  }
}

=== FILE: wrappers.dfy ===
/** Failure-carrying datatypes shared by every module of the model. */
module Wrappers {

  /** An optional value: a nullable column, an absent JSON key, a missing selection. */
  datatype Option<+T> = None | Some(value: T) {
    function GetOr(default: T): T {
      match this
      case Some(v) => v
      case None => default
    }
  }

  /** Either a value or the reason it could not be produced. */
  datatype Result<+T, +E> = Ok(value: T) | Err(error: E)
}
